=== FILE: README.md ===
# Nullable expression lowering and name expansion of a VB-to-C# converter

This project models the part of a Visual Basic to C# converter that turns
Visual Basic's three-valued operators on `Nullable` values into C#. C# has no
three-valued `AndAlso`, `OrElse` or comparison, so each one becomes a C#
template built from `HasValue`, `.Value`, `is var argN` / `is { } argN`
patterns and `?:`. The project also models the helpers those decisions rest
on:

- parenthesis peeling, parent-chain helpers and enclosing-symbol lookup (`SyntaxExtensions`);
- purity, safe reusability, condition position and precedence (`VbSyntaxNodeExtensions`);
- the Visual Basic name expander, which decides which names to qualify and rewrites them (`VbNameExpander`).

## Structure

- **Visual Basic syntax** (`VbSyntax`). Roslyn nodes become immutable datatypes. A node's parent chain is an explicit ancestor path `seq<Frame>`, with `ctx[0]` the parent. Each frame records the parent's kind and which slot of it the child fills. Symbols the semantic model would resolve travel on the nodes.
- **C# syntax and semantics** (`CsSyntax`, `CsSemantics`). The output language is a small C# expression datatype with a lifted evaluator. Its values are `bool?`, `int?` and null. `&&`, `||` and `?:` short-circuit. Patterns bind `argN` in a state. An evaluation that throws (for example `.Value` of null) is `Stuck`. Each evaluation of the two operand leaves is counted.
- **Visual Basic semantics** (`VbSemantics`). Visual Basic's three-valued `And`, `Or`, `Not`, `=` and comparisons, and the truth of a condition.
- **Revisions** (`Revisions`). Two places read differently from what they evidently mean (see Findings). The members there take a `Revision`: `AsWritten` models the code as written and `Corrected` the intended reading. Every property is stated for both revisions unless it says otherwise.
- **The converter** (`NullableExpressionsConverter`, `NullableTypesLogicExtensions`, `NullFlow`, `BooleanContext`).
  - The argument counter is threaded as a `nat`. `argN` is `Arg(N)`.
  - The not-nullable annotation is an input predicate `tagged` and an output flag `notNullable`.
- **Proofs.**
  - `LoweringCorrectness` proves that each template computes Visual Basic's result and evaluates each operand as often as Visual Basic does.
  - `LoweringHygiene` proves that each template writes a non-reusable operand once and declares fresh, distinct names.
  - `LoweringEndToEnd` connects the dispatch on Visual Basic trees, the null-flow lookup and the marks to the templates. With the corrected reading, the C# that comes out computes Visual Basic's result, provided no variable a guard checks is reassigned before the operand is read (see Left out).
  - `ConverterScenarios` replays conversions the repository's tests pin down. Each replay starts from a Visual Basic tree with its ancestor path and runs it through `WithBinaryExpressionLogicForNullableTypes`.

## Model

| member | source | states |
|---|---|---|
| SyntaxExtensions.SkipIntoParensCs | CodeConverter/Util/SyntaxExtensions.cs:5-13 | null stays null, and a non-null result is never a parenthesized expression |
| SyntaxExtensions.SkipIntoParensCsIsLastLayer | CodeConverter/Util/SyntaxExtensions.cs:5-13 | the result is the innermost of the parenthesis layers of the input |
| SyntaxExtensions.SkipIntoParensCsIdempotent | CodeConverter/Util/SyntaxExtensions.cs:5-13 | peeling an already peeled expression changes nothing |
| SyntaxExtensions.AnyInParensLayers | CodeConverter/Util/SyntaxExtensions.cs:14-22 | the predicate holds at the expression or under some parentheses exactly when it holds at one of the layers, both directions |
| SyntaxExtensions.AnyInParensNull | CodeConverter/Util/SyntaxExtensions.cs:14-22 | a null expression never satisfies the predicate |
| SyntaxExtensions.SkipIntoParens | CodeConverter/Util/SyntaxExtensions.cs:24-30 | the result is never a parenthesized expression |
| SyntaxExtensions.SkipIntoParensRoundTrip | CodeConverter/Util/SyntaxExtensions.cs:24-30 | wrapping the peeled expression in as many parentheses as were removed gives back the original |
| SyntaxExtensions.SkipIntoParensOfWrap | CodeConverter/Util/SyntaxExtensions.cs:24-30 | extra parentheses do not change what peeling reaches, and they add to the depth |
| SyntaxExtensions.SkipIntoParensIdempotent | CodeConverter/Util/SyntaxExtensions.cs:24-30 | peeling twice is peeling once |
| SyntaxExtensions.SkipOutOfParens | CodeConverter/Util/SyntaxExtensions.cs:32-38 | the ancestor reached is the first one that is not a parenthesized expression, or null when parentheses reach the root |
| SyntaxExtensions.SkipOutOfParensParenPrefix | CodeConverter/Util/SyntaxExtensions.cs:32-38 | that description fixes the ancestor uniquely |
| SyntaxExtensions.IsParentKind | CodeConverter/Util/SyntaxExtensions.cs:45-48 | true only for a non-null node that has a parent |
| SyntaxExtensions.IsParentKindParenthesized | CodeConverter/Util/SyntaxExtensions.cs:45-48 | the parent is parenthesized exactly when climbing out of parentheses moves |
| SyntaxExtensions.GetEnclosingSymbol | CodeConverter/Util/SyntaxExtensions.cs:55-67 | returns the first symbol of the category along the containment chain; null exactly when the chain has none |
| SyntaxExtensions.EnclosingSymbol | CodeConverter/Util/SyntaxExtensions.cs:55-67 | a found symbol has the category and lies on the chain; none exactly when no symbol of the chain has it |
| SyntaxExtensions.GetEnclosingSymbolAgrees | CodeConverter/Util/SyntaxExtensions.cs:55-67 | the loop form and the recursive form give the same symbol |
| SyntaxExtensions.EnclosingSymbolFirst | CodeConverter/Util/SyntaxExtensions.cs:55-67 | the first symbol of the category on the chain is the one returned |
| VbSyntaxNodeExtensions.ParenthesizeIfPrecedenceCouldChange | CodeConverter/CSharp/VbSyntaxNodeExtensions.cs:7-10 | wraps exactly when precedence could change; the added parentheses change neither what peeling reaches nor the value of any evaluation |
| VbSyntaxNodeExtensions.PrecedenceByParent | CodeConverter/CSharp/VbSyntaxNodeExtensions.cs:12-21 | a member-access parent always asks for parentheses; a non-expression, argument, lambda or parenthesis parent never does; a binary node never does as the right operand of a binary parent |
| VbSyntaxNodeExtensions.ConditionPositionModuloParens | CodeConverter/CSharp/VbSyntaxNodeExtensions.cs:23-31 | a node is in condition position exactly when, past its parenthesis ancestors, it fills the condition of an `If`, `ElseIf`, single-line `If` or `If(,,)` |
| VbSyntaxNodeExtensions.ConditionPositionUnderParens | CodeConverter/CSharp/VbSyntaxNodeExtensions.cs:23-31 | wrapping a condition in parentheses leaves it in condition position |
| VbSyntaxNodeExtensions.PureLooksThroughParens | CodeConverter/CSharp/VbSyntaxNodeExtensions.cs:33-53 | purity and safe reusability are unchanged by any number of parentheses |
| VbSyntaxNodeExtensions.PureOfPeeled | CodeConverter/CSharp/VbSyntaxNodeExtensions.cs:33-53 | purity and safe reusability are decided on the peeled expression |
| VbSyntaxNodeExtensions.ReusableImpliesPure | CodeConverter/CSharp/VbSyntaxNodeExtensions.cs:33-53 | a safely reusable expression is pure |
| VbSyntaxNodeExtensions.LiteralsAreReusable | CodeConverter/CSharp/VbSyntaxNodeExtensions.cs:46-53 | a literal under any parentheses is safely reusable |
| VbSyntaxNodeExtensions.UnresolvedIsNotReusable | CodeConverter/CSharp/VbSyntaxNodeExtensions.cs:46-53 | a non-literal without a resolved symbol is not safely reusable |
| VbSyntaxNodeExtensions.PurityOfOperators | CodeConverter/CSharp/VbSyntaxNodeExtensions.cs:37-42 | a binary expression is pure exactly when both operands are; a unary one exactly when its operand is |
| VbSyntaxNodeExtensions.ImpureShapes | CodeConverter/CSharp/VbSyntaxNodeExtensions.cs:33-44 | anything but an operator, a parenthesis or a reusable expression is impure |
| NullableTypesLogicExtensions.HasNoValueMeaning | CodeConverter/CSharp/VisualBasicNullableExpressionsConverter.cs:375-376 | `!a.HasValue` holds exactly when `a` is null and never throws |
| NullableTypesLogicExtensions.GetValueMeaning | CodeConverter/CSharp/VisualBasicNullableExpressionsConverter.cs:377 | `a.Value` throws exactly on a null and is otherwise `a`'s value |
| NullableTypesLogicExtensions.EqualsFalseMeaning | CodeConverter/CSharp/VisualBasicNullableExpressionsConverter.cs:378 | `a == false` is a plain bool that holds exactly when `a` is false |
| NullableTypesLogicExtensions.EqualsTrueMeaning | CodeConverter/CSharp/VisualBasicNullableExpressionsConverter.cs:379 | `a == true` holds exactly when `a` is true; null compares unequal |
| NullableTypesLogicExtensions.AndMeaning | CodeConverter/CSharp/VisualBasicNullableExpressionsConverter.cs:383 | `a && b` skips `b` when `a` is false |
| NullableTypesLogicExtensions.OrMeaning | CodeConverter/CSharp/VisualBasicNullableExpressionsConverter.cs:388 | `a \|\| b` skips `b` when `a` is true |
| NullableTypesLogicExtensions.ConditionalMeaning | CodeConverter/CSharp/VisualBasicNullableExpressionsConverter.cs:391 | `c ? t : f` evaluates the condition once and then exactly one branch |
| NullableExpressionsConverter.NullOperandKeepsCheck | CodeConverter/CSharp/VisualBasicNullableExpressionsConverter.cs:81-84 | with the corrected lookup, an operand of nullable type that no parenthesis layer marks as non-null, and that is null wherever evaluation reaches it, counts as nullable, so its null check is kept |
| NullableExpressionsConverter.GetArgName | CodeConverter/CSharp/VisualBasicNullableExpressionsConverter.cs:86 | each name handed out is newer than every name before it |
| NullableExpressionsConverter.PatternVar | CodeConverter/CSharp/VisualBasicNullableExpressionsConverter.cs:88-95 | the pattern binds a new name, and the returned name reads it |
| NullableExpressionsConverter.PatternObject | CodeConverter/CSharp/VisualBasicNullableExpressionsConverter.cs:97-105 | as for `PatternVar`, with the `is { }` pattern |
| NullableExpressionsConverter.NegatedPatternObject | CodeConverter/CSharp/VisualBasicNullableExpressionsConverter.cs:107-117 | as for `PatternVar`, with the `is not { }` pattern |
| NullableExpressionsConverter.GetCondition | CodeConverter/CSharp/VisualBasicNullableExpressionsConverter.cs:233-234 | a reusable operand is checked by `HasValue` and read as it is; any other operand takes one new name |
| NullableExpressionsConverter.SwapIfGreater | CodeConverter/CSharp/VisualBasicNullableExpressionsConverter.cs:256 | one compare-exchange: a permutation that puts the two slots in key order |
| NullableExpressionsConverter.ListSort | CodeConverter/CSharp/VisualBasicNullableExpressionsConverter.cs:256 | the checks come out as a permutation of the input, with the mandatory ones before the optional ones |
| NullableExpressionsConverter.BuildConditions | CodeConverter/CSharp/VisualBasicNullableExpressionsConverter.cs:236-253 | one to three checks, and at least two when both operands are nullable |
| NullableExpressionsConverter.FullAndExpression | CodeConverter/CSharp/VisualBasicNullableExpressionsConverter.cs:169-184 | the template is nullable and takes one new name per operand that is not reusable |
| NullableExpressionsConverter.ForOrElseOperator | CodeConverter/CSharp/VisualBasicNullableExpressionsConverter.cs:187-211 | annotated exactly in a position where `Nothing` acts as false; outside one, a nullable left operand takes two names, even when the right operand's pattern goes unused |
| NullableExpressionsConverter.WithBinaryExpressionLogicForNullableTypes | CodeConverter/CSharp/VisualBasicNullableExpressionsConverter.cs:48-60 | an unsupported operator, or an operand whose converted type is not nullable, leaves the C# node as it is; two non-nullable operands keep the node and take no names |
| NullableExpressionsConverter.ForAndAlsoOperator | CodeConverter/CSharp/VisualBasicNullableExpressionsConverter.cs:134-185 | the result carries the not-nullable annotation exactly in a position where `Nothing` acts as false |
| NullableExpressionsConverter.ForRelationalOperators | CodeConverter/CSharp/VisualBasicNullableExpressionsConverter.cs:213-271 | the same for the six comparisons |
| LoweringEndToEnd.SupportedOperators | CodeConverter/CSharp/VisualBasicNullableExpressionsConverter.cs:119-132 | the lowering handles exactly `AndAlso`, `OrElse` and the six comparisons |
| LoweringEndToEnd.NullableOperandShapes | CodeConverter/CSharp/VisualBasicNullableExpressionsConverter.cs:81-84 | an operand of non-nullable type, or one marked not nullable under any parentheses, is not nullable; an unmarked operand of nullable type that is not a variable always is |
| LoweringEndToEnd.FactsConsistent | CodeConverter/CSharp/VisualBasicNullableExpressionsConverter.cs:48-60 | the facts handed to the templates keep the operands' nullability, collapse in condition position, and never call an impure right operand reusable |
| LoweringEndToEnd.LogicalLoweringEndToEnd | CodeConverter/CSharp/VisualBasicNullableExpressionsConverter.cs:48-60 | corrected: for `AndAlso` and `OrElse` on Visual Basic trees, wherever evaluation reaches the right operand, the C# produced never throws and gives Visual Basic's result (whether it is `True`, in a position where `Nothing` acts as false), whatever the lookup, the marks and the types let it drop |
| LoweringEndToEnd.RelationalLoweringEndToEnd | CodeConverter/CSharp/VisualBasicNullableExpressionsConverter.cs:48-60 | corrected: the same for the six comparisons, wherever evaluation reaches the comparison |
| LoweringEndToEnd.FindingCollapses | CodeConverter/CSharp/VisualBasicNullableExpressionsConverter.cs:351-365 | `x <> 5` as the right operand of an `OrElse` that is an `If` condition is in a position where `Nothing` acts as false |
| LoweringEndToEnd.FindingAsWrittenLowering | CodeConverter/CSharp/VisualBasicNullableExpressionsConverter.cs:330-331 | as written, `x <> 5` in `If Not x.HasValue AndAlso b OrElse x <> 5 Then` is kept as C#'s `x != 5`, which is true for a null `x` |
| LoweringEndToEnd.FindingCorrectedLowering | CodeConverter/CSharp/VisualBasicNullableExpressionsConverter.cs:330-335 | corrected, the same comparison keeps its null check and is false for a null `x`, agreeing with Visual Basic's `False OrElse Nothing`, which is `Nothing` |
| NullFlow.GetNullabilityOfOperand | CodeConverter/CSharp/VisualBasicNullableExpressionsConverter.cs:283-310 | only a bare identifier, under any parentheses, gets a known nullability |
| NullFlow.GetNullabilityWithinBooleanExpression | CodeConverter/CSharp/VisualBasicNullableExpressionsConverter.cs:312-322 | an answer is given only about a variable the expression names |
| NullFlow.GetNullabilityWithinBinaryExpression | CodeConverter/CSharp/VisualBasicNullableExpressionsConverter.cs:324-349 | the same for a binary node |
| NullFlow.WalkUp | CodeConverter/CSharp/VisualBasicNullableExpressionsConverter.cs:286-309 | an answer comes only from the left side of an `AndAlso` or `OrElse` ancestor that names the variable |
| NullFlow.WithinSound | CodeConverter/CSharp/VisualBasicNullableExpressionsConverter.cs:312-322 | corrected: when an expression does not have the opposite truth value, what the lookup says about the identifier is true |
| NullFlow.WithinBinarySound | CodeConverter/CSharp/VisualBasicNullableExpressionsConverter.cs:324-349 | the same for `Is`/`IsNot Nothing`, `And`/`AndAlso` and `Or`/`OrElse` nodes |
| NullFlow.WalkUpSound | CodeConverter/CSharp/VisualBasicNullableExpressionsConverter.cs:286-309 | climbing through the `AndAlso` and `OrElse` ancestors whose right side holds the node, what the left sides tell is true wherever evaluation reaches the node, for one valuation of the variables throughout |
| NullFlow.OperandNullabilitySound | CodeConverter/CSharp/VisualBasicNullableExpressionsConverter.cs:283-338 | corrected: whenever evaluation reaches an operand, the nullability the lookup reports for it is true, provided the variable keeps its value from the guard to the operand |
| NullFlow.ExampleReached | CodeConverter/CSharp/VisualBasicNullableExpressionsConverter.cs:283-310 | in `If Not x.HasValue AndAlso b OrElse x <> 5 Then`, with `x` null and `b` false, the guard is false and `x <> 5` is evaluated |
| NullFlow.ExampleAsWrittenLookup | CodeConverter/CSharp/VisualBasicNullableExpressionsConverter.cs:330-331 | as written, the guard `Not x.HasValue AndAlso b` being false is read as `x` having a value |
| NullFlow.ExampleCorrectedLookup | CodeConverter/CSharp/VisualBasicNullableExpressionsConverter.cs:330-331 | corrected, the same guard says nothing about `x` |
| NullFlow.AndUnderFalseAsWrittenUnsound | CodeConverter/CSharp/VisualBasicNullableExpressionsConverter.cs:330-331 | as written, in that example a null `x` is reported as having a value at a point evaluation reaches; the corrected lookup reports nothing |
| NullFlow.AndAlsoFalseLookup | CodeConverter/CSharp/VisualBasicNullableExpressionsConverter.cs:330-335 | an `AndAlso` known to be false: as written either operand's answer is taken, corrected only an answer both operands give |
| NullFlow.ParenthesizedGuardSaysNothing | CodeConverter/CSharp/VisualBasicNullableExpressionsConverter.cs:312-322 | under `Not (…)` neither reading concludes anything, since the lookup does not enter parentheses |
| BooleanContext.CanConvertToBoolean | CodeConverter/CSharp/VisualBasicNullableExpressionsConverter.cs:351-365 | a node in condition position qualifies, and a qualifying node always has a condition above it reached through parentheses and binary operators only |
| BooleanContext.NothingActsAsFalse | CodeConverter/CSharp/VisualBasicNullableExpressionsConverter.cs:351-365 | corrected: wherever the node qualifies, a `Nothing` and a `False` take the enclosing `If` the same way |
| BooleanContext.ConditionPositionConverts | CodeConverter/CSharp/VisualBasicNullableExpressionsConverter.cs:354 | a node in condition position always qualifies |
| BooleanContext.CorrectedIsStricter | CodeConverter/CSharp/VisualBasicNullableExpressionsConverter.cs:355-363 | every node the corrected reading accepts, the code accepts too |
| BooleanContext.NoBinaryParentNoConversion | CodeConverter/CSharp/VisualBasicNullableExpressionsConverter.cs:355-364 | outside a condition, with no binary parent past the parentheses, a node never qualifies |
| BooleanContext.AndAlsoLeftNeedsPureRight | CodeConverter/CSharp/VisualBasicNullableExpressionsConverter.cs:356-358 | the left operand of an `AndAlso` condition qualifies exactly when the right operand is pure |
| BooleanContext.EqualsParentAsWrittenUnsound | CodeConverter/CSharp/VisualBasicNullableExpressionsConverter.cs:360-362 | as written, `x < y` under `= b` qualifies, yet its `Nothing` and `False` take the `If` differently; the corrected reading rejects it |
| LoweringCorrectness.AndAlsoLhsNotNull | CodeConverter/CSharp/VisualBasicNullableExpressionsConverter.cs:139-141 | `lhs && rhs == true` is whether Visual Basic's `AndAlso` is `True` when `lhs` has a value |
| LoweringCorrectness.AndAlsoPureRhs | CodeConverter/CSharp/VisualBasicNullableExpressionsConverter.cs:142-146 | the two pure-right collapsed templates are whether `AndAlso` is `True` |
| LoweringCorrectness.AndAlsoReusableLhs | CodeConverter/CSharp/VisualBasicNullableExpressionsConverter.cs:147-150 | `(!lhs.HasValue \|\| lhs.Value) && rhs && lhs.HasValue` is whether `AndAlso` is `True`, and it evaluates `rhs` exactly when Visual Basic does |
| LoweringCorrectness.AndAlsoCapturedLhs | CodeConverter/CSharp/VisualBasicNullableExpressionsConverter.cs:151-152 | the same with the left operand captured in `argN`, which is evaluated once |
| LoweringCorrectness.FullAndReusableRhs | CodeConverter/CSharp/VisualBasicNullableExpressionsConverter.cs:170-175 | the template for a reusable right operand yields the three-valued `AndAlso`, and evaluates a non-reusable left operand once |
| LoweringCorrectness.FullAndCapturedRhs | CodeConverter/CSharp/VisualBasicNullableExpressionsConverter.cs:176-183 | the template for a captured right operand yields the three-valued `AndAlso`, and evaluates each operand as often as Visual Basic does |
| LoweringCorrectness.FullAndCorrect | CodeConverter/CSharp/VisualBasicNullableExpressionsConverter.cs:169-184 | all four templates give Visual Basic's three-valued `AndAlso`; a non-reusable left operand is evaluated once, and a non-reusable right one exactly when Visual Basic evaluates it |
| LoweringCorrectness.AndAlsoConditional | CodeConverter/CSharp/VisualBasicNullableExpressionsConverter.cs:157-159 | `lhs ? rhs : false` is the three-valued `AndAlso` when `lhs` has a value |
| LoweringCorrectness.AndAlsoNotNullRhs | CodeConverter/CSharp/VisualBasicNullableExpressionsConverter.cs:160-166 | `lhs == false ? false : rhs ? lhs : false` is the three-valued `AndAlso` when `rhs` has a value |
| LoweringCorrectness.AndAlsoLoweringCorrect | CodeConverter/CSharp/VisualBasicNullableExpressionsConverter.cs:134-185 | `ForAndAlsoOperator` gives Visual Basic's `AndAlso` (or whether it is `True`, where `Nothing` acts as false) and never throws; a non-reusable left operand is evaluated once, an impure right operand exactly as often as Visual Basic evaluates it, and a non-reusable right operand never more often |
| LoweringCorrectness.OrElseCollapsed | CodeConverter/CSharp/VisualBasicNullableExpressionsConverter.cs:190-197 | the three collapsed templates are whether `OrElse` is `True` |
| LoweringCorrectness.OrElseConditional | CodeConverter/CSharp/VisualBasicNullableExpressionsConverter.cs:199-201 | `lhs ? true : rhs` is the three-valued `OrElse` when `lhs` has a value |
| LoweringCorrectness.OrElseFull | CodeConverter/CSharp/VisualBasicNullableExpressionsConverter.cs:203-210 | the pattern template is the three-valued `OrElse`, with the left operand evaluated once and the right one exactly when Visual Basic evaluates it |
| LoweringCorrectness.OrElseLoweringCorrect | CodeConverter/CSharp/VisualBasicNullableExpressionsConverter.cs:187-211 | `ForOrElseOperator` gives Visual Basic's `OrElse` (or whether it is `True`), never throws, and evaluates each operand as often as Visual Basic |
| LoweringCorrectness.KeptNodeCorrect | CodeConverter/CSharp/VisualBasicNullableExpressionsConverter.cs:219-230 | where the C# comparison is kept, it is whether Visual Basic's comparison is `True` |
| LoweringCorrectness.RelationalReusable | CodeConverter/CSharp/VisualBasicNullableExpressionsConverter.cs:233-270 | two reusable operands: the guarded comparison gives Visual Basic's comparison |
| LoweringCorrectness.RelationalRhsCaptured | CodeConverter/CSharp/VisualBasicNullableExpressionsConverter.cs:233-270 | a captured right operand: the same, and the right operand is evaluated once |
| LoweringCorrectness.RelationalLhsCaptured | CodeConverter/CSharp/VisualBasicNullableExpressionsConverter.cs:233-270 | a captured left operand: the same, and the left operand is evaluated once |
| LoweringCorrectness.RelationalCaptured | CodeConverter/CSharp/VisualBasicNullableExpressionsConverter.cs:239-270 | neither reusable: the right operand is saved first and both are evaluated once |
| LoweringCorrectness.RelationalLoweringCorrect | CodeConverter/CSharp/VisualBasicNullableExpressionsConverter.cs:213-271 | `ForRelationalOperators` gives Visual Basic's comparison (or whether it is `True`), never throws, and evaluates each non-reusable operand once |
| LoweringHygiene.AndAlsoHygiene | CodeConverter/CSharp/VisualBasicNullableExpressionsConverter.cs:134-185 | every `AndAlso` template writes each non-reusable operand once, and declares only new, distinct names |
| LoweringHygiene.FullAndHygiene | CodeConverter/CSharp/VisualBasicNullableExpressionsConverter.cs:169-184 | the same for the four `FullAndExpression` templates |
| LoweringHygiene.OrElseHygiene | CodeConverter/CSharp/VisualBasicNullableExpressionsConverter.cs:187-211 | every `OrElse` template writes each operand once, and declares only new, distinct names |
| LoweringHygiene.RelationalHygiene | CodeConverter/CSharp/VisualBasicNullableExpressionsConverter.cs:213-271 | every comparison template writes each non-reusable operand once, and declares only new, distinct names |
| LoweringHygiene.DroppedCheckIsHasValue | CodeConverter/CSharp/VisualBasicNullableExpressionsConverter.cs:239-260 | with both operands nullable, the check that sorts last, and that a collapsing `=` drops, is an optional `HasValue` test and never a pattern capturing an operand |
| LoweringHygiene.ChecksCounter | CodeConverter/CSharp/VisualBasicNullableExpressionsConverter.cs:236-253 | the checks take exactly one name per operand that is not reusable |
| LoweringHygiene.RelationalCounter | CodeConverter/CSharp/VisualBasicNullableExpressionsConverter.cs:213-271 | a kept node takes no name, and a guarded comparison takes one per non-reusable operand |
| ConverterScenarios.AlreadyCheckedByHasValue | Tests/CSharp/ExpressionTests/BinaryExpressionTests.cs:473-484 | after `newDays.HasValue AndAlso oldDays.HasValue`, `newDays <> oldDays` stays a plain annotated `!=` |
| ConverterScenarios.AlreadyCheckedByIsNotNothing | Tests/CSharp/ExpressionTests/BinaryExpressionTests.cs:487-498 | the same after two `IsNot Nothing` checks, for `=` |
| ConverterScenarios.HalfChecked | Tests/CSharp/ExpressionTests/BinaryExpressionTests.cs:515-526 | after `newDays.HasValue` only `oldDays` is still checked |
| ConverterScenarios.UncertainChecks | Tests/CSharp/ExpressionTests/BinaryExpressionTests.cs:529-540 | after a parenthesized `OrElse` of the checks both operands are still checked |
| ConverterScenarios.NotDefinitelyTrueChecks | Tests/CSharp/ExpressionTests/BinaryExpressionTests.cs:501-512 | after `(newDays.HasValue AndAlso oldDays.HasValue OrElse True) AndAlso`, both null checks of `newDays > oldDays` stay |
| ConverterScenarios.OperandsUnderStatement | CodeConverter/CSharp/VisualBasicNullableExpressionsConverter.cs:81-84 | an operand of a binary node directly under a statement is nullable exactly when its type is and its C# form is not marked |
| ConverterScenarios.NullableLocalsEquality | Tests/CSharp/ExpressionTests/BinaryExpressionTests.cs:370-400 | `res = x = y` for two `Integer?` locals becomes `x.HasValue && y.HasValue ? x == y : (bool?)null` |
| ConverterScenarios.PlainLeftEquality | Tests/CSharp/ExpressionTests/BinaryExpressionTests.cs:377-407 | `res = a = y` for an `Integer` `a` leaves only `y.HasValue ? a == y : null` |
| ConverterScenarios.InnerComparisonMarked | Tests/CSharp/ExpressionTests/BinaryExpressionTests.cs:440-466 | `x < y` as the left operand of `=` or `<>` in an `If` condition: as written it is kept as `x < y` and marked; corrected it is not marked |
| ConverterScenarios.ConditionEqualsKeptTree | Tests/CSharp/ExpressionTests/BinaryExpressionTests.cs:440-464 | `If x < y = a Then`, the inner comparison marked, keeps `x < y == a` |
| ConverterScenarios.ConditionNotEqualsGuardedTree | Tests/CSharp/ExpressionTests/BinaryExpressionTests.cs:441-466 | `If x < y <> a Then` becomes `x < y is { } arg3 && a.HasValue && arg3 != a` |
| ConverterScenarios.ConditionAndAlsoCapturedLeftTree | Tests/CSharp/ExpressionTests/BinaryExpressionTests.cs:241-283 | `If fa() AndAlso fx() Then` captures `fa()` in `arg1` |
| ConverterScenarios.ConditionAndAlsoFullTree | Tests/CSharp/ExpressionTests/BinaryExpressionTests.cs:243-287 | `If fa() AndAlso fb() Then` captures `fb()` in `arg3` and `fa()` in `arg4`, and compares the result with `true` |
| ConverterScenarios.ConditionOrElseTree | Tests/CSharp/ExpressionTests/BinaryExpressionTests.cs:314-337 | `If a OrElse b Then` becomes `a == true \|\| b == true` |
| VbNameExpander.GetDefaultImplicitInstance | CodeConverter/CSharp/VbNameExpander.cs:131-132 | an implicit instance exists only for a qualifiable instance reference in leftmost position with a named type enclosing the node, and then always; it is the nearest enclosing named type, the first on the containment chain |
| VbNameExpander.StaticExcludesInstanceCases | CodeConverter/CSharp/VbNameExpander.cs:104-113 | a static symbol is neither a type promotion nor a possible `MyBase` case |
| VbNameExpander.WhatIsExpanded | CodeConverter/CSharp/VbNameExpander.cs:18-37 | the expander rewrites exactly three kinds of node: a name in a position that may be qualified; a member access that is not a dictionary access, not on `Me`/`MyBase`/`MyClass`, and is either static or a type promotion; an `And` or `Or` |
| VbNameExpander.BlockedNamesNotExpanded | CodeConverter/CSharp/VbNameExpander.cs:122-129 | a name under `name:=` or a field initializer is left alone |
| VbNameExpander.ConditionInChainMeaning | CodeConverter/CSharp/VbNameExpander.cs:178-190 | the upward search finds a condition exactly when the node, or an ancestor reached through expressions only, fills a condition slot |
| VbNameExpander.FindConditionAncestor | CodeConverter/CSharp/VbNameExpander.cs:178-190 | the loop answers the same as that description |
| VbNameExpander.HandleNonShortCircuitingBooleanOperators | CodeConverter/CSharp/VbNameExpander.cs:164-193 | handles exactly binary nodes with a pure right operand; turns `And`/`Or` into `AndAlso`/`OrElse` exactly when both sides are Boolean and a condition lies above; otherwise the node is kept |
| VbNameExpander.NormalisationIdempotent | CodeConverter/CSharp/VbNameExpander.cs:164-193 | normalising the already normalised node gives it back |
| VbNameExpander.NormalisedNotExpandedAgain | CodeConverter/CSharp/VbNameExpander.cs:36-37 | the short-circuiting node the normalisation produces is not rewritten again |
| VbNameExpander.ImplicitInstanceRewrite | CodeConverter/CSharp/VbNameExpander.cs:47-70 | the implicit-instance rewrites apply only where a default implicit instance exists, and yield a member access to the same name |
| VbNameExpander.MeQualifiedIsFinal | CodeConverter/CSharp/VbNameExpander.cs:54-56 | `Me.name` keeps the name and its leading trivia, and the expander neither rewrites it nor descends into it |
| VbNameExpander.ImplicitMeQualification | CodeConverter/CSharp/VbNameExpander.cs:47-57 | a leftmost instance member of the enclosing type or one of its bases becomes `Me.name`, and it is rewritten exactly when its position may be qualified |
| VbNameExpander.TypePromotionRewrite | CodeConverter/CSharp/VbNameExpander.cs:72-75 | only a type-promoted member access is rewritten, and the result is a simple member access |
| VbNameExpander.ExpandNode | CodeConverter/CSharp/VbNameExpander.cs:39-84 | the extra static import is requested only for a module member named by a bare identifier, and names its module; an `And`/`Or` that the normalisation handles comes back normalised with no import; a generic method comes back as it is or through one of the custom rewrites, never through Roslyn's expansion |
| VbNameExpander.DefaultExpansion | CodeConverter/CSharp/VbNameExpander.cs:77 | with no custom rule, a generic method stays as it is, anything else is expanded by Roslyn, and no import is requested |
| VbNameExpander.ModuleMemberTagged | CodeConverter/CSharp/VbNameExpander.cs:79-81 | a module member named by a bare identifier, with no implicit instance, requests its module as a static import |
| VbNameExpander.SimpleNameQualification | CodeConverter/CSharp/VbNameExpander.cs:104-120 | the predicate on its own, for all nodes: the code calls it only for member accesses (lines 21-26), so this simple-name case is never reached there; a simple name would count as to be qualified exactly when its symbol is static, or it is an instance method, field or property in leftmost position with a named type enclosing it |
| VbNameExpander.NamePartNotQualifiedAlone | CodeConverter/CSharp/VbNameExpander.cs:112-120 | the name part of a member access or conditional access has no implicit instance, is no `MyBase` case, and goes to the default expansion |
| VbNameExpander.TypePromotionExpanded | CodeConverter/CSharp/VbNameExpander.cs:134-142 | a type-promoted member access is rewritten unless it is a dictionary access or on `Me`/`MyBase`/`MyClass`, and becomes a simple member access on the binder's receiver with the same symbol |
| VbNameExpander.ResolvedAccessFinal | CodeConverter/CSharp/VbNameExpander.cs:134-142 | a member access whose receiver's type declares the member, or whose receiver is `Me`/`MyBase`/`MyClass`, is not rewritten |
| VbNameExpander.PromotedAccessFinal | CodeConverter/CSharp/VbNameExpander.cs:72-75 | the rewritten access is not rewritten again once its receiver's type declares the member |
| VbNameExpander.BinderReceiverQualification | CodeConverter/CSharp/VbNameExpander.cs:59-62 | a leftmost instance member from outside the enclosing type's hierarchy takes the binder's receiver |
| VbNameExpander.ReducedExtensionQualification | CodeConverter/CSharp/VbNameExpander.cs:64-69 | an extension method reduced inside the type it extends, with no receiver, becomes `Me.name` |
| VbNameExpander.InstanceAccessKeptWhole | CodeConverter/CSharp/VbNameExpander.cs:144-148 | a member access on `Me`, `MyBase` or `MyClass` comes out of the walk unchanged |
| VbNameExpander.QualifiedNameExpandedWhole | CodeConverter/CSharp/VbNameExpander.cs:33-34 | a qualified name in a slot that may hold one is expanded whole, not part by part |
| VbNameExpander.StaticAccessExpandedWhole | CodeConverter/CSharp/VbNameExpander.cs:98-108 | a static member access is expanded whole |
| VbNameExpander.InstanceAccessEntered | CodeConverter/CSharp/VbNameExpander.cs:98-103 | an instance access whose receiver declares the member is entered, and only its receiver is walked |
| VbNameExpander.EnteredNodeKeepsKind | CodeConverter/CSharp/VbNameExpander.cs:15-16 | a node the walk descends into keeps its kind, operator, member name and symbol |
| VbNameExpander.UntouchedTreeKept | CodeConverter/CSharp/VbNameExpander.cs:15-19 | a tree in which the walk finds nothing to rewrite comes out unchanged |

## Left out

- `InvokeConversionWhenNotNull` (converter lines 38-46) is not modelled. It is a conversion helper outside the three operator lowerings.
- `AddParens`, trivia and formatting are left out. The C# evaluator treats parentheses as transparent, so they do not change meaning.
- The semantic model is an input. This covers symbol resolution, types, `ContainsMember`, `InheritsFromOrEquals`, the binder's member-reference operation, and Roslyn's `Simplifier.Expand` (`SemanticModel.expand`). None of these are modelled.
- The C# and token overloads of `IsParentKind` (SyntaxExtensions.cs lines 40-43 and 50-53) are left out. The C# tree here has no parent path.
- `Interlocked.Increment` is left out. It is modelled as a plain counter, since the lowering is sequential.
- Visual Basic's case-insensitive name comparison is modelled by folding the ASCII letters only.
- C# static typing is left out. Static types are not checked: a template C# would reject still evaluates whenever its values have the right shape, and only a value of the wrong shape at run time is `Stuck`.
- The `Debug.Assert` in `HandleNonShortCircuitingBooleanOperators` (VbNameExpander.cs line 170) is not modelled. It holds only in debug builds, and the model takes the release path.
- VbNameExpander.ImplicitInstanceRewrite: the receiver the binder supplies is used as it is. The name's leading trivia is not prepended to it, because trivia is formatting.
- LoweringCorrectness.AndAlsoLoweringCorrect: for a pure right operand, the count is only bounded above by Visual Basic's. The collapsed templates skip it when the left side is `Nothing`, which a pure operand cannot observe. For a reusable right operand, no count is stated.
- LoweringCorrectness.RelationalLoweringCorrect: states how often each non-reusable operand is evaluated, not the order, and nothing about reusable operands. A captured right operand is read before the left one, as the source's `ListSort` orders the checks.
- The walk over a tree that asks `ShouldExpandNode` and `ShouldExpandWithinNode` of each node is Roslyn's, and is not in the repository. `VbNameExpander.ExpandTree` models it after the intent stated at VbNameExpander.cs lines 98-103. It uses one semantic model for the whole tree, and it does not visit member-name tokens or the qualifier of a qualified name.
- LoweringEndToEnd.LogicalLoweringEndToEnd: states the result only for evaluations that reach the right operand. Elsewhere the lookup's answers about the right operand are not promised to hold.
- LoweringEndToEnd.LogicalLoweringEndToEnd and LoweringEndToEnd.RelationalLoweringEndToEnd: assume both converted types are nullable. Otherwise the node passes through unlowered, which `WithBinaryExpressionLogicForNullableTypes` states.
- LoweringEndToEnd.RelationalLoweringEndToEnd and LoweringEndToEnd.LogicalLoweringEndToEnd: are stated for the corrected reading only, since the as-written lookup is unsound (see Findings).
- NullFlow.WalkUpSound: holds for one valuation of the variables, read both by the `AndAlso`/`OrElse` guards and at the node. The lookup matches a variable by its name alone (VisualBasicNullableExpressionsConverter.cs lines 285, 315-316 and 347-348), whether it is a local, a field or a property. The proof reads every variable from one valuation `nulls`, shared by the guards and the operands, so it assumes nothing between a guard and the operand reassigns a checked variable. A call that clears a field, or a `ByRef` argument, would do that: in `x IsNot Nothing AndAlso ResetX() AndAlso x = 5`, where `ResetX()` sets the field `x` to `Nothing`, the lookup still reports `x` as not null, and `x == 5` is false where Visual Basic gives `Nothing`. Side effects on variables are not in the model.
- NullFlow.OperandNullabilitySound: the same assumption. The reported nullability is true only if the variable keeps its value from the guard to the operand.
- NullableExpressionsConverter.NullOperandKeepsCheck: the same assumption. It speaks of an operand that is null under the same valuation the guards read.
- LoweringEndToEnd.LogicalLoweringEndToEnd: the same assumption. The operand values `lv` and `rv` agree with the valuation the guards read.
- LoweringEndToEnd.RelationalLoweringEndToEnd: the same assumption, as for the logical operators.
- LoweringEndToEnd.LogicalLoweringEndToEnd: does not promise that the output is well-typed C#. In `If Not x.HasValue OrElse x AndAlso y Then` with `x` and `y` of type `Boolean?`, the lookup reports `x` as not null, so `ForAndAlsoOperator` emits `x && y == true` (VisualBasicNullableExpressionsConverter.cs line 140), or `x ? y : false` outside a condition (line 157). Both apply `&&` or `?:` to a `bool?` operand, which C# rejects whatever its value. The evaluator accepts them whenever `x` holds a Boolean, and the lemma calls the result correct. Whether a later stage of the converter adds a cast there is not part of this model.

## Findings

| source | as written | input that shows it | evidently intended | confidence | as-written member | corrected member |
|---|---|---|---|---|---|---|
| CodeConverter/CSharp/VisualBasicNullableExpressionsConverter.cs:330-331 | an `And`/`AndAlso` known to be false returns what either side, evaluated as false, would say | `If Not x.HasValue AndAlso b OrElse x <> 5 Then` with `x` null and `b` false: `x` is reported as having a value, so `x <> 5` stays C#'s `x != 5`, which is true, and the branch is taken; Visual Basic's `False OrElse Nothing` is `Nothing` and skips it | only an `And`/`AndAlso` known to be true lets one side decide; one known to be false needs both sides to agree, as for `Or` | not executed | LoweringEndToEnd.FindingAsWrittenLowering | LoweringEndToEnd.FindingCorrectedLowering |
| CodeConverter/CSharp/VisualBasicNullableExpressionsConverter.cs:360-362 | a node under a qualifying `=` or `<>` parent may turn `Nothing` into `false` | `If x < y = b Then` with `x` null and `b` false: C# evaluates `false == b`, which is true, while Visual Basic's `Nothing = False` is `Nothing` and skips the branch (the repository's test at BinaryExpressionTests.cs line 464 expects the as-written output) | only `AndAlso` and `OrElse` parents keep `Nothing` and `False` equivalent | not executed | BooleanContext.EqualsParentAsWrittenUnsound | BooleanContext.NothingActsAsFalse |

The Visual Basic side of each finding is stated in the model and proved. For
`PrecedenceCouldChange` (VbSyntaxNodeExtensions.cs line 14), the flag named
`parentIsBinaryExpression` tests the node itself, not its parent. The model
follows the code; which reading was meant cannot be told from the source.

=== FILE: boolean_context.dfy ===
/** `CanConvertToBoolean`: whether the value of a node only matters through
    whether it is `True`, so that a `Nothing` may be lowered to `false`. */
module BooleanContext {
  import opened Options
  import opened VbSyntax
  import opened SyntaxExtensions
  import opened VbSyntaxNodeExtensions
  import opened VbSemantics
  import opened Revisions

  /** `CanConvertToBoolean` for the node `e` whose ancestor path is `ctx`: in
      condition position; or the operand of a binary parent (through
      parentheses) that itself qualifies and is an `OrElse`, an `AndAlso`
      (where, if `e` is the left operand, the right one must be pure, since a
      `Nothing` on the left evaluates it and a `False` does not), or, as
      written, an `=` or `<>`. The corrected reading drops `=` and `<>`. */
  function CanConvertToBoolean(rev: Revision, e: VbExpr, ctx: seq<Frame>): (r: bool)
    ensures AlwaysHasBooleanTypeInCSharp(ctx) ==> r
    ensures r ==> ConditionAbove(ctx)
    decreases |ctx|
  {
    if AlwaysHasBooleanTypeInCSharp(ctx) then
      ConditionHereIsAbove(ctx);
      true
    else
      var k := SkipOutOfParens(ctx);
      if k < |ctx| && IsBinaryFrame(ctx[k]) then
        var f := ctx[k];
        var parent := if f.BinaryLeftFrame? then Binary(f.op, WrapParens(e, k), f.right)
                      else Binary(f.op, f.left, WrapParens(e, k));
        if CanConvertToBoolean(rev, parent, ctx[k + 1..]) then
          ConditionAboveExtends(ctx, k);
          if f.op == AndAlsoOp then
            // `e` is `parent.Left.SkipIntoParens()` exactly when it is the left
            // operand and not itself parenthesised
            !(f.BinaryLeftFrame? && !e.Parenthesized?) || IsPureExpression(parent.right)
          else
            f.op == OrElseOp || (rev == AsWritten && (f.op == EqualsOp || f.op == NotEqualsOp))
        else false
      else false
  }

  /** Climbing from the node through parentheses and binary operators only,
      some ancestor has it in its condition slot. */
  predicate ConditionAbove(ctx: seq<Frame>) {
    exists j :: 0 <= j < |ctx| && IsConditionSlot(ctx[j]) && forall i :: 0 <= i < j ==> ctx[i].ParenFrame? || IsBinaryFrame(ctx[i])
  }

  lemma ConditionHereIsAbove(ctx: seq<Frame>)
    requires AlwaysHasBooleanTypeInCSharp(ctx)
    ensures ConditionAbove(ctx)
  {
    var k := SkipOutOfParens(ctx);
    assert IsConditionSlot(ctx[k]);
  }

  lemma ConditionAboveExtends(ctx: seq<Frame>, k: nat)
    requires k < |ctx| && IsBinaryFrame(ctx[k])
    requires forall i :: 0 <= i < k ==> ctx[i].ParenFrame?
    requires ConditionAbove(ctx[k + 1..])
    ensures ConditionAbove(ctx)
  {
    var rest := ctx[k + 1..];
    var j :| 0 <= j < |rest| && IsConditionSlot(rest[j]) && forall i :: 0 <= i < j ==> rest[i].ParenFrame? || IsBinaryFrame(rest[i]);
    assert ctx[k + 1 + j] == rest[j];
    forall i | 0 <= i < k + 1 + j
      ensures ctx[i].ParenFrame? || IsBinaryFrame(ctx[i])
    {
      if i > k {
        assert ctx[i] == rest[i - k - 1];
      }
    }
  }

  /** A binary operator applied to two `Boolean?` values. */
  function Apply3(op: VbBinOp, a: Option<bool>, b: Option<bool>): Option<bool> {
    match op
    case AndAlsoOp => And3(a, b)
    case AndOp => And3(a, b)
    case OrElseOp => Or3(a, b)
    case OrOp => Or3(a, b)
    case EqualsOp => Eq3(a, b)
    case NotEqualsOp => Not3(Eq3(a, b))
    case _ => None
  }

  /** The value of the enclosing condition when the node at the bottom of
      `ctx` evaluates to `v`: climbs through parentheses and binary operators
      (whose other operand evaluates to what `truth` says) and stops at the
      first other ancestor. */
  function ConditionValue(ctx: seq<Frame>, v: Option<bool>, truth: VbExpr -> Option<bool>): Option<bool>
    decreases |ctx|
  {
    if |ctx| == 0 then v
    else match ctx[0]
      case ParenFrame => ConditionValue(ctx[1..], v, truth)
      case BinaryLeftFrame(op, r) => ConditionValue(ctx[1..], Apply3(op, v, truth(r)), truth)
      case BinaryRightFrame(op, l) => ConditionValue(ctx[1..], Apply3(op, truth(l), v), truth)
      case _ => v
  }

  /** Whether the enclosing `If` takes its branch. */
  predicate Taken(ctx: seq<Frame>, v: Option<bool>, truth: VbExpr -> Option<bool>) {
    ConditionValue(ctx, v, truth) == Some(true)
  }

  lemma {:induction false} ConditionValueThroughParens(ctx: seq<Frame>, k: nat, v: Option<bool>, truth: VbExpr -> Option<bool>)
    requires k <= |ctx|
    requires forall j :: 0 <= j < k ==> ctx[j].ParenFrame?
    ensures ConditionValue(ctx, v, truth) == ConditionValue(ctx[k..], v, truth)
  {
    if k > 0 {
      ConditionValueThroughParens(ctx[1..], k - 1, v, truth);
      assert ctx[1..][k - 1..] == ctx[k..];
    }
  }

  /** In a position the corrected `CanConvertToBoolean` accepts, a `Nothing`
      and a `False` take the enclosing `If` the same way: lowering `Nothing`
      to `false` keeps the branch. */
  lemma {:induction false} NothingActsAsFalse(e: VbExpr, ctx: seq<Frame>, truth: VbExpr -> Option<bool>)
    requires CanConvertToBoolean(Corrected, e, ctx)
    ensures Taken(ctx, None, truth) == Taken(ctx, Some(false), truth)
    decreases |ctx|
  {
    var k := SkipOutOfParens(ctx);
    ConditionValueThroughParens(ctx, k, None, truth);
    ConditionValueThroughParens(ctx, k, Some(false), truth);
    if AlwaysHasBooleanTypeInCSharp(ctx) {
      assert ctx[k..][0] == ctx[k];
    } else {
      var f := ctx[k];
      var parent := if f.BinaryLeftFrame? then Binary(f.op, WrapParens(e, k), f.right)
                    else Binary(f.op, f.left, WrapParens(e, k));
      NothingActsAsFalse(parent, ctx[k + 1..], truth);
      assert ctx[k..][0] == f && ctx[k..][1..] == ctx[k + 1..];
      var other := if f.BinaryLeftFrame? then truth(f.right) else truth(f.left);
      var a := if f.BinaryLeftFrame? then Apply3(f.op, None, other) else Apply3(f.op, other, None);
      var b := if f.BinaryLeftFrame? then Apply3(f.op, Some(false), other) else Apply3(f.op, other, Some(false));
      assert a == b || ((a == None || a == Some(false)) && (b == None || b == Some(false)));
    }
  }

  /** Condition position always qualifies, under either reading. */
  lemma ConditionPositionConverts(rev: Revision, e: VbExpr, ctx: seq<Frame>)
    requires AlwaysHasBooleanTypeInCSharp(ctx)
    ensures CanConvertToBoolean(rev, e, ctx)
  {
  }

  /** The corrected reading accepts fewer positions than the code. */
  lemma {:induction false} CorrectedIsStricter(e: VbExpr, ctx: seq<Frame>)
    requires CanConvertToBoolean(Corrected, e, ctx)
    ensures CanConvertToBoolean(AsWritten, e, ctx)
    decreases |ctx|
  {
    if !AlwaysHasBooleanTypeInCSharp(ctx) {
      var k := SkipOutOfParens(ctx);
      var f := ctx[k];
      var parent := if f.BinaryLeftFrame? then Binary(f.op, WrapParens(e, k), f.right)
                    else Binary(f.op, f.left, WrapParens(e, k));
      CorrectedIsStricter(parent, ctx[k + 1..]);
    }
  }

  /** Outside a condition, with no binary ancestor through parentheses, a
      node never qualifies: an assignment keeps `Nothing`. */
  lemma NoBinaryParentNoConversion(rev: Revision, e: VbExpr, ctx: seq<Frame>)
    requires !AlwaysHasBooleanTypeInCSharp(ctx)
    requires SkipOutOfParens(ctx) == |ctx| || !IsBinaryFrame(ctx[SkipOutOfParens(ctx)])
    ensures !CanConvertToBoolean(rev, e, ctx)
  {
  }

  /** The left operand of an `AndAlso` in a condition qualifies exactly when
      the right operand is pure. */
  lemma AndAlsoLeftNeedsPureRight(rev: Revision, e: VbExpr, right: VbExpr, s: ConditionalStatement)
    requires !e.Parenthesized?
    ensures CanConvertToBoolean(rev, e, [BinaryLeftFrame(AndAlsoOp, right), ConditionFrame(s)])
        <==> IsPureExpression(right)
  {
    var ctx := [BinaryLeftFrame(AndAlsoOp, right), ConditionFrame(s)];
    assert SkipOutOfParens(ctx) == 0;
    assert SkipOutOfParens(ctx[1..]) == 0;
  }

  /** As written, `If x < y = b Then` lowers `x < y` to `false` when `x` is
      `Nothing`; with `b` false the C# condition `false == b` holds, where
      Visual Basic's `Nothing = False` is `Nothing` and skips the branch. */
  lemma EqualsParentAsWrittenUnsound(x: VbExpr, y: VbExpr, b: VbExpr)
    ensures var e := Binary(LessThanOp, x, y);
            var ctx := [BinaryLeftFrame(EqualsOp, b), ConditionFrame(IfStatement)];
            var truth := (n: VbExpr) => Some(false);
            && CanConvertToBoolean(AsWritten, e, ctx)
            && !CanConvertToBoolean(Corrected, e, ctx)
            && !Taken(ctx, None, truth)
            && Taken(ctx, Some(false), truth)
  {
    var e := Binary(LessThanOp, x, y);
    var ctx := [BinaryLeftFrame(EqualsOp, b), ConditionFrame(IfStatement)];
    var truth := (n: VbExpr) => Some(false);
    assert SkipOutOfParens(ctx) == 0;
    assert SkipOutOfParens(ctx[1..]) == 0;
    assert !AlwaysHasBooleanTypeInCSharp(ctx) && AlwaysHasBooleanTypeInCSharp(ctx[1..]);
    assert CanConvertToBoolean(AsWritten, Binary(EqualsOp, WrapParens(e, 0), b), ctx[1..]);
    assert ConditionValue(ctx[1..], None, truth) == None;
    assert ConditionValue(ctx[1..], Some(true), truth) == Some(true);
    assert ConditionValue(ctx, None, truth) == None;
    assert ConditionValue(ctx, Some(false), truth) == Some(true);
  }
}

=== FILE: converter_scenarios.dfy ===
/** The conversions the repository's own tests pin down, replayed on the
    model: each lemma names a Visual Basic expression, its ancestor path and
    the answers of the semantic model, and states the C# the lowering builds
    for it. Converted operands are the leaves `Operand(Lhs)` and
    `Operand(Rhs)`; the names `argN` are the counter values. */
module ConverterScenarios {
  import opened Options
  import opened VbSyntax
  import opened CsSyntax
  import opened NullableTypesLogicExtensions
  import opened NullableExpressionsConverter
  import opened Revisions
  import NullFlow
  import SyntaxExtensions
  import BooleanContext
  import opened VbSemantics
  import opened VbSyntaxNodeExtensions

  /** A parameter of the method under conversion. */
  function Param(name: string): VbExpr {
    IdentifierName(name, "", Some(Symbol(name, Parameter, false, false, false, false, false, "", "", "")))
  }

  /** `name.HasValue`. */
  function HasValueOf(name: string): VbExpr {
    MemberAccess(SimpleMemberAccess, Some(Param(name)), "HasValue", None)
  }

  /** `name IsNot Nothing`. */
  function IsNotNothing(name: string): VbExpr {
    Binary(IsNotOp, Param(name), Literal(NothingLiteral))
  }

  const L: CsExpr := Operand(Lhs)
  const R: CsExpr := Operand(Rhs)

  /** Both operands are `Integer?` before and after conversion. */
  const NullableInt: TypeInfo := TypeInfo(true, true)

  /** The two parameters of the tests are different variables: the lookup
      compares names case-insensitively, so a check of one says nothing
      about the other (used by `OtherIsNotNothing`). */
  lemma NamesDiffer()
    ensures !EqualsIgnoreCase("newDays", "oldDays") && !EqualsIgnoreCase("oldDays", "newDays")
  {
    DifferentInitialsDiffer("newDays", "oldDays");
    DifferentInitialsDiffer("oldDays", "newDays");
  }

  /** Past the `AndAlso` the walk up from an operand reaches a statement and
      stops without an answer. */
  lemma WalkEndsAtStatement(rev: Revision, name: string, first: Frame, checks: VbExpr)
    ensures NullFlow.WalkUp(rev, name, [first, BinaryRightFrame(AndAlsoOp, checks), OtherNodeFrame], 2, true) == None
  {
  }

  /** The left operand of `newDays op oldDays`, evaluated right of
      `checks AndAlso` in a `Return`, takes its nullability from what
      `checks` being true says about `newDays`. */
  lemma LeftOperandLookup(rev: Revision, op: VbBinOp, checks: VbExpr)
    ensures NullFlow.GetNullabilityOfOperand(rev, Param("newDays"), [BinaryLeftFrame(op, Param("oldDays")), BinaryRightFrame(AndAlsoOp, checks), OtherNodeFrame])
            == NullFlow.GetNullabilityWithinBooleanExpression(rev, "newDays", checks, true)
  {
    WalkEndsAtStatement(rev, "newDays", BinaryLeftFrame(op, Param("oldDays")), checks);
  }

  /** The same for the right operand and `oldDays`. */
  lemma RightOperandLookup(rev: Revision, op: VbBinOp, checks: VbExpr)
    ensures NullFlow.GetNullabilityOfOperand(rev, Param("oldDays"), [BinaryRightFrame(op, Param("newDays")), BinaryRightFrame(AndAlsoOp, checks), OtherNodeFrame])
            == NullFlow.GetNullabilityWithinBooleanExpression(rev, "oldDays", checks, true)
  {
    WalkEndsAtStatement(rev, "oldDays", BinaryRightFrame(op, Param("newDays")), checks);
  }

  /** `newDays.HasValue` being true says `newDays` has a value. */
  lemma NewDaysHasValue(rev: Revision)
    ensures NullFlow.GetNullabilityWithinBooleanExpression(rev, "newDays", HasValueOf("newDays"), true) == Some(NullFlow.NotNull)
  {
  }

  /** `oldDays.HasValue` being true says `oldDays` has a value. */
  lemma OldDaysHasValue(rev: Revision)
    ensures NullFlow.GetNullabilityWithinBooleanExpression(rev, "oldDays", HasValueOf("oldDays"), true) == Some(NullFlow.NotNull)
  {
  }

  /** `newDays.HasValue` says nothing about `oldDays`. */
  lemma OtherHasValue(rev: Revision)
    ensures NullFlow.GetNullabilityWithinBooleanExpression(rev, "oldDays", HasValueOf("newDays"), true) == None
  {
    DifferentInitialsDiffer("newDays", "oldDays");
    assert HasValueAccess(HasValueOf("newDays")) == Some("newDays");
  }

  /** `name IsNot Nothing` being true says `name` has a value. */
  lemma IsNotNothingLookup(rev: Revision)
    ensures NullFlow.GetNullabilityWithinBooleanExpression(rev, "newDays", IsNotNothing("newDays"), true) == Some(NullFlow.NotNull)
    ensures NullFlow.GetNullabilityWithinBooleanExpression(rev, "oldDays", IsNotNothing("oldDays"), true) == Some(NullFlow.NotNull)
  {
    IsNotNothingSays(rev, "newDays", "newDays");
    IsNotNothingSays(rev, "oldDays", "oldDays");
  }

  /** `other IsNot Nothing` being true says `name` has a value when the two
      are the same identifier, and nothing otherwise. */
  lemma IsNotNothingSays(rev: Revision, name: string, other: string)
    ensures NullFlow.GetNullabilityWithinBooleanExpression(rev, name, IsNotNothing(other), true)
            == if EqualsIgnoreCase(name, other) then Some(NullFlow.NotNull) else None
  {
    assert NullFlow.MatchesNothing(Literal(NothingLiteral)) && !NullFlow.MatchesIdentifier(Literal(NothingLiteral), name);
    assert !NullFlow.MatchesNothing(Param(other));
    assert NullFlow.MatchesIdentifier(Param(other), name) == EqualsIgnoreCase(name, other);
  }

  /** `checks AndAlso <node>` as the value of a `Return`. */
  function AfterChecks(checks: VbExpr): seq<Frame> {
    [BinaryRightFrame(AndAlsoOp, checks), OtherNodeFrame]
  }

  /** A comparison right of an `AndAlso` that is returned is not in a
      position where `Nothing` acts as `False`. */
  lemma ReturnedIsNotCondition(rev: Revision, op: VbBinOp, checks: VbExpr)
    ensures !BooleanContext.CanConvertToBoolean(rev, Binary(op, Param("newDays"), Param("oldDays")), AfterChecks(checks))
  {
    var parent := Binary(AndAlsoOp, checks, Binary(op, Param("newDays"), Param("oldDays")));
    assert !BooleanContext.CanConvertToBoolean(rev, parent, [OtherNodeFrame]);
  }

  /** The converted operands carry no not-null mark. */
  lemma UnmarkedOperands(tagged: CsExpr -> bool)
    requires !tagged(L) && !tagged(R)
    ensures !SyntaxExtensions.AnyInParens(Some(L), tagged) && !SyntaxExtensions.AnyInParens(Some(R), tagged)
  {
  }

  /** Whether the left operand of `newDays op oldDays` after `checks` is
      nullable is what `checks` being true leaves open about `newDays`. */
  lemma LeftOperandNullable(rev: Revision, op: VbBinOp, checks: VbExpr, tagged: CsExpr -> bool)
    requires !tagged(L) && !tagged(R)
    ensures IsNullable(rev, Param("newDays"), [BinaryLeftFrame(op, Param("oldDays"))] + AfterChecks(checks), L, NullableInt, tagged)
            <==> NullFlow.GetNullabilityWithinBooleanExpression(rev, "newDays", checks, true) != Some(NullFlow.NotNull)
  {
    UnmarkedOperands(tagged);
    LeftOperandLookup(rev, op, checks);
    assert [BinaryLeftFrame(op, Param("oldDays"))] + AfterChecks(checks)
        == [BinaryLeftFrame(op, Param("oldDays")), BinaryRightFrame(AndAlsoOp, checks), OtherNodeFrame];
  }

  /** The same for the right operand and `oldDays`. */
  lemma RightOperandNullable(rev: Revision, op: VbBinOp, checks: VbExpr, tagged: CsExpr -> bool)
    requires !tagged(L) && !tagged(R)
    ensures IsNullable(rev, Param("oldDays"), [BinaryRightFrame(op, Param("newDays"))] + AfterChecks(checks), R, NullableInt, tagged)
            <==> NullFlow.GetNullabilityWithinBooleanExpression(rev, "oldDays", checks, true) != Some(NullFlow.NotNull)
  {
    UnmarkedOperands(tagged);
    RightOperandLookup(rev, op, checks);
    assert [BinaryRightFrame(op, Param("newDays"))] + AfterChecks(checks)
        == [BinaryRightFrame(op, Param("newDays")), BinaryRightFrame(AndAlsoOp, checks), OtherNodeFrame];
  }

  /** What `a AndAlso b` being true says about `name`, when `a` says
      nothing, is what `b` says. */
  lemma AndAlsoTrueRight(rev: Revision, name: string, a: VbExpr, b: VbExpr)
    requires NullFlow.GetNullabilityWithinBooleanExpression(rev, name, a, true) == None
    ensures NullFlow.GetNullabilityWithinBooleanExpression(rev, name, Binary(AndAlsoOp, a, b), true)
            == NullFlow.GetNullabilityWithinBooleanExpression(rev, name, b, true)
  {
    assert NullFlow.GetNullabilityWithinBooleanExpression(rev, name, Binary(AndAlsoOp, a, b), true)
        == NullFlow.GetNullabilityWithinBinaryExpression(rev, name, Binary(AndAlsoOp, a, b), true);
  }

  /** What `a AndAlso b` being true says about `name`, when `a` has an
      answer, is `a`'s answer. */
  lemma AndAlsoTrueLeft(rev: Revision, name: string, a: VbExpr, b: VbExpr)
    requires NullFlow.GetNullabilityWithinBooleanExpression(rev, name, a, true).Some?
    ensures NullFlow.GetNullabilityWithinBooleanExpression(rev, name, Binary(AndAlsoOp, a, b), true)
            == NullFlow.GetNullabilityWithinBooleanExpression(rev, name, a, true)
  {
    assert NullFlow.GetNullabilityWithinBooleanExpression(rev, name, Binary(AndAlsoOp, a, b), true)
        == NullFlow.GetNullabilityWithinBinaryExpression(rev, name, Binary(AndAlsoOp, a, b), true);
  }

  /** Both checks of `newDays.HasValue AndAlso oldDays.HasValue` hold when it
      is true. */
  lemma BothHaveValues(rev: Revision)
    ensures var checks := Binary(AndAlsoOp, HasValueOf("newDays"), HasValueOf("oldDays"));
            && NullFlow.GetNullabilityWithinBooleanExpression(rev, "newDays", checks, true) == Some(NullFlow.NotNull)
            && NullFlow.GetNullabilityWithinBooleanExpression(rev, "oldDays", checks, true) == Some(NullFlow.NotNull)
  {
    NewDaysHasValue(rev);
    OldDaysHasValue(rev);
    OtherHasValue(rev);
    AndAlsoTrueLeft(rev, "newDays", HasValueOf("newDays"), HasValueOf("oldDays"));
    AndAlsoTrueRight(rev, "oldDays", HasValueOf("newDays"), HasValueOf("oldDays"));
  }

  /** `name IsNot Nothing` says nothing about the other parameter. */
  lemma OtherIsNotNothing(rev: Revision)
    ensures NullFlow.GetNullabilityWithinBooleanExpression(rev, "oldDays", IsNotNothing("newDays"), true) == None
  {
    NamesDiffer();
    IsNotNothingSays(rev, "oldDays", "newDays");
  }

  /** Both checks of `newDays IsNot Nothing AndAlso oldDays IsNot Nothing`
      hold when it is true. */
  lemma BothAreNotNothing(rev: Revision)
    ensures var checks := Binary(AndAlsoOp, IsNotNothing("newDays"), IsNotNothing("oldDays"));
            && NullFlow.GetNullabilityWithinBooleanExpression(rev, "newDays", checks, true) == Some(NullFlow.NotNull)
            && NullFlow.GetNullabilityWithinBooleanExpression(rev, "oldDays", checks, true) == Some(NullFlow.NotNull)
  {
    IsNotNothingLookup(rev);
    OtherIsNotNothing(rev);
    AndAlsoTrueLeft(rev, "newDays", IsNotNothing("newDays"), IsNotNothing("oldDays"));
    AndAlsoTrueRight(rev, "oldDays", IsNotNothing("newDays"), IsNotNothing("oldDays"));
  }

  /** A supported comparison of two operands both known to have a value is
      kept and marked not nullable. */
  lemma KeptWhenBothKnown(rev: Revision, op: VbBinOp, checks: VbExpr, cs: CsExpr, tagged: CsExpr -> bool, counter: nat)
    requires IsSupported(op) && cs.BinaryExpr?
    requires NullFlow.GetNullabilityWithinBooleanExpression(rev, "newDays", checks, true) == Some(NullFlow.NotNull)
    requires NullFlow.GetNullabilityWithinBooleanExpression(rev, "oldDays", checks, true) == Some(NullFlow.NotNull)
    ensures WithBinaryExpressionLogicForNullableTypes(rev, Binary(op, Param("newDays"), Param("oldDays")), AfterChecks(checks),
                                                      NullableInt, NullableInt, cs, L, R, tagged, counter)
            == Lowering(cs, true, counter)
  {
    KnownOperandsNotNullable(rev, op, checks, tagged);
  }

  /** An operand known to have a value is not nullable, whatever its C# form. */
  lemma KnownOperandsNotNullable(rev: Revision, op: VbBinOp, checks: VbExpr, tagged: CsExpr -> bool)
    ensures NullFlow.GetNullabilityWithinBooleanExpression(rev, "newDays", checks, true) == Some(NullFlow.NotNull)
            ==> !IsNullable(rev, Param("newDays"), [BinaryLeftFrame(op, Param("oldDays"))] + AfterChecks(checks), L, NullableInt, tagged)
    ensures NullFlow.GetNullabilityWithinBooleanExpression(rev, "oldDays", checks, true) == Some(NullFlow.NotNull)
            ==> !IsNullable(rev, Param("oldDays"), [BinaryRightFrame(op, Param("newDays"))] + AfterChecks(checks), R, NullableInt, tagged)
  {
    KnownLeftNotNullable(rev, op, checks, tagged);
    KnownRightNotNullable(rev, op, checks, tagged);
  }

  lemma KnownLeftNotNullable(rev: Revision, op: VbBinOp, checks: VbExpr, tagged: CsExpr -> bool)
    ensures NullFlow.GetNullabilityWithinBooleanExpression(rev, "newDays", checks, true) == Some(NullFlow.NotNull)
            ==> !IsNullable(rev, Param("newDays"), [BinaryLeftFrame(op, Param("oldDays"))] + AfterChecks(checks), L, NullableInt, tagged)
  {
    LeftOperandLookup(rev, op, checks);
    assert [BinaryLeftFrame(op, Param("oldDays"))] + AfterChecks(checks)
        == [BinaryLeftFrame(op, Param("oldDays")), BinaryRightFrame(AndAlsoOp, checks), OtherNodeFrame];
  }

  lemma KnownRightNotNullable(rev: Revision, op: VbBinOp, checks: VbExpr, tagged: CsExpr -> bool)
    ensures NullFlow.GetNullabilityWithinBooleanExpression(rev, "oldDays", checks, true) == Some(NullFlow.NotNull)
            ==> !IsNullable(rev, Param("oldDays"), [BinaryRightFrame(op, Param("newDays"))] + AfterChecks(checks), R, NullableInt, tagged)
  {
    RightOperandLookup(rev, op, checks);
    assert [BinaryRightFrame(op, Param("newDays"))] + AfterChecks(checks)
        == [BinaryRightFrame(op, Param("newDays")), BinaryRightFrame(AndAlsoOp, checks), OtherNodeFrame];
  }

  /** Parameters are safely reusable and pure. */
  lemma ParamsReusable(name: string)
    ensures IsSafelyReusable(Param(name)) && IsPureExpression(Param(name))
  {
  }

  /** For a comparison of the two parameters after `checks`, once the
      nullable operands are known the lowering is the relational template
      outside a condition, with reusable, pure operands. */
  lemma ReturnedComparison(rev: Revision, op: VbBinOp, checks: VbExpr, cs: CsExpr, tagged: CsExpr -> bool, counter: nat,
                           lN: bool, rN: bool)
    requires IsRelational(op) && cs.BinaryExpr? && (lN || rN)
    requires IsNullable(rev, Param("newDays"), [BinaryLeftFrame(op, Param("oldDays"))] + AfterChecks(checks), L, NullableInt, tagged) == lN
    requires IsNullable(rev, Param("oldDays"), [BinaryRightFrame(op, Param("newDays"))] + AfterChecks(checks), R, NullableInt, tagged) == rN
    ensures WithBinaryExpressionLogicForNullableTypes(rev, Binary(op, Param("newDays"), Param("oldDays")), AfterChecks(checks),
                                                      NullableInt, NullableInt, cs, L, R, tagged, counter)
            == ForRelationalOperators(Facts(false, lN, rN, true, true, true), op, cs, L, R, counter)
  {
    ReturnedIsNotCondition(rev, op, checks);
    ParamsReusable("newDays");
    ParamsReusable("oldDays");
  }

  /** `Return newDays.HasValue AndAlso oldDays.HasValue AndAlso newDays <> oldDays`:
      both operands of `<>` are known to have a value where it is evaluated,
      so the C# `!=` is kept as it is and marked not nullable. */
  lemma AlreadyCheckedByHasValue(rev: Revision, tagged: CsExpr -> bool, counter: nat)
    ensures var node := Binary(VbBinOp.NotEqualsOp, Param("newDays"), Param("oldDays"));
            var checks := Binary(AndAlsoOp, HasValueOf("newDays"), HasValueOf("oldDays"));
            var cs := BinaryExpr(CsBinOp.NotEqualsOp, L, R);
            WithBinaryExpressionLogicForNullableTypes(rev, node, AfterChecks(checks), NullableInt, NullableInt, cs, L, R, tagged, counter)
            == Lowering(cs, true, counter)
  {
    BothHaveValues(rev);
    KeptWhenBothKnown(rev, VbBinOp.NotEqualsOp, Binary(AndAlsoOp, HasValueOf("newDays"), HasValueOf("oldDays")),
                      BinaryExpr(CsBinOp.NotEqualsOp, L, R), tagged, counter);
  }

  /** `Return newDays IsNot Nothing AndAlso oldDays IsNot Nothing AndAlso newDays = oldDays`:
      the same with `IsNot Nothing` checks. */
  lemma AlreadyCheckedByIsNotNothing(rev: Revision, tagged: CsExpr -> bool, counter: nat)
    ensures var node := Binary(VbBinOp.EqualsOp, Param("newDays"), Param("oldDays"));
            var checks := Binary(AndAlsoOp, IsNotNothing("newDays"), IsNotNothing("oldDays"));
            var cs := BinaryExpr(CsBinOp.EqualsOp, L, R);
            WithBinaryExpressionLogicForNullableTypes(rev, node, AfterChecks(checks), NullableInt, NullableInt, cs, L, R, tagged, counter)
            == Lowering(cs, true, counter)
  {
    BothAreNotNothing(rev);
    KeptWhenBothKnown(rev, VbBinOp.EqualsOp, Binary(AndAlsoOp, IsNotNothing("newDays"), IsNotNothing("oldDays")),
                      BinaryExpr(CsBinOp.EqualsOp, L, R), tagged, counter);
  }

  /** `Return newDays.HasValue AndAlso newDays < oldDays`: only the right
      operand is still checked, `oldDays.HasValue ? newDays < oldDays : null`. */
  lemma HalfChecked(rev: Revision, tagged: CsExpr -> bool, counter: nat)
    requires !tagged(L) && !tagged(R)
    ensures var node := Binary(VbBinOp.LessThanOp, Param("newDays"), Param("oldDays"));
            var cs := BinaryExpr(CsBinOp.LessThanOp, L, R);
            WithBinaryExpressionLogicForNullableTypes(rev, node, AfterChecks(HasValueOf("newDays")), NullableInt, NullableInt, cs, L, R, tagged, counter)
            == Lowering(Conditional(HasValue(R), Bin(L, R, CsBinOp.LessThanOp), Null), false, counter)
  {
    var checks := HasValueOf("newDays");
    NewDaysHasValue(rev);
    OtherHasValue(rev);
    LeftOperandNullable(rev, VbBinOp.LessThanOp, checks, tagged);
    RightOperandNullable(rev, VbBinOp.LessThanOp, checks, tagged);
    ReturnedComparison(rev, VbBinOp.LessThanOp, checks, BinaryExpr(CsBinOp.LessThanOp, L, R), tagged, counter, false, true);
    OneRightCheck(VbBinOp.LessThanOp, CsBinOp.LessThanOp, counter);
  }

  /** `Return (newDays.HasValue OrElse oldDays.HasValue) AndAlso newDays <> oldDays`:
      the lookup does not see through the parentheses (and an `OrElse` of
      checks on different variables proves nothing anyway), so both checks
      stay. */
  lemma UncertainChecks(rev: Revision, tagged: CsExpr -> bool, counter: nat)
    requires !tagged(L) && !tagged(R)
    ensures var node := Binary(VbBinOp.NotEqualsOp, Param("newDays"), Param("oldDays"));
            var checks := Parenthesized(Binary(OrElseOp, HasValueOf("newDays"), HasValueOf("oldDays")));
            var cs := BinaryExpr(CsBinOp.NotEqualsOp, L, R);
            WithBinaryExpressionLogicForNullableTypes(rev, node, AfterChecks(checks), NullableInt, NullableInt, cs, L, R, tagged, counter)
            == Lowering(Conditional(And(HasValue(L), HasValue(R)), Bin(L, R, CsBinOp.NotEqualsOp), Null), false, counter)
  {
    var checks := Parenthesized(Binary(OrElseOp, HasValueOf("newDays"), HasValueOf("oldDays")));
    assert NullFlow.GetNullabilityWithinBooleanExpression(rev, "newDays", checks, true) == None;
    assert NullFlow.GetNullabilityWithinBooleanExpression(rev, "oldDays", checks, true) == None;
    LeftOperandNullable(rev, VbBinOp.NotEqualsOp, checks, tagged);
    RightOperandNullable(rev, VbBinOp.NotEqualsOp, checks, tagged);
    ReturnedComparison(rev, VbBinOp.NotEqualsOp, checks, BinaryExpr(CsBinOp.NotEqualsOp, L, R), tagged, counter, true, true);
    BothNullableReusable(VbBinOp.NotEqualsOp, CsBinOp.NotEqualsOp, counter);
  }

  /** Only the right operand nullable, both reusable, outside a condition:
      `rhs.HasValue ? lhs op rhs : null`. */
  lemma OneRightCheck(op: VbBinOp, csOp: CsBinOp, counter: nat)
    requires IsRelational(op)
    ensures ForRelationalOperators(Facts(false, false, true, true, true, true), op, BinaryExpr(csOp, L, R), L, R, counter)
            == Lowering(Conditional(HasValue(R), Bin(L, R, csOp), Null), false, counter)
  {
  }

  /** Two nullable, reusable operands outside a condition are both checked. */
  lemma BothNullableReusable(op: VbBinOp, csOp: CsBinOp, counter: nat)
    ensures ForRelationalOperators(Facts(false, true, true, true, true, true), op, BinaryExpr(csOp, L, R), L, R, counter)
            == Lowering(Conditional(And(HasValue(L), HasValue(R)), Bin(L, R, csOp), Null), false, counter)
  {
    var lhv, rhv := Condition(true, HasValue(L)), Condition(true, HasValue(R));
    assert BuildConditions(Facts(false, true, true, true, true, true), L, R, counter) == Checks([lhv, rhv], L, R, counter);
    assert SwapIfGreater([lhv, rhv], 0, 1) == [lhv, rhv];
    assert ListSort([lhv, rhv]) == [lhv, rhv];
    assert FoldAnd([lhv, rhv]) == And(HasValue(L), HasValue(R));
  }

  /** `x = y` with two nullable, reusable operands outside a condition:
      `x.HasValue && y.HasValue ? x == y : (bool?)null`. */
  lemma ReusableEquality(counter: nat)
    ensures ForRelationalOperators(Facts(false, true, true, true, true, true), VbBinOp.EqualsOp,
                                   BinaryExpr(CsBinOp.EqualsOp, L, R), L, R, counter)
            == Lowering(Conditional(And(HasValue(L), HasValue(R)), Bin(L, R, CsBinOp.EqualsOp), Null), false, counter)
  {
    BothNullableReusable(VbBinOp.EqualsOp, CsBinOp.EqualsOp, counter);
  }

  /** `If x < y = a Then`: the inner comparison was already lowered to a
      non-null `bool`, so only `a` is nullable and the `==` is kept. */
  lemma ConditionEqualsKept(counter: nat)
    ensures var cs := BinaryExpr(CsBinOp.EqualsOp, L, R);
            ForRelationalOperators(Facts(true, false, true, false, true, true), VbBinOp.EqualsOp, cs, L, R, counter)
            == Lowering(cs, true, counter)
  {
  }

  /** `If x < y <> a Then`, with two names already taken:
      `x < y is { } arg3 && a.HasValue && arg3 != a`. The left operand is not
      nullable but, not being reusable, is still captured. */
  lemma ConditionNotEqualsGuarded()
    ensures ForRelationalOperators(Facts(true, false, true, false, true, true), VbBinOp.NotEqualsOp,
                                   BinaryExpr(CsBinOp.NotEqualsOp, L, R), L, R, 2)
            == Lowering(And(And(IsObjectPattern(L, 3), HasValue(R)), Bin(Arg(3), R, CsBinOp.NotEqualsOp)), true, 3)
  {
  }

  /** `If a AndAlso fx() Then` for a nullable `a` read through a call:
      `(fa() is var arg1 && !arg1.HasValue || arg1.Value) && fx() && arg1.HasValue`. */
  lemma ConditionAndAlsoCapturedLeft()
    ensures ForAndAlsoOperator(Facts(true, true, false, false, false, false), L, R, 0)
            == Lowering(AndHasValue(And(OrGetValue(AndHasNoValue(IsVarPattern(L, 1), Arg(1)), Arg(1)), R), Arg(1)), true, 1)
  {
  }

  /** `If fa() AndAlso fb() Then` for two nullable calls: the right operand
      is captured first, `arg3`, the left one second, `arg4`. */
  lemma ConditionAndAlsoFull()
    ensures ForAndAlsoOperator(Facts(true, true, true, false, false, false), L, R, 2)
            == Lowering(EqualsTrue(Conditional(AndEqualsFalse(IsVarPattern(L, 4), Arg(4)), False,
                                               Conditional(IsNotObjectPattern(R, 3), Null, Conditional(Arg(3), Arg(4), False)))),
                        true, 4)
  {
  }

  /** `If a OrElse b Then` for two nullable variables: `a == true || b == true`. */
  lemma ConditionOrElse(counter: nat)
    ensures ForOrElseOperator(Facts(true, true, true, true, true, true), L, R, counter)
            == Lowering(Or(EqualsTrue(L), EqualsTrue(R)), true, counter)
  {
  }

  /** `Return (newDays.HasValue AndAlso oldDays.HasValue OrElse True) AndAlso newDays > oldDays`:
      the checks are parenthesized and, being or-ed with `True`, prove
      nothing; both null checks of `newDays > oldDays` stay. */
  lemma NotDefinitelyTrueChecks(rev: Revision, tagged: CsExpr -> bool, counter: nat)
    requires !tagged(L) && !tagged(R)
    ensures var node := Binary(VbBinOp.GreaterThanOp, Param("newDays"), Param("oldDays"));
            var checks := Parenthesized(Binary(OrElseOp, Binary(AndAlsoOp, HasValueOf("newDays"), HasValueOf("oldDays")),
                                               Literal(BooleanLiteral(true))));
            var cs := BinaryExpr(CsBinOp.GreaterThanOp, L, R);
            WithBinaryExpressionLogicForNullableTypes(rev, node, AfterChecks(checks), NullableInt, NullableInt, cs, L, R, tagged, counter)
            == Lowering(Conditional(And(HasValue(L), HasValue(R)), Bin(L, R, CsBinOp.GreaterThanOp), Null), false, counter)
  {
    var checks := Parenthesized(Binary(OrElseOp, Binary(AndAlsoOp, HasValueOf("newDays"), HasValueOf("oldDays")),
                                       Literal(BooleanLiteral(true))));
    assert NullFlow.GetNullabilityWithinBooleanExpression(rev, "newDays", checks, true) == None;
    assert NullFlow.GetNullabilityWithinBooleanExpression(rev, "oldDays", checks, true) == None;
    LeftOperandNullable(rev, VbBinOp.GreaterThanOp, checks, tagged);
    RightOperandNullable(rev, VbBinOp.GreaterThanOp, checks, tagged);
    ReturnedComparison(rev, VbBinOp.GreaterThanOp, checks, BinaryExpr(CsBinOp.GreaterThanOp, L, R), tagged, counter, true, true);
    BothNullableReusable(VbBinOp.GreaterThanOp, CsBinOp.GreaterThanOp, counter);
  }

  // --------------------------------------------- scenarios on local variables

  /** A local variable of the method under conversion. */
  function LocalVar(name: string): VbExpr {
    IdentifierName(name, "", Some(Symbol(name, Local, false, false, false, false, false, "", "", "")))
  }

  /** `name()` for a local `Func` variable: a call, neither reusable nor pure. */
  function CallOf(name: string): VbExpr {
    Invocation(LocalVar(name), [], Some(Symbol("Invoke", Method, false, false, false, false, false, "", "", "")))
  }

  /** The condition of a single-line `If`. */
  const InCondition: seq<Frame> := [ConditionFrame(SingleLineIfStatement)]

  /** The value assigned by `res = <node>`. */
  const Assigned: seq<Frame> := [OtherNodeFrame]

  /** The operand of a binary node directly under a statement finds no
      check to look up. */
  lemma NothingAboveOperand(rev: Revision, operand: VbExpr, first: Frame, statement: Frame)
    requires first.BinaryLeftFrame? || first.BinaryRightFrame?
    requires !IsBinaryFrame(statement)
    ensures NullFlow.GetNullabilityOfOperand(rev, operand, [first, statement]) == None
  {
  }

  /** Operands under a statement are nullable exactly when their type is and
      their C# form carries no mark. */
  lemma OperandsUnderStatement(rev: Revision, node: VbExpr, statement: Frame, lhsType: TypeInfo, rhsType: TypeInfo,
                               tagged: CsExpr -> bool)
    requires node.Binary? && !IsBinaryFrame(statement)
    ensures IsNullable(rev, node.left, [BinaryLeftFrame(node.op, node.right)] + [statement], L, lhsType, tagged)
            == (lhsType.typeIsNullable && !tagged(L))
    ensures IsNullable(rev, node.right, [BinaryRightFrame(node.op, node.left)] + [statement], R, rhsType, tagged)
            == (rhsType.typeIsNullable && !tagged(R))
  {
    NothingAboveOperand(rev, node.left, BinaryLeftFrame(node.op, node.right), statement);
    NothingAboveOperand(rev, node.right, BinaryRightFrame(node.op, node.left), statement);
    assert [BinaryLeftFrame(node.op, node.right)] + [statement] == [BinaryLeftFrame(node.op, node.right), statement];
    assert [BinaryRightFrame(node.op, node.left)] + [statement] == [BinaryRightFrame(node.op, node.left), statement];
  }

  /** `res = x = y` for two `Integer?` locals:
      `x.HasValue && y.HasValue ? x == y : (bool?)null`. */
  lemma NullableLocalsEquality(rev: Revision, tagged: CsExpr -> bool, counter: nat)
    requires !tagged(L) && !tagged(R)
    ensures var node := Binary(VbBinOp.EqualsOp, LocalVar("x"), LocalVar("y"));
            var cs := BinaryExpr(CsBinOp.EqualsOp, L, R);
            WithBinaryExpressionLogicForNullableTypes(rev, node, Assigned, NullableInt, NullableInt, cs, L, R, tagged, counter)
            == Lowering(Conditional(And(HasValue(L), HasValue(R)), Bin(L, R, CsBinOp.EqualsOp), Null), false, counter)
  {
    var node := Binary(VbBinOp.EqualsOp, LocalVar("x"), LocalVar("y"));
    OperandsUnderStatement(rev, node, OtherNodeFrame, NullableInt, NullableInt, tagged);
    assert !BooleanContext.CanConvertToBoolean(rev, node, Assigned);
    assert FactsOf(rev, node, Assigned, true, true) == Facts(false, true, true, true, true, true);
    ReusableEquality(counter);
  }

  /** `res = a = y` for an `Integer` local `a` and an `Integer?` local `y`:
      only `y` is checked, `y.HasValue ? a == y : null`. */
  lemma PlainLeftEquality(rev: Revision, tagged: CsExpr -> bool, counter: nat)
    requires !tagged(R)
    ensures var node := Binary(VbBinOp.EqualsOp, LocalVar("a"), LocalVar("y"));
            var cs := BinaryExpr(CsBinOp.EqualsOp, L, R);
            WithBinaryExpressionLogicForNullableTypes(rev, node, Assigned, TypeInfo(false, true), NullableInt, cs, L, R, tagged, counter)
            == Lowering(Conditional(HasValue(R), Bin(L, R, CsBinOp.EqualsOp), Null), false, counter)
  {
    var node := Binary(VbBinOp.EqualsOp, LocalVar("a"), LocalVar("y"));
    OperandsUnderStatement(rev, node, OtherNodeFrame, TypeInfo(false, true), NullableInt, tagged);
    assert !BooleanContext.CanConvertToBoolean(rev, node, Assigned);
    assert FactsOf(rev, node, Assigned, false, true) == Facts(false, false, true, true, true, true);
    OneRightCheck(VbBinOp.EqualsOp, CsBinOp.EqualsOp, counter);
  }

  /** Nor does an operand of a binary node that is itself the left operand
      of a binary node in a condition. */
  lemma NothingAboveLeftOperand(rev: Revision, operand: VbExpr, first: Frame, parentOp: VbBinOp, right: VbExpr)
    requires first.BinaryLeftFrame? || first.BinaryRightFrame?
    ensures NullFlow.GetNullabilityOfOperand(rev, operand, [first] + ([BinaryLeftFrame(parentOp, right)] + InCondition)) == None
  {
    var p := [first] + ([BinaryLeftFrame(parentOp, right)] + InCondition);
    assert p == [first, BinaryLeftFrame(parentOp, right), ConditionFrame(SingleLineIfStatement)];
    var peeled := SyntaxExtensions.SkipIntoParens(operand);
    if peeled.IdentifierName? {
      assert NullFlow.WalkUp(rev, peeled.identifier, p, 2, true) == None;
    }
  }

  /** `x < y` as the left operand of `=` or `<>` in an `If` condition. As
      written the parent makes it a condition, so the `<` is kept and marked
      not nullable; corrected, `Nothing` must survive the `=`, and the result
      is not marked. */
  lemma InnerComparisonMarked(parentOp: VbBinOp, tagged: CsExpr -> bool, counter: nat)
    requires parentOp == VbBinOp.EqualsOp || parentOp == VbBinOp.NotEqualsOp
    requires !tagged(L) && !tagged(R)
    ensures var node := Binary(VbBinOp.LessThanOp, LocalVar("x"), LocalVar("y"));
            var ctx := [BinaryLeftFrame(parentOp, LocalVar("a"))] + InCondition;
            var cs := BinaryExpr(CsBinOp.LessThanOp, L, R);
            && WithBinaryExpressionLogicForNullableTypes(AsWritten, node, ctx, NullableInt, NullableInt, cs, L, R, tagged, counter)
               == Lowering(cs, true, counter)
            && !WithBinaryExpressionLogicForNullableTypes(Corrected, node, ctx, NullableInt, NullableInt, cs, L, R, tagged, counter).notNullable
  {
    var node := Binary(VbBinOp.LessThanOp, LocalVar("x"), LocalVar("y"));
    var ctx := [BinaryLeftFrame(parentOp, LocalVar("a"))] + InCondition;
    var parent := Binary(parentOp, node, LocalVar("a"));
    assert ctx[1..] == InCondition;
    assert SyntaxExtensions.SkipOutOfParens(ctx) == 0;
    assert BooleanContext.CanConvertToBoolean(AsWritten, parent, InCondition);
    assert BooleanContext.CanConvertToBoolean(AsWritten, node, ctx);
    assert !BooleanContext.CanConvertToBoolean(Corrected, node, ctx);
    NothingAboveLeftOperand(AsWritten, LocalVar("x"), BinaryLeftFrame(VbBinOp.LessThanOp, LocalVar("y")), parentOp, LocalVar("a"));
    NothingAboveLeftOperand(AsWritten, LocalVar("y"), BinaryRightFrame(VbBinOp.LessThanOp, LocalVar("x")), parentOp, LocalVar("a"));
    NothingAboveLeftOperand(Corrected, LocalVar("x"), BinaryLeftFrame(VbBinOp.LessThanOp, LocalVar("y")), parentOp, LocalVar("a"));
    NothingAboveLeftOperand(Corrected, LocalVar("y"), BinaryRightFrame(VbBinOp.LessThanOp, LocalVar("x")), parentOp, LocalVar("a"));
  }

  /** `If x < y = a Then` with the inner comparison already lowered and
      marked: only `a` is nullable and the `==` is kept. */
  lemma ConditionEqualsKeptTree(rev: Revision, tagged: CsExpr -> bool, counter: nat)
    requires tagged(L) && !tagged(R)
    ensures var node := Binary(VbBinOp.EqualsOp, Binary(VbBinOp.LessThanOp, LocalVar("x"), LocalVar("y")), LocalVar("a"));
            var cs := BinaryExpr(CsBinOp.EqualsOp, L, R);
            WithBinaryExpressionLogicForNullableTypes(rev, node, InCondition, NullableInt, NullableInt, cs, L, R, tagged, counter)
            == Lowering(cs, true, counter)
  {
    var node := Binary(VbBinOp.EqualsOp, Binary(VbBinOp.LessThanOp, LocalVar("x"), LocalVar("y")), LocalVar("a"));
    OperandsUnderStatement(rev, node, ConditionFrame(SingleLineIfStatement), NullableInt, NullableInt, tagged);
    assert BooleanContext.CanConvertToBoolean(rev, node, InCondition);
    assert FactsOf(rev, node, InCondition, false, true) == Facts(true, false, true, false, true, true);
    ConditionEqualsKept(counter);
  }

  /** `x < y <> a` in an `If` condition, the inner comparison marked: the
      relational template for a condition whose left operand has a value and
      is not reusable, and whose right operand is a nullable local. */
  lemma MarkedLeftDispatch(rev: Revision, tagged: CsExpr -> bool, counter: nat)
    requires tagged(L) && !tagged(R)
    ensures var node := Binary(VbBinOp.NotEqualsOp, Binary(VbBinOp.LessThanOp, LocalVar("x"), LocalVar("y")), LocalVar("a"));
            var cs := BinaryExpr(CsBinOp.NotEqualsOp, L, R);
            WithBinaryExpressionLogicForNullableTypes(rev, node, InCondition, NullableInt, NullableInt, cs, L, R, tagged, counter)
            == ForRelationalOperators(Facts(true, false, true, false, true, true), VbBinOp.NotEqualsOp, cs, L, R, counter)
  {
    var node := Binary(VbBinOp.NotEqualsOp, Binary(VbBinOp.LessThanOp, LocalVar("x"), LocalVar("y")), LocalVar("a"));
    OperandsUnderStatement(rev, node, ConditionFrame(SingleLineIfStatement), NullableInt, NullableInt, tagged);
    assert !IsNullable(rev, node.left, [BinaryLeftFrame(node.op, node.right)] + InCondition, L, NullableInt, tagged);
    assert IsNullable(rev, node.right, [BinaryRightFrame(node.op, node.left)] + InCondition, R, NullableInt, tagged);
    assert IsSupported(node.op);
    assert BooleanContext.CanConvertToBoolean(rev, node, InCondition);
    assert FactsOf(rev, node, InCondition, false, true) == Facts(true, false, true, false, true, true);
  }

  /** `If x < y <> a Then` with the inner comparison already lowered and
      marked, and two names already taken:
      `x < y is { } arg3 && a.HasValue && arg3 != a`. */
  lemma ConditionNotEqualsGuardedTree(rev: Revision, tagged: CsExpr -> bool)
    requires tagged(L) && !tagged(R)
    ensures var node := Binary(VbBinOp.NotEqualsOp, Binary(VbBinOp.LessThanOp, LocalVar("x"), LocalVar("y")), LocalVar("a"));
            var cs := BinaryExpr(CsBinOp.NotEqualsOp, L, R);
            WithBinaryExpressionLogicForNullableTypes(rev, node, InCondition, NullableInt, NullableInt, cs, L, R, tagged, 2)
            == Lowering(And(And(IsObjectPattern(L, 3), HasValue(R)), Bin(Arg(3), R, CsBinOp.NotEqualsOp)), true, 3)
  {
    MarkedLeftDispatch(rev, tagged, 2);
    ConditionNotEqualsGuarded();
  }

  /** `If fa() AndAlso fx() Then` for `fa` returning `Boolean?` and `fx`
      returning `Boolean`:
      `(fa() is var arg1 && !arg1.HasValue || arg1.Value) && fx() && arg1.HasValue`. */
  lemma ConditionAndAlsoCapturedLeftTree(rev: Revision, tagged: CsExpr -> bool)
    requires !tagged(L)
    ensures var node := Binary(AndAlsoOp, CallOf("fa"), CallOf("fx"));
            var cs := BinaryExpr(LogicalAnd, L, R);
            WithBinaryExpressionLogicForNullableTypes(rev, node, InCondition, NullableInt, TypeInfo(false, true), cs, L, R, tagged, 0)
            == Lowering(AndHasValue(And(OrGetValue(AndHasNoValue(IsVarPattern(L, 1), Arg(1)), Arg(1)), R), Arg(1)), true, 1)
  {
    var node := Binary(AndAlsoOp, CallOf("fa"), CallOf("fx"));
    OperandsUnderStatement(rev, node, ConditionFrame(SingleLineIfStatement), NullableInt, TypeInfo(false, true), tagged);
    assert BooleanContext.CanConvertToBoolean(rev, node, InCondition);
    assert FactsOf(rev, node, InCondition, true, false) == Facts(true, true, false, false, false, false);
    ConditionAndAlsoCapturedLeft();
  }

  /** `If fa() AndAlso fb() Then` for two calls returning `Boolean?`, with two
      names already taken: the right operand is captured first, `arg3`, the
      left one second, `arg4`. */
  lemma ConditionAndAlsoFullTree(rev: Revision, tagged: CsExpr -> bool)
    requires !tagged(L) && !tagged(R)
    ensures var node := Binary(AndAlsoOp, CallOf("fa"), CallOf("fb"));
            var cs := BinaryExpr(LogicalAnd, L, R);
            WithBinaryExpressionLogicForNullableTypes(rev, node, InCondition, NullableInt, NullableInt, cs, L, R, tagged, 2)
            == Lowering(EqualsTrue(Conditional(AndEqualsFalse(IsVarPattern(L, 4), Arg(4)), False,
                                               Conditional(IsNotObjectPattern(R, 3), Null, Conditional(Arg(3), Arg(4), False)))),
                        true, 4)
  {
    var node := Binary(AndAlsoOp, CallOf("fa"), CallOf("fb"));
    OperandsUnderStatement(rev, node, ConditionFrame(SingleLineIfStatement), NullableInt, NullableInt, tagged);
    assert BooleanContext.CanConvertToBoolean(rev, node, InCondition);
    assert FactsOf(rev, node, InCondition, true, true) == Facts(true, true, true, false, false, false);
    ConditionAndAlsoFull();
  }

  /** `If a OrElse b Then` for two `Boolean?` locals: `a == true || b == true`. */
  lemma ConditionOrElseTree(rev: Revision, tagged: CsExpr -> bool, counter: nat)
    requires !tagged(L) && !tagged(R)
    ensures var node := Binary(OrElseOp, LocalVar("a"), LocalVar("b"));
            var cs := BinaryExpr(LogicalOr, L, R);
            WithBinaryExpressionLogicForNullableTypes(rev, node, InCondition, NullableInt, NullableInt, cs, L, R, tagged, counter)
            == Lowering(Or(EqualsTrue(L), EqualsTrue(R)), true, counter)
  {
    var node := Binary(OrElseOp, LocalVar("a"), LocalVar("b"));
    OperandsUnderStatement(rev, node, ConditionFrame(SingleLineIfStatement), NullableInt, NullableInt, tagged);
    assert BooleanContext.CanConvertToBoolean(rev, node, InCondition);
    assert FactsOf(rev, node, InCondition, true, true) == Facts(true, true, true, true, true, true);
    ConditionOrElse(counter);
  }
}

=== FILE: cs_semantics.dfy ===
/** A big-step evaluator for the C# expressions the lowering builds, with the
    lifted (null-propagating) operators of C#'s nullable value types. Operand
    leaves read their value from an environment and count how often they are
    evaluated, so that side-effect counts can be compared with Visual Basic's.
    Static types are not checked: a template C# would reject still evaluates
    whenever its values have the right shape. An evaluation that would throw
    or has no value of the right shape (a `&&` on a null, `.Value` of a
    null, an unassigned pattern variable) is `Stuck`. */
module CsSemantics {
  import opened Options
  import opened CsSyntax

  datatype CsValue = BoolV(b: bool) | IntV(i: int) | NullV

  /** The values of the two operands. */
  datatype Env = Env(lhs: CsValue, rhs: CsValue)

  /** Pattern variables bound so far and how often each operand was evaluated. */
  datatype State = State(vars: map<nat, CsValue>, lhsEvals: nat, rhsEvals: nat)

  datatype Outcome = Done(value: CsValue, st: State) | Stuck

  const Initial: State := State(map[], 0, 0)

  function OfBool(v: Option<bool>): CsValue {
    match v
    case Some(b) => BoolV(b)
    case None => NullV
  }

  function OfInt(v: Option<int>): CsValue {
    match v
    case Some(i) => IntV(i)
    case None => NullV
  }

  function Read(env: Env, s: Side): CsValue {
    match s
    case Lhs => env.lhs
    case Rhs => env.rhs
  }

  function Count(st: State, s: Side): State {
    match s
    case Lhs => st.(lhsEvals := st.lhsEvals + 1)
    case Rhs => st.(rhsEvals := st.rhsEvals + 1)
  }

  function Bind(st: State, id: nat, v: CsValue): State {
    st.(vars := st.vars[id := v])
  }

  /** C#'s lifted `==`: two nulls are equal, a null and a value are not. */
  function LiftedEquals(a: CsValue, b: CsValue): Option<bool> {
    if a.NullV? || b.NullV? then Some(a.NullV? && b.NullV?)
    else if a.BoolV? == b.BoolV? then Some(a == b)
    else None
  }

  /** C#'s lifted ordering: false as soon as either side is null. */
  function LiftedOrdering(op: CsBinOp, a: CsValue, b: CsValue): Option<bool> {
    if a.NullV? || b.NullV? then Some(false)
    else if a.IntV? && b.IntV? then
      match op
      case LessThanOp => Some(a.i < b.i)
      case LessThanOrEqualOp => Some(a.i <= b.i)
      case GreaterThanOp => Some(a.i > b.i)
      case GreaterThanOrEqualOp => Some(a.i >= b.i)
      case _ => None
    else None
  }

  /** A non-short-circuiting binary operator applied to two values. */
  function Lifted(op: CsBinOp, a: CsValue, b: CsValue): Option<CsValue> {
    match op
    case EqualsOp => (match LiftedEquals(a, b) case Some(r) => Some(BoolV(r)) case None => None)
    case NotEqualsOp => (match LiftedEquals(a, b) case Some(r) => Some(BoolV(!r)) case None => None)
    case LessThanOp => (match LiftedOrdering(op, a, b) case Some(r) => Some(BoolV(r)) case None => None)
    case LessThanOrEqualOp => (match LiftedOrdering(op, a, b) case Some(r) => Some(BoolV(r)) case None => None)
    case GreaterThanOp => (match LiftedOrdering(op, a, b) case Some(r) => Some(BoolV(r)) case None => None)
    case GreaterThanOrEqualOp => (match LiftedOrdering(op, a, b) case Some(r) => Some(BoolV(r)) case None => None)
    case _ => None
  }

  function Eval(e: CsExpr, env: Env, st: State): Outcome {
    match e
    case Operand(s) => Done(Read(env, s), Count(st, s))
    case Arg(id) => if id in st.vars then Done(st.vars[id], st) else Stuck
    case BoolLit(b) => Done(BoolV(b), st)
    case NullableBoolLit(v) => Done(OfBool(v), st)
    case ParenExpr(i) => Eval(i, env, st)
    case NotExpr(o) =>
      (match Eval(o, env, st)
       case Done(BoolV(b), st1) => Done(BoolV(!b), st1)
       case Done(NullV, st1) => Done(NullV, st1)
       case _ => Stuck)
    case HasValueExpr(o) =>
      (match Eval(o, env, st)
       case Done(v, st1) => Done(BoolV(!v.NullV?), st1)
       case Stuck => Stuck)
    case ValueExpr(o) =>
      (match Eval(o, env, st)
       case Done(v, st1) => if v.NullV? then Stuck else Done(v, st1)
       case Stuck => Stuck)
    case BinaryExpr(op, l, r) =>
      (match Eval(l, env, st)
       case Stuck => Stuck
       case Done(lv, st1) =>
         if op == LogicalAnd || op == LogicalOr then
           if !lv.BoolV? then Stuck
           else if lv.b == (op == LogicalOr) then Done(lv, st1)
           else
             (match Eval(r, env, st1)
              case Done(BoolV(b), st2) => Done(BoolV(b), st2)
              case _ => Stuck)
         else
           (match Eval(r, env, st1)
            case Stuck => Stuck
            case Done(rv, st2) =>
              (match Lifted(op, lv, rv)
               case Some(v) => Done(v, st2)
               case None => Stuck)))
    case ConditionalExpr(c, t, f) =>
      (match Eval(c, env, st)
       case Done(BoolV(b), st1) => if b then Eval(t, env, st1) else Eval(f, env, st1)
       case _ => Stuck)
    case IsVarPattern(o, id) =>
      (match Eval(o, env, st)
       case Done(v, st1) => Done(BoolV(true), Bind(st1, id, v))
       case Stuck => Stuck)
    case IsObjectPattern(o, id) =>
      (match Eval(o, env, st)
       case Done(v, st1) => if v.NullV? then Done(BoolV(false), st1) else Done(BoolV(true), Bind(st1, id, v))
       case Stuck => Stuck)
    case IsNotObjectPattern(o, id) =>
      (match Eval(o, env, st)
       case Done(v, st1) => if v.NullV? then Done(BoolV(true), st1) else Done(BoolV(false), Bind(st1, id, v))
       case Stuck => Stuck)
  }
}

=== FILE: cs_syntax.dfy ===
/** The C# expressions the nullable lowering builds. The two converted operands
    handed to the lowering appear as `Operand` leaves; generated pattern
    variables `argN` are represented by their number `N`. */
module CsSyntax {
  import opened Options

  /** Which operand of the binary expression being lowered. */
  datatype Side = Lhs | Rhs

  datatype CsBinOp =
    | LogicalAnd | LogicalOr
    | EqualsOp | NotEqualsOp | LessThanOp | LessThanOrEqualOp | GreaterThanOp | GreaterThanOrEqualOp
    | OtherBinaryOp

  datatype CsExpr =
    | Operand(side: Side)                                  // an already converted operand
    | Arg(id: nat)                                         // the pattern variable `arg<id>`
    | BoolLit(b: bool)                                     // `true`, `false`
    | NullableBoolLit(v: Option<bool>)                     // `(bool?)null`, `(bool?)false`, `(bool?)true`
    | ParenExpr(inner: CsExpr)
    | NotExpr(operand: CsExpr)                             // `!e`
    | HasValueExpr(operand: CsExpr)                        // `e.HasValue`
    | ValueExpr(operand: CsExpr)                           // `e.Value`
    | BinaryExpr(op: CsBinOp, left: CsExpr, right: CsExpr)
    | ConditionalExpr(condition: CsExpr, whenTrue: CsExpr, whenFalse: CsExpr)
    | IsVarPattern(operand: CsExpr, id: nat)               // `e is var arg<id>`
    | IsObjectPattern(operand: CsExpr, id: nat)            // `e is { } arg<id>`
    | IsNotObjectPattern(operand: CsExpr, id: nat)         // `e is not { } arg<id>`

  /** How many times an operand is written in an expression. */
  function Occurrences(e: CsExpr, s: Side): nat {
    match e
    case Operand(side) => if side == s then 1 else 0
    case Arg(_) => 0
    case BoolLit(_) => 0
    case NullableBoolLit(_) => 0
    case ParenExpr(i) => Occurrences(i, s)
    case NotExpr(o) => Occurrences(o, s)
    case HasValueExpr(o) => Occurrences(o, s)
    case ValueExpr(o) => Occurrences(o, s)
    case BinaryExpr(_, l, r) => Occurrences(l, s) + Occurrences(r, s)
    case ConditionalExpr(c, t, f) => Occurrences(c, s) + Occurrences(t, s) + Occurrences(f, s)
    case IsVarPattern(o, _) => Occurrences(o, s)
    case IsObjectPattern(o, _) => Occurrences(o, s)
    case IsNotObjectPattern(o, _) => Occurrences(o, s)
  }

  /** The pattern variables an expression declares, in source order. */
  function Binders(e: CsExpr): seq<nat> {
    match e
    case Operand(_) => []
    case Arg(_) => []
    case BoolLit(_) => []
    case NullableBoolLit(_) => []
    case ParenExpr(i) => Binders(i)
    case NotExpr(o) => Binders(o)
    case HasValueExpr(o) => Binders(o)
    case ValueExpr(o) => Binders(o)
    case BinaryExpr(_, l, r) => Binders(l) + Binders(r)
    case ConditionalExpr(c, t, f) => Binders(c) + Binders(t) + Binders(f)
    case IsVarPattern(o, id) => Binders(o) + [id]
    case IsObjectPattern(o, id) => Binders(o) + [id]
    case IsNotObjectPattern(o, id) => Binders(o) + [id]
  }

  /** The pattern variables an expression reads. */
  function Uses(e: CsExpr): set<nat> {
    match e
    case Operand(_) => {}
    case Arg(id) => {id}
    case BoolLit(_) => {}
    case NullableBoolLit(_) => {}
    case ParenExpr(i) => Uses(i)
    case NotExpr(o) => Uses(o)
    case HasValueExpr(o) => Uses(o)
    case ValueExpr(o) => Uses(o)
    case BinaryExpr(_, l, r) => Uses(l) + Uses(r)
    case ConditionalExpr(c, t, f) => Uses(c) + Uses(t) + Uses(f)
    case IsVarPattern(o, _) => Uses(o)
    case IsObjectPattern(o, _) => Uses(o)
    case IsNotObjectPattern(o, _) => Uses(o)
  }

  /** No pattern variable is declared twice. */
  predicate DistinctBinders(e: CsExpr) {
    var b := Binders(e);
    forall i, j :: 0 <= i < j < |b| ==> b[i] != b[j]
  }
}

=== FILE: lowering_correctness.dfy ===
/** The lowering against Visual Basic's semantics. The two operands are the
    leaves `Operand(Lhs)` and `Operand(Rhs)`, whose values come from the
    environment and whose evaluations are counted; the facts the templates
    branch on are assumed to be true of those values (an operand found not
    nullable holds a value). Each lemma states the value the C# expression
    produces (the three-valued Visual Basic result, or whether it is `True`
    where `Nothing` may become `false`) and how often each operand is
    evaluated, against how often Visual Basic evaluates it. */
module LoweringCorrectness {
  import opened Options
  import opened CsSyntax
  import opened CsSemantics
  import opened NullableTypesLogicExtensions
  import opened VbSemantics
  import opened NullableExpressionsConverter
  import VbSyntax

  /** How often Visual Basic evaluates the right operand of `AndAlso`. */
  function AndAlsoRhsEvals(lv: Option<bool>): nat {
    if lv == Some(false) then 0 else 1
  }

  /** How often Visual Basic evaluates the right operand of `OrElse`. */
  function OrElseRhsEvals(lv: Option<bool>): nat {
    if lv == Some(true) then 0 else 1
  }

  /** The facts agree with the operand values. */
  predicate Agrees<T>(f: Facts, lv: Option<T>, rv: Option<T>) {
    (!f.lhsNullable ==> lv.Some?) && (!f.rhsNullable ==> rv.Some?)
  }

  // ------------------------------------------------------ AndAlso templates

  /** `lhs && rhs == true` */
  lemma AndAlsoLhsNotNull(lv: Option<bool>, rv: Option<bool>, st: State)
    requires lv.Some?
    ensures var out := Eval(And(Operand(Lhs), EqualsTrue(Operand(Rhs))), Env(OfBool(lv), OfBool(rv)), st);
            && out.Done? && out.value == BoolV(And3(lv, rv) == Some(true))
            && out.st.lhsEvals == st.lhsEvals + 1 && out.st.rhsEvals == st.rhsEvals + AndAlsoRhsEvals(lv)
  {
    var env := Env(OfBool(lv), OfBool(rv));
    var s1 := Count(st, Lhs);
    assert Eval(Operand(Lhs), env, st) == Done(OfBool(lv), s1);
    if lv == Some(true) {
      assert Eval(EqualsTrue(Operand(Rhs)), env, s1) == Done(BoolV(rv == Some(true)), Count(s1, Rhs));
    }
  }

  /** `lhs == true && rhs` and `lhs == true && rhs == true` */
  lemma AndAlsoPureRhs(lv: Option<bool>, rv: Option<bool>, st: State, rhsNullable: bool)
    requires !rhsNullable ==> rv.Some?
    ensures var rhs := if !rhsNullable then Operand(Rhs) else EqualsTrue(Operand(Rhs));
            var out := Eval(And(EqualsTrue(Operand(Lhs)), rhs), Env(OfBool(lv), OfBool(rv)), st);
            && out.Done? && out.value == BoolV(And3(lv, rv) == Some(true))
            && out.st.lhsEvals == st.lhsEvals + 1
            && out.st.rhsEvals == st.rhsEvals + (if lv == Some(true) then 1 else 0)
  {
    var env := Env(OfBool(lv), OfBool(rv));
    var s1 := Count(st, Lhs);
    var s2 := Count(s1, Rhs);
    assert Eval(EqualsTrue(Operand(Lhs)), env, st) == Done(BoolV(lv == Some(true)), s1);
    if lv == Some(true) {
      if !rhsNullable {
        assert Eval(Operand(Rhs), env, s1) == Done(OfBool(rv), s2);
      } else {
        assert Eval(EqualsTrue(Operand(Rhs)), env, s1) == Done(BoolV(rv == Some(true)), s2);
      }
    }
  }

  /** `(!lhs.HasValue || lhs.Value) && rhs && lhs.HasValue` */
  lemma AndAlsoReusableLhs(lv: Option<bool>, rv: Option<bool>, st: State)
    requires rv.Some?
    ensures var lhs := Operand(Lhs);
            var e := AndHasValue(And(OrGetValue(HasNoValue(lhs), lhs), Operand(Rhs)), lhs);
            var out := Eval(e, Env(OfBool(lv), OfBool(rv)), st);
            && out.Done? && out.value == BoolV(And3(lv, rv) == Some(true))
            && out.st.rhsEvals == st.rhsEvals + AndAlsoRhsEvals(lv)
  {
    var env := Env(OfBool(lv), OfBool(rv));
    var lhs := Operand(Lhs);
    var s1 := Count(st, Lhs);
    var s2 := Count(s1, Lhs);
    assert Eval(HasValue(lhs), env, st) == Done(BoolV(lv.Some?), s1);
    assert Eval(HasNoValue(lhs), env, st) == Done(BoolV(lv.None?), s1);
    var guard := OrGetValue(HasNoValue(lhs), lhs);
    if lv.None? {
      assert Eval(guard, env, st) == Done(BoolV(true), s1);
      var s3 := Count(s1, Rhs);
      assert Eval(Operand(Rhs), env, s1) == Done(OfBool(rv), s3);
      assert Eval(And(guard, Operand(Rhs)), env, st) == Done(OfBool(rv), s3);
      if rv == Some(true) {
        assert Eval(HasValue(lhs), env, s3) == Done(BoolV(false), Count(s3, Lhs));
      }
    } else {
      assert Eval(GetValue(lhs), env, s1) == Done(OfBool(lv), s2);
      assert Eval(guard, env, st) == Done(OfBool(lv), s2);
      if lv == Some(true) {
        var s3 := Count(s2, Rhs);
        assert Eval(Operand(Rhs), env, s2) == Done(OfBool(rv), s3);
        assert Eval(And(guard, Operand(Rhs)), env, st) == Done(OfBool(rv), s3);
        if rv == Some(true) {
          assert Eval(HasValue(lhs), env, s3) == Done(BoolV(true), Count(s3, Lhs));
        }
      }
    }
  }

  /** `((lhs is var argN && !argN.HasValue) || argN.Value) && rhs && argN.HasValue` */
  lemma AndAlsoCapturedLhs(lv: Option<bool>, rv: Option<bool>, counter: nat, st: State)
    requires rv.Some?
    ensures var l := PatternVar(Operand(Lhs), counter);
            var e := AndHasValue(And(OrGetValue(AndHasNoValue(l.pattern, l.name), l.name), Operand(Rhs)), l.name);
            var out := Eval(e, Env(OfBool(lv), OfBool(rv)), st);
            && out.Done? && out.value == BoolV(And3(lv, rv) == Some(true))
            && out.st.lhsEvals == st.lhsEvals + 1
            && out.st.rhsEvals == st.rhsEvals + AndAlsoRhsEvals(lv)
  {
    var env := Env(OfBool(lv), OfBool(rv));
    var l := PatternVar(Operand(Lhs), counter);
    var s1 := Bind(Count(st, Lhs), l.counter, OfBool(lv));
    assert Eval(l.pattern, env, st) == Done(BoolV(true), s1);
    assert Eval(HasValue(l.name), env, s1) == Done(BoolV(lv.Some?), s1);
    assert Eval(HasNoValue(l.name), env, s1) == Done(BoolV(lv.None?), s1);
    var first := AndHasNoValue(l.pattern, l.name);
    assert Eval(first, env, st) == Done(BoolV(lv.None?), s1);
    var guard := OrGetValue(first, l.name);
    var s3 := Count(s1, Rhs);
    if lv.None? {
      assert Eval(guard, env, st) == Done(BoolV(true), s1);
    } else {
      assert Eval(GetValue(l.name), env, s1) == Done(OfBool(lv), s1);
      assert Eval(guard, env, st) == Done(OfBool(lv), s1);
    }
    if lv != Some(false) {
      assert Eval(Operand(Rhs), env, s1) == Done(OfBool(rv), s3);
      assert Eval(And(guard, Operand(Rhs)), env, st) == Done(OfBool(rv), s3);
      if rv == Some(true) {
        assert Eval(HasValue(l.name), env, s3) == Done(BoolV(lv.Some?), s3);
      }
    }
  }

  /** The left test of `FullAndExpression`: `lhs == false`, or
      `lhs is var argN && argN == false` with `argN` holding the value after it. */
  lemma FullAndLeftTest(lhsReusable: bool, lv: Option<bool>, n: nat, env: Env, st: State)
    requires env.lhs == OfBool(lv)
    ensures var test := if lhsReusable then EqualsFalse(Operand(Lhs))
                        else AndEqualsFalse(IsVarPattern(Operand(Lhs), n), Arg(n));
            var s1 := if lhsReusable then Count(st, Lhs) else Bind(Count(st, Lhs), n, OfBool(lv));
            Eval(test, env, st) == Done(BoolV(lv == Some(false)), s1)
  {
    if !lhsReusable {
      var s1 := Bind(Count(st, Lhs), n, OfBool(lv));
      assert Eval(IsVarPattern(Operand(Lhs), n), env, st) == Done(BoolV(true), s1);
      assert Eval(EqualsFalse(Arg(n)), env, s1) == Done(BoolV(lv == Some(false)), s1);
    }
  }

  /** `FullAndExpression` when the right operand is reusable:
      `test ? false : !rhs.HasValue ? null : rhs.Value ? lhs : false`. */
  lemma FullAndReusableRhs(lhsReusable: bool, lv: Option<bool>, rv: Option<bool>, counter: nat, st: State)
    ensures var r := FullAndExpression(Facts(false, true, true, lhsReusable, true, true), Operand(Lhs), Operand(Rhs), counter);
            var out := Eval(r.expr, Env(OfBool(lv), OfBool(rv)), st);
            && out.Done? && out.value == OfBool(And3(lv, rv))
            && (!lhsReusable ==> out.st.lhsEvals == st.lhsEvals + 1)
  {
    var env := Env(OfBool(lv), OfBool(rv));
    var lhs := Operand(Lhs);
    var rhs := Operand(Rhs);
    var n := counter + 1;
    var name := if lhsReusable then lhs else Arg(n);
    var test := if lhsReusable then EqualsFalse(lhs) else AndEqualsFalse(IsVarPattern(lhs, n), Arg(n));
    var s1 := if lhsReusable then Count(st, Lhs) else Bind(Count(st, Lhs), n, OfBool(lv));
    FullAndLeftTest(lhsReusable, lv, n, env, st);
    var last := Conditional(GetValue(rhs), name, False);
    var tail := Conditional(HasNoValue(rhs), Null, last);
    assert FullAndExpression(Facts(false, true, true, lhsReusable, true, true), lhs, rhs, counter).expr
        == Conditional(test, False, tail);
    if lv == Some(false) {
      assert Eval(Conditional(test, False, tail), env, st) == Eval(False, env, s1);
    } else {
      assert Eval(Conditional(test, False, tail), env, st) == Eval(tail, env, s1);
      var s2 := Count(s1, Rhs);
      assert Eval(HasValue(rhs), env, s1) == Done(BoolV(rv.Some?), s2);
      if rv.Some? {
        var s3 := Count(s2, Rhs);
        assert Eval(tail, env, s1) == Eval(last, env, s2);
        assert Eval(GetValue(rhs), env, s2) == Done(OfBool(rv), s3);
        if rv == Some(true) {
          var s4 := if lhsReusable then Count(s3, Lhs) else s3;
          assert Eval(name, env, s3) == Done(OfBool(lv), s4);
          assert Eval(last, env, s2) == Eval(name, env, s3);
        } else {
          assert Eval(last, env, s2) == Eval(False, env, s3);
        }
      } else {
        assert Eval(tail, env, s1) == Eval(Null, env, s2);
      }
    }
  }

  /** `FullAndExpression` when the right operand is captured first:
      `test ? false : rhs is not { } argM ? null : argM ? lhs : false`. */
  lemma FullAndCapturedRhs(lhsReusable: bool, lv: Option<bool>, rv: Option<bool>, counter: nat, st: State)
    ensures var r := FullAndExpression(Facts(false, true, true, lhsReusable, false, false), Operand(Lhs), Operand(Rhs), counter);
            var out := Eval(r.expr, Env(OfBool(lv), OfBool(rv)), st);
            && out.Done? && out.value == OfBool(And3(lv, rv))
            && (!lhsReusable ==> out.st.lhsEvals == st.lhsEvals + 1)
            && out.st.rhsEvals == st.rhsEvals + AndAlsoRhsEvals(lv)
  {
    var env := Env(OfBool(lv), OfBool(rv));
    var lhs := Operand(Lhs);
    var rhs := Operand(Rhs);
    var m := counter + 1;
    var n := counter + 2;
    var name := if lhsReusable then lhs else Arg(n);
    var test := if lhsReusable then EqualsFalse(lhs) else AndEqualsFalse(IsVarPattern(lhs, n), Arg(n));
    var s1 := if lhsReusable then Count(st, Lhs) else Bind(Count(st, Lhs), n, OfBool(lv));
    FullAndLeftTest(lhsReusable, lv, n, env, st);
    var last := Conditional(Arg(m), name, False);
    var tail := Conditional(IsNotObjectPattern(rhs, m), Null, last);
    assert FullAndExpression(Facts(false, true, true, lhsReusable, false, false), lhs, rhs, counter).expr
        == Conditional(test, False, tail);
    if lv == Some(false) {
      assert Eval(Conditional(test, False, tail), env, st) == Eval(False, env, s1);
    } else {
      assert Eval(Conditional(test, False, tail), env, st) == Eval(tail, env, s1);
      var s2 := Count(s1, Rhs);
      if rv.Some? {
        var s3 := Bind(s2, m, OfBool(rv));
        assert Eval(IsNotObjectPattern(rhs, m), env, s1) == Done(BoolV(false), s3);
        assert Eval(tail, env, s1) == Eval(last, env, s3);
        assert Eval(Arg(m), env, s3) == Done(OfBool(rv), s3);
        if rv == Some(true) {
          var s4 := if lhsReusable then Count(s3, Lhs) else s3;
          assert Eval(name, env, s3) == Done(OfBool(lv), s4);
          assert Eval(last, env, s3) == Eval(name, env, s3);
        } else {
          assert Eval(last, env, s3) == Eval(False, env, s3);
        }
      } else {
        assert Eval(IsNotObjectPattern(rhs, m), env, s1) == Done(BoolV(true), s2);
        assert Eval(tail, env, s1) == Eval(Null, env, s2);
      }
    }
  }

  /** The four `FullAndExpression` templates keep the three-valued result and
      evaluate every captured operand once. */
  lemma FullAndCorrect(f: Facts, lv: Option<bool>, rv: Option<bool>, counter: nat, st: State)
    requires f.rhsReusable ==> f.rhsPure
    ensures var r := FullAndExpression(f, Operand(Lhs), Operand(Rhs), counter);
            var out := Eval(r.expr, Env(OfBool(lv), OfBool(rv)), st);
            && out.Done? && out.value == OfBool(And3(lv, rv))
            && (!f.lhsReusable ==> out.st.lhsEvals == st.lhsEvals + 1)
            && (!f.rhsReusable ==> out.st.rhsEvals == st.rhsEvals + AndAlsoRhsEvals(lv))
  {
    if f.rhsReusable {
      FullAndReusableRhs(f.lhsReusable, lv, rv, counter, st);
      assert FullAndExpression(f, Operand(Lhs), Operand(Rhs), counter)
          == FullAndExpression(Facts(false, true, true, f.lhsReusable, true, true), Operand(Lhs), Operand(Rhs), counter);
    } else {
      FullAndCapturedRhs(f.lhsReusable, lv, rv, counter, st);
      assert FullAndExpression(f, Operand(Lhs), Operand(Rhs), counter)
          == FullAndExpression(Facts(false, true, true, f.lhsReusable, false, false), Operand(Lhs), Operand(Rhs), counter);
    }
  }

  /** `lhs ? rhs : (bool?)false` */
  lemma AndAlsoConditional(lv: Option<bool>, rv: Option<bool>, st: State)
    requires lv.Some?
    ensures var out := Eval(Conditional(Operand(Lhs), Operand(Rhs), False), Env(OfBool(lv), OfBool(rv)), st);
            && out.Done? && out.value == OfBool(And3(lv, rv))
            && out.st.lhsEvals == st.lhsEvals + 1 && out.st.rhsEvals == st.rhsEvals + AndAlsoRhsEvals(lv)
  {
    var env := Env(OfBool(lv), OfBool(rv));
    assert Eval(Operand(Lhs), env, st) == Done(OfBool(lv), Count(st, Lhs));
  }

  /** `lhs == false ? false : rhs ? lhs : false`, with `lhs` captured unless reusable */
  lemma AndAlsoNotNullRhs(lhsReusable: bool, lv: Option<bool>, rv: Option<bool>, counter: nat, st: State)
    requires rv.Some?
    ensures var lhs := Operand(Lhs);
            var l := PatternVar(lhs, counter);
            var e := if lhsReusable then Conditional(EqualsFalse(lhs), False, Conditional(Operand(Rhs), lhs, False))
                     else Conditional(AndEqualsFalse(l.pattern, l.name), False, Conditional(Operand(Rhs), l.name, False));
            var out := Eval(e, Env(OfBool(lv), OfBool(rv)), st);
            && out.Done? && out.value == OfBool(And3(lv, rv))
            && (!lhsReusable ==> out.st.lhsEvals == st.lhsEvals + 1)
            && out.st.rhsEvals == st.rhsEvals + AndAlsoRhsEvals(lv)
  {
    var env := Env(OfBool(lv), OfBool(rv));
    var lhs := Operand(Lhs);
    var l := PatternVar(lhs, counter);
    var name := if lhsReusable then lhs else l.name;
    var test := if lhsReusable then EqualsFalse(lhs) else AndEqualsFalse(l.pattern, l.name);
    var s1 := if lhsReusable then Count(st, Lhs) else Bind(Count(st, Lhs), l.counter, OfBool(lv));
    if lhsReusable {
      assert Eval(test, env, st) == Done(BoolV(lv == Some(false)), s1);
    } else {
      assert Eval(l.pattern, env, st) == Done(BoolV(true), s1);
      assert Eval(EqualsFalse(l.name), env, s1) == Done(BoolV(lv == Some(false)), s1);
      assert Eval(test, env, st) == Done(BoolV(lv == Some(false)), s1);
    }
    var inner := Conditional(Operand(Rhs), name, False);
    var e := Conditional(test, False, inner);
    if lv == Some(false) {
      assert Eval(e, env, st) == Eval(False, env, s1);
    } else {
      var s2 := Count(s1, Rhs);
      assert Eval(e, env, st) == Eval(inner, env, s1);
      assert Eval(Operand(Rhs), env, s1) == Done(OfBool(rv), s2);
      if rv == Some(true) {
        var s3 := if lhsReusable then Count(s2, Lhs) else s2;
        assert Eval(name, env, s2) == Done(OfBool(lv), s3);
        assert Eval(inner, env, s1) == Eval(name, env, s2);
      } else {
        assert Eval(inner, env, s1) == Eval(False, env, s2);
      }
    }
  }

  /** `ForAndAlsoOperator` is Visual Basic's `AndAlso`: the three-valued
      result, or in a collapsing position whether it is `True`; a left
      operand that is not safely reusable is evaluated exactly once; a right
      operand that is not pure is evaluated exactly as often as Visual Basic
      evaluates it, and one that is not safely reusable never more often. */
  lemma AndAlsoLoweringCorrect(f: Facts, lv: Option<bool>, rv: Option<bool>, counter: nat, st: State)
    requires Agrees(f, lv, rv)
    requires f.rhsReusable ==> f.rhsPure
    ensures var r := ForAndAlsoOperator(f, Operand(Lhs), Operand(Rhs), counter);
            var out := Eval(r.expr, Env(OfBool(lv), OfBool(rv)), st);
            && out.Done?
            && out.value == (if f.collapse then BoolV(And3(lv, rv) == Some(true)) else OfBool(And3(lv, rv)))
            && (!f.lhsReusable ==> out.st.lhsEvals == st.lhsEvals + 1)
            && (!f.rhsPure ==> out.st.rhsEvals == st.rhsEvals + AndAlsoRhsEvals(lv))
            && (!f.rhsReusable ==> out.st.rhsEvals <= st.rhsEvals + AndAlsoRhsEvals(lv))
  {
    var lhs := Operand(Lhs);
    var rhs := Operand(Rhs);
    var env := Env(OfBool(lv), OfBool(rv));
    if f.collapse {
      if !f.lhsNullable {
        AndAlsoLhsNotNull(lv, rv, st);
      } else if f.rhsPure {
        AndAlsoPureRhs(lv, rv, st, f.rhsNullable);
      } else if !f.rhsNullable {
        if f.lhsReusable {
          AndAlsoReusableLhs(lv, rv, st);
        } else {
          AndAlsoCapturedLhs(lv, rv, counter, st);
        }
      } else {
        var full := FullAndExpression(f, lhs, rhs, counter);
        FullAndCorrect(f, lv, rv, counter, st);
        EqualsTrueMeaning(full.expr, env, st);
      }
    } else if !f.lhsNullable {
      AndAlsoConditional(lv, rv, st);
    } else if !f.rhsNullable {
      AndAlsoNotNullRhs(f.lhsReusable, lv, rv, counter, st);
    } else {
      FullAndCorrect(f, lv, rv, counter, st);
    }
  }

  // ------------------------------------------------------- OrElse templates

  /** `lhs || rhs == true` and `lhs == true || rhs` and `lhs == true || rhs == true` */
  lemma OrElseCollapsed(lhsNullable: bool, rhsNullable: bool, lv: Option<bool>, rv: Option<bool>, st: State)
    requires !lhsNullable ==> lv.Some?
    requires !rhsNullable ==> rv.Some?
    ensures var lhs := Operand(Lhs);
            var rhs := Operand(Rhs);
            var e := if !lhsNullable then Or(lhs, EqualsTrue(rhs))
                     else if !rhsNullable then Or(EqualsTrue(lhs), rhs) else Or(EqualsTrue(lhs), EqualsTrue(rhs));
            var out := Eval(e, Env(OfBool(lv), OfBool(rv)), st);
            && out.Done? && out.value == BoolV(Or3(lv, rv) == Some(true))
            && out.st.lhsEvals == st.lhsEvals + 1 && out.st.rhsEvals == st.rhsEvals + OrElseRhsEvals(lv)
  {
    var env := Env(OfBool(lv), OfBool(rv));
    var s1 := Count(st, Lhs);
    var s2 := Count(s1, Rhs);
    var left := if !lhsNullable then Operand(Lhs) else EqualsTrue(Operand(Lhs));
    var right := if !lhsNullable || rhsNullable then EqualsTrue(Operand(Rhs)) else Operand(Rhs);
    assert Eval(Operand(Lhs), env, st) == Done(OfBool(lv), s1);
    assert Eval(left, env, st) == Done(BoolV(lv == Some(true)), s1);
    if lv != Some(true) {
      assert Eval(Operand(Rhs), env, s1) == Done(OfBool(rv), s2);
      assert Eval(right, env, s1) == Done(BoolV(rv == Some(true)), s2);
    }
  }

  /** `lhs ? (bool?)true : rhs` */
  lemma OrElseConditional(lv: Option<bool>, rv: Option<bool>, st: State)
    requires lv.Some?
    ensures var out := Eval(Conditional(Operand(Lhs), True, Operand(Rhs)), Env(OfBool(lv), OfBool(rv)), st);
            && out.Done? && out.value == OfBool(Or3(lv, rv))
            && out.st.lhsEvals == st.lhsEvals + 1 && out.st.rhsEvals == st.rhsEvals + OrElseRhsEvals(lv)
  {
    var env := Env(OfBool(lv), OfBool(rv));
    assert Eval(Operand(Lhs), env, st) == Done(OfBool(lv), Count(st, Lhs));
  }

  /** The `false` branch of the three-valued template, entered when the left
      operand (held in `argN`) is not `true`: `rhs ? true : argN`, or
      `rhs is not { } argM ? null : argM ? true : argN`. */
  lemma OrElseWhenFalse(rhsNullable: bool, lv: Option<bool>, rv: Option<bool>, n: nat, m: nat, s1: State)
    requires !rhsNullable ==> rv.Some?
    requires lv != Some(true)
    requires n in s1.vars && s1.vars[n] == OfBool(lv)
    requires m != n
    ensures var rhs := Operand(Rhs);
            var e := if !rhsNullable then Conditional(rhs, True, Arg(n))
                     else Conditional(IsNotObjectPattern(rhs, m), Null, Conditional(Arg(m), True, Arg(n)));
            var out := Eval(e, Env(OfBool(lv), OfBool(rv)), s1);
            && out.Done? && out.value == OfBool(Or3(lv, rv))
            && out.st.lhsEvals == s1.lhsEvals && out.st.rhsEvals == s1.rhsEvals + 1
  {
    var env := Env(OfBool(lv), OfBool(rv));
    var rhs := Operand(Rhs);
    var s2 := Count(s1, Rhs);
    if !rhsNullable {
      assert Eval(rhs, env, s1) == Done(OfBool(rv), s2);
      assert Eval(Arg(n), env, s2) == Done(OfBool(lv), s2);
    } else if rv.Some? {
      var s3 := Bind(s2, m, OfBool(rv));
      assert s3.vars[n] == OfBool(lv);
      assert Eval(IsNotObjectPattern(rhs, m), env, s1) == Done(BoolV(false), s3);
      assert Eval(Arg(m), env, s3) == Done(OfBool(rv), s3);
      assert Eval(Arg(n), env, s3) == Done(OfBool(lv), s3);
      var inner := Conditional(Arg(m), True, Arg(n));
      var e := Conditional(IsNotObjectPattern(rhs, m), Null, inner);
      assert Eval(e, env, s1) == Eval(inner, env, s3);
      if rv == Some(true) {
        assert Eval(inner, env, s3) == Eval(True, env, s3);
      } else {
        assert Eval(inner, env, s3) == Eval(Arg(n), env, s3);
      }
    } else {
      assert Eval(IsNotObjectPattern(rhs, m), env, s1) == Done(BoolV(true), s2);
    }
  }

  /** `lhs is var argN && argN == true ? true : whenFalse` */
  lemma OrElseFull(rhsNullable: bool, lv: Option<bool>, rv: Option<bool>, counter: nat, st: State)
    requires !rhsNullable ==> rv.Some?
    ensures var r := ForOrElseOperator(Facts(false, true, rhsNullable, false, false, false), Operand(Lhs), Operand(Rhs), counter);
            var out := Eval(r.expr, Env(OfBool(lv), OfBool(rv)), st);
            && out.Done? && out.value == OfBool(Or3(lv, rv))
            && out.st.lhsEvals == st.lhsEvals + 1 && out.st.rhsEvals == st.rhsEvals + OrElseRhsEvals(lv)
  {
    var env := Env(OfBool(lv), OfBool(rv));
    var lhs := Operand(Lhs);
    var rhs := Operand(Rhs);
    var n := counter + 1;
    var m := counter + 2;
    var whenFalse := if !rhsNullable then Conditional(rhs, True, Arg(n))
                     else Conditional(IsNotObjectPattern(rhs, m), Null, Conditional(Arg(m), True, Arg(n)));
    var test := And(IsVarPattern(lhs, n), EqualsTrue(Arg(n)));
    assert ForOrElseOperator(Facts(false, true, rhsNullable, false, false, false), lhs, rhs, counter).expr
        == Conditional(test, True, whenFalse);
    var s1 := Bind(Count(st, Lhs), n, OfBool(lv));
    assert Eval(IsVarPattern(lhs, n), env, st) == Done(BoolV(true), s1);
    assert Eval(EqualsTrue(Arg(n)), env, s1) == Done(BoolV(lv == Some(true)), s1);
    assert Eval(test, env, st) == Done(BoolV(lv == Some(true)), s1);
    if lv == Some(true) {
      assert Eval(Conditional(test, True, whenFalse), env, st) == Eval(True, env, s1);
    } else {
      assert Eval(Conditional(test, True, whenFalse), env, st) == Eval(whenFalse, env, s1);
      OrElseWhenFalse(rhsNullable, lv, rv, n, m, s1);
    }
  }

  /** `ForOrElseOperator` is Visual Basic's `OrElse`: the three-valued result,
      or in a collapsing position whether it is `True`; the left operand is
      evaluated exactly once and the right one exactly as often as Visual
      Basic evaluates it, whatever their purity. */
  lemma OrElseLoweringCorrect(f: Facts, lv: Option<bool>, rv: Option<bool>, counter: nat, st: State)
    requires Agrees(f, lv, rv)
    ensures var r := ForOrElseOperator(f, Operand(Lhs), Operand(Rhs), counter);
            var out := Eval(r.expr, Env(OfBool(lv), OfBool(rv)), st);
            && out.Done?
            && out.value == (if f.collapse then BoolV(Or3(lv, rv) == Some(true)) else OfBool(Or3(lv, rv)))
            && out.st.lhsEvals == st.lhsEvals + 1
            && out.st.rhsEvals == st.rhsEvals + OrElseRhsEvals(lv)
  {
    if f.collapse {
      OrElseCollapsed(f.lhsNullable, f.rhsNullable, lv, rv, st);
    } else if !f.lhsNullable {
      OrElseConditional(lv, rv, st);
    } else {
      OrElseFull(f.rhsNullable, lv, rv, counter, st);
      assert ForOrElseOperator(f, Operand(Lhs), Operand(Rhs), counter)
          == ForOrElseOperator(Facts(false, true, f.rhsNullable, false, false, false), Operand(Lhs), Operand(Rhs), counter);
    }
  }

  // --------------------------------------------------- relational operators

  /** The C# operator the caller converted a Visual Basic comparison to. */
  function CsRelational(op: VbSyntax.VbBinOp): CsBinOp
    requires IsRelational(op)
  {
    match op
    case EqualsOp => CsBinOp.EqualsOp
    case NotEqualsOp => CsBinOp.NotEqualsOp
    case LessThanOp => CsBinOp.LessThanOp
    case LessThanOrEqualOp => CsBinOp.LessThanOrEqualOp
    case GreaterThanOp => CsBinOp.GreaterThanOp
    case _ => CsBinOp.GreaterThanOrEqualOp
  }

  /** The lowering of `lhs op rhs`, handed the C# node `lhs op rhs`. */
  function LowerComparison(f: Facts, op: VbSyntax.VbBinOp, counter: nat): Lowering
    requires IsRelational(op) && (f.lhsNullable || f.rhsNullable)
  {
    ForRelationalOperators(f, op, BinaryExpr(CsRelational(op), Operand(Lhs), Operand(Rhs)), Operand(Lhs), Operand(Rhs), counter)
  }

  /** Visual Basic's comparison, or whether it is `True` in a collapsing position. */
  function ExpectedComparison(collapse: bool, op: VbSyntax.VbBinOp, lv: Option<int>, rv: Option<int>): CsValue
    requires IsRelational(op)
  {
    if collapse then BoolV(Compare3(op, lv, rv) == Some(true)) else OfBool(Compare3(op, lv, rv))
  }

  /** Whether the relational lowering keeps the C# node as it is. */
  predicate KeepsNode(f: Facts, op: VbSyntax.VbBinOp) {
    f.collapse
    && ((op == VbSyntax.EqualsOp && (!f.lhsNullable || !f.rhsNullable))
        || op == VbSyntax.GreaterThanOp || op == VbSyntax.GreaterThanOrEqualOp
        || op == VbSyntax.LessThanOp || op == VbSyntax.LessThanOrEqualOp)
  }

  /** C#'s comparison of two non-null integers is Visual Basic's. */
  lemma ComparisonOfValues(op: VbSyntax.VbBinOp, x: int, y: int)
    requires IsRelational(op)
    ensures Lifted(CsRelational(op), IntV(x), IntV(y)) == Some(OfBool(Compare3(op, Some(x), Some(y))))
  {
  }

  /** Where the node is kept, C#'s lifted comparison is already the collapsed
      Visual Basic result: an ordering with a null is `false`, and so is `==`
      between a null and a value. */
  lemma KeptNodeCorrect(f: Facts, op: VbSyntax.VbBinOp, lv: Option<int>, rv: Option<int>, st: State)
    requires IsRelational(op) && KeepsNode(f, op)
    requires Agrees(f, lv, rv)
    ensures var out := Eval(BinaryExpr(CsRelational(op), Operand(Lhs), Operand(Rhs)), Env(OfInt(lv), OfInt(rv)), st);
            && out.Done? && out.value == ExpectedComparison(true, op, lv, rv)
            && out.st.lhsEvals == st.lhsEvals + 1 && out.st.rhsEvals == st.rhsEvals + 1
  {
    var env := Env(OfInt(lv), OfInt(rv));
    var s1 := Count(st, Lhs);
    assert Eval(Operand(Lhs), env, st) == Done(OfInt(lv), s1);
    assert Eval(Operand(Rhs), env, s1) == Done(OfInt(rv), Count(s1, Rhs));
    if lv.Some? && rv.Some? {
      ComparisonOfValues(op, lv.value, rv.value);
    }
  }

  /** The guarded comparison `guard ? l op r : null`, or `guard && l op r` in
      a collapsing position: when the guard fails one operand is null; when
      it passes the names read the operands' values and at most one of them
      is null, which only the collapsing `==` allows, where it compares false. */
  lemma GuardedComparison(collapse: bool, op: VbSyntax.VbBinOp, g: CsExpr, ln: CsExpr, rn: CsExpr,
                          lv: Option<int>, rv: Option<int>, st: State)
    requires IsRelational(op)
    requires var env := Env(OfInt(lv), OfInt(rv));
             Eval(g, env, st).Done? && Eval(g, env, st).value.BoolV?
    requires var env := Env(OfInt(lv), OfInt(rv));
             var ok := Eval(g, env, st).value.b;
             var s1 := Eval(g, env, st).st;
             && (!ok ==> lv.None? || rv.None?)
             && (ok ==> Eval(ln, env, s1).Done? && Eval(ln, env, s1).value == OfInt(lv)
                        && Eval(rn, env, Eval(ln, env, s1).st).Done?
                        && Eval(rn, env, Eval(ln, env, s1).st).value == OfInt(rv))
             && (ok && (lv.None? || rv.None?) ==> collapse && op == VbSyntax.EqualsOp && (lv.Some? || rv.Some?))
    ensures var env := Env(OfInt(lv), OfInt(rv));
            var bin := Bin(ln, rn, CsRelational(op));
            var e := if collapse then And(g, bin) else Conditional(g, bin, Null);
            var ok := Eval(g, env, st).value.b;
            var s1 := Eval(g, env, st).st;
            var out := Eval(e, env, st);
            && out.Done? && out.value == ExpectedComparison(collapse, op, lv, rv)
            && out.st == (if ok then Eval(rn, env, Eval(ln, env, s1).st).st else s1)
  {
    var env := Env(OfInt(lv), OfInt(rv));
    if Eval(g, env, st).value.b {
      NamesCompared(op, ln, rn, lv, rv, env, Eval(g, env, st).st);
      GuardPassed(collapse, op, g, ln, rn, env, st);
    } else {
      GuardFailed(collapse, op, g, ln, rn, env, st);
    }
  }

  /** A guard that passes leaves the comparison of the names, evaluated after it. */
  lemma {:induction false} GuardPassed(collapse: bool, op: VbSyntax.VbBinOp, g: CsExpr, ln: CsExpr, rn: CsExpr,
                                       env: Env, st: State)
    requires IsRelational(op)
    requires Eval(g, env, st).Done? && Eval(g, env, st).value == BoolV(true)
    requires var out := Eval(Bin(ln, rn, CsRelational(op)), env, Eval(g, env, st).st);
             out.Done? && out.value.BoolV?
    ensures Eval(Guarded(collapse, op, g, ln, rn), env, st) == Eval(Bin(ln, rn, CsRelational(op)), env, Eval(g, env, st).st)
  {
    var bin := Bin(ln, rn, CsRelational(op));
    if collapse {
      AndThenMeaning(g, bin, env, st);
    } else {
      ConditionalMeaning(g, bin, Null, env, st);
    }
  }

  /** A guard that fails gives false in a collapsing position and null elsewhere,
      without evaluating the names. */
  lemma {:induction false} GuardFailed(collapse: bool, op: VbSyntax.VbBinOp, g: CsExpr, ln: CsExpr, rn: CsExpr,
                                       env: Env, st: State)
    requires IsRelational(op)
    requires Eval(g, env, st).Done? && Eval(g, env, st).value == BoolV(false)
    ensures Eval(Guarded(collapse, op, g, ln, rn), env, st) == Done(if collapse then BoolV(false) else NullV, Eval(g, env, st).st)
  {
    var bin := Bin(ln, rn, CsRelational(op));
    if collapse {
      AndMeaning(g, bin, env, st);
    } else {
      ConditionalMeaning(g, bin, Null, env, st);
    }
  }

  /** The comparison of the two names once the guard has passed: Visual
      Basic's comparison of two values, or false for the one null a
      collapsing `=` lets through. */
  lemma NamesCompared(op: VbSyntax.VbBinOp, ln: CsExpr, rn: CsExpr, lv: Option<int>, rv: Option<int>, env: Env, s1: State)
    requires IsRelational(op)
    requires Eval(ln, env, s1).Done? && Eval(ln, env, s1).value == OfInt(lv)
    requires Eval(rn, env, Eval(ln, env, s1).st).Done? && Eval(rn, env, Eval(ln, env, s1).st).value == OfInt(rv)
    requires lv.None? || rv.None? ==> op == VbSyntax.EqualsOp && (lv.Some? || rv.Some?)
    ensures Eval(Bin(ln, rn, CsRelational(op)), env, s1)
            == Done(if lv.Some? && rv.Some? then OfBool(Compare3(op, lv, rv)) else BoolV(false),
                    Eval(rn, env, Eval(ln, env, s1).st).st)
  {
    if lv.Some? && rv.Some? {
      ComparisonOfValues(op, lv.value, rv.value);
    }
  }

  /** Whether a collapsing `=` of two nullable operands drops the last check. */
  predicate DropsLastCheck(f: Facts, op: VbSyntax.VbBinOp) {
    f.collapse && op == VbSyntax.EqualsOp && f.lhsNullable && f.rhsNullable
  }

  /** The expression a guard and two names give: `guard ? l op r : null`,
      or `guard && l op r` in a collapsing position. */
  function Guarded(collapse: bool, op: VbSyntax.VbBinOp, g: CsExpr, ln: CsExpr, rn: CsExpr): CsExpr
    requires IsRelational(op)
  {
    var bin := Bin(ln, rn, CsRelational(op));
    if collapse then And(g, bin) else Conditional(g, bin, Null)
  }

  /** Outside the kept cases the lowering is the guarded comparison of the
      names the checks leave, under the sorted checks minus the dropped one. */
  lemma GuardedForm(f: Facts, op: VbSyntax.VbBinOp, counter: nat)
    requires IsRelational(op) && (f.lhsNullable || f.rhsNullable) && !KeepsNode(f, op)
    ensures var checks := BuildConditions(f, Operand(Lhs), Operand(Rhs), counter);
            var sorted := ListSort(checks.conditions);
            var kept := if DropsLastCheck(f, op) then sorted[..|sorted| - 1] else sorted;
            |kept| >= 1
            && LowerComparison(f, op, counter).expr == Guarded(f.collapse, op, FoldAnd(kept), checks.lhsName, checks.rhsName)
  {
  }

  /** Both operands safely reusable: the guard is `lhs.HasValue && rhs.HasValue`,
      without the checks of operands that cannot be null and without the last
      check where it is dropped. */
  lemma RelationalReusableShape(f: Facts, op: VbSyntax.VbBinOp, counter: nat)
    requires IsRelational(op) && (f.lhsNullable || f.rhsNullable) && !KeepsNode(f, op)
    requires f.lhsReusable && f.rhsReusable
    ensures var lhs, rhs := Operand(Lhs), Operand(Rhs);
            LowerComparison(f, op, counter).expr
            == Guarded(f.collapse, op, ReusableGuard(f.lhsNullable, f.rhsNullable, DropsLastCheck(f, op)), lhs, rhs)
  {
    var lhs, rhs := Operand(Lhs), Operand(Rhs);
    var lhv := Condition(true, HasValue(lhs));
    var rhv := Condition(true, HasValue(rhs));
    ReusableChecks(f, counter);
    GuardedForm(f, op, counter);
    var conds := (if f.lhsNullable then [lhv] else []) + (if f.rhsNullable then [rhv] else []);
    if f.lhsNullable && f.rhsNullable {
      assert conds == [lhv, rhv];
      OrderedPairKept(lhv, rhv, DropsLastCheck(f, op));
    } else if f.lhsNullable {
      assert conds == [lhv];
      SingleKept(lhv);
    } else {
      assert conds == [rhv];
      SingleKept(rhv);
    }
  }

  /** The checks built when both operands are safely reusable. */
  lemma ReusableChecks(f: Facts, counter: nat)
    requires (f.lhsNullable || f.rhsNullable) && f.lhsReusable && f.rhsReusable
    ensures BuildConditions(f, Operand(Lhs), Operand(Rhs), counter)
            == Checks((if f.lhsNullable then [Condition(true, HasValue(Operand(Lhs)))] else [])
                      + (if f.rhsNullable then [Condition(true, HasValue(Operand(Rhs)))] else []),
                      Operand(Lhs), Operand(Rhs), counter)
  {
  }

  /** A single check is kept as it is. */
  lemma SingleKept(c: Condition)
    ensures ListSort([c]) == [c] && FoldAnd([c]) == c.expr
  {
  }

  /** Two checks already in order stay in order; the second goes when dropped. */
  lemma OrderedPairKept(a: Condition, b: Condition, drop: bool)
    requires Key(a) <= Key(b)
    ensures var sorted := ListSort([a, b]);
            var kept := if drop then sorted[..|sorted| - 1] else sorted;
            |kept| >= 1 && FoldAnd(kept) == (if drop then a.expr else And(a.expr, b.expr))
  {
    assert ListSort([a, b]) == [a, b];
    assert [a, b][..1] == [a];
  }

  /** Two checks out of order are exchanged; the optional one goes when dropped. */
  lemma SwappedPairKept(a: Condition, b: Condition, drop: bool)
    requires Key(a) > Key(b)
    ensures var sorted := ListSort([a, b]);
            var kept := if drop then sorted[..|sorted| - 1] else sorted;
            |kept| >= 1 && FoldAnd(kept) == (if drop then b.expr else And(b.expr, a.expr))
  {
    assert SwapIfGreater([a, b], 0, 1) == [b, a];
    assert ListSort([a, b]) == [b, a];
    assert [b, a][..1] == [b];
  }

  /** The guard of two safely reusable operands. */
  function ReusableGuard(lhsNullable: bool, rhsNullable: bool, drop: bool): CsExpr {
    if lhsNullable && rhsNullable && !drop then And(HasValue(Operand(Lhs)), HasValue(Operand(Rhs)))
    else if lhsNullable then HasValue(Operand(Lhs)) else HasValue(Operand(Rhs))
  }

  /** Evaluating the guarded comparison of two safely reusable operands. */
  lemma ReusableGuardCorrect(collapse: bool, op: VbSyntax.VbBinOp, lhsNullable: bool, rhsNullable: bool, drop: bool,
                             lv: Option<int>, rv: Option<int>, st: State)
    requires IsRelational(op) && (lhsNullable || rhsNullable)
    requires (!lhsNullable ==> lv.Some?) && (!rhsNullable ==> rv.Some?)
    requires drop ==> collapse && op == VbSyntax.EqualsOp && lhsNullable && rhsNullable
    ensures var e := Guarded(collapse, op, ReusableGuard(lhsNullable, rhsNullable, drop), Operand(Lhs), Operand(Rhs));
            var out := Eval(e, Env(OfInt(lv), OfInt(rv)), st);
            out.Done? && out.value == ExpectedComparison(collapse, op, lv, rv)
  {
    var env := Env(OfInt(lv), OfInt(rv));
    var lhs, rhs := Operand(Lhs), Operand(Rhs);
    var g := ReusableGuard(lhsNullable, rhsNullable, drop);
    var s1 := Count(st, Lhs);
    assert Eval(HasValue(lhs), env, st) == Done(BoolV(lv.Some?), s1);
    if lhsNullable && rhsNullable && !drop {
      var s2 := Count(s1, Rhs);
      assert Eval(HasValue(rhs), env, s1) == Done(BoolV(rv.Some?), s2);
      assert Eval(g, env, st) == Done(BoolV(lv.Some? && rv.Some?), if lv.Some? then s2 else s1);
    } else if !lhsNullable {
      assert Eval(g, env, st) == Done(BoolV(rv.Some?), Count(st, Rhs));
    }
    GuardedComparison(collapse, op, g, lhs, rhs, lv, rv, st);
  }

  /** Both operands safely reusable. */
  lemma RelationalReusable(f: Facts, op: VbSyntax.VbBinOp, lv: Option<int>, rv: Option<int>, counter: nat, st: State)
    requires IsRelational(op) && (f.lhsNullable || f.rhsNullable) && !KeepsNode(f, op)
    requires Agrees(f, lv, rv)
    requires f.lhsReusable && f.rhsReusable
    ensures var out := Eval(LowerComparison(f, op, counter).expr, Env(OfInt(lv), OfInt(rv)), st);
            out.Done? && out.value == ExpectedComparison(f.collapse, op, lv, rv)
  {
    RelationalReusableShape(f, op, counter);
    ReusableGuardCorrect(f.collapse, op, f.lhsNullable, f.rhsNullable, DropsLastCheck(f, op), lv, rv, st);
  }

  /** The guard when only the left operand is safely reusable:
      `rhs is { } argN && lhs.HasValue`, the right operand's check sorted first. */
  function RhsCapturedGuard(lhsNullable: bool, drop: bool, n: nat): CsExpr {
    if lhsNullable && !drop then And(IsObjectPattern(Operand(Rhs), n), HasValue(Operand(Lhs)))
    else IsObjectPattern(Operand(Rhs), n)
  }

  lemma RhsCapturedShape(f: Facts, op: VbSyntax.VbBinOp, counter: nat)
    requires IsRelational(op) && (f.lhsNullable || f.rhsNullable) && !KeepsNode(f, op)
    requires f.lhsReusable && !f.rhsReusable
    ensures LowerComparison(f, op, counter).expr
            == Guarded(f.collapse, op, RhsCapturedGuard(f.lhsNullable, DropsLastCheck(f, op), counter + 1),
                       Operand(Lhs), Arg(counter + 1))
  {
    var lhs, rhs := Operand(Lhs), Operand(Rhs);
    var lhv := Condition(true, HasValue(lhs));
    var pat := Condition(false, IsObjectPattern(rhs, counter + 1));
    RhsCapturedChecks(f, counter);
    GuardedForm(f, op, counter);
    var conds := (if f.lhsNullable then [lhv] else []) + [pat];
    if f.lhsNullable {
      assert conds == [lhv, pat];
      SwappedPairKept(lhv, pat, DropsLastCheck(f, op));
    } else {
      assert conds == [pat];
      SingleKept(pat);
    }
  }

  /** The checks built when only the left operand is safely reusable. */
  lemma RhsCapturedChecks(f: Facts, counter: nat)
    requires (f.lhsNullable || f.rhsNullable) && f.lhsReusable && !f.rhsReusable
    ensures BuildConditions(f, Operand(Lhs), Operand(Rhs), counter)
            == Checks((if f.lhsNullable then [Condition(true, HasValue(Operand(Lhs)))] else [])
                      + [Condition(false, IsObjectPattern(Operand(Rhs), counter + 1))],
                      Operand(Lhs), Arg(counter + 1), counter + 1)
  {
  }

  lemma RhsCapturedGuardCorrect(collapse: bool, op: VbSyntax.VbBinOp, lhsNullable: bool, drop: bool, n: nat,
                                lv: Option<int>, rv: Option<int>, st: State)
    requires IsRelational(op)
    requires !lhsNullable ==> lv.Some?
    requires drop ==> collapse && op == VbSyntax.EqualsOp && lhsNullable
    ensures var e := Guarded(collapse, op, RhsCapturedGuard(lhsNullable, drop, n), Operand(Lhs), Arg(n));
            var out := Eval(e, Env(OfInt(lv), OfInt(rv)), st);
            && out.Done? && out.value == ExpectedComparison(collapse, op, lv, rv)
            && out.st.rhsEvals == st.rhsEvals + 1
  {
    var env := Env(OfInt(lv), OfInt(rv));
    var lhs, rhs := Operand(Lhs), Operand(Rhs);
    var g := RhsCapturedGuard(lhsNullable, drop, n);
    var s1 := Count(st, Rhs);
    var s1b := if rv.Some? then Bind(s1, n, OfInt(rv)) else s1;
    assert Eval(IsObjectPattern(rhs, n), env, st) == Done(BoolV(rv.Some?), s1b);
    var sg := s1b;
    if lhsNullable && !drop && rv.Some? {
      sg := Count(s1b, Lhs);
      assert Eval(HasValue(lhs), env, s1b) == Done(BoolV(lv.Some?), sg);
      assert Eval(g, env, st) == Done(BoolV(lv.Some?), sg);
    }
    assert Eval(g, env, st) == Done(BoolV(rv.Some? && (lhsNullable && !drop ==> lv.Some?)), sg);
    if rv.Some? {
      assert n in sg.vars && sg.vars[n] == OfInt(rv);
      assert Eval(lhs, env, sg) == Done(OfInt(lv), Count(sg, Lhs));
      assert Eval(Arg(n), env, Count(sg, Lhs)) == Done(OfInt(rv), Count(sg, Lhs));
    }
    GuardedComparison(collapse, op, g, lhs, Arg(n), lv, rv, st);
  }

  /** Only the left operand safely reusable: the right one is evaluated once. */
  lemma RelationalRhsCaptured(f: Facts, op: VbSyntax.VbBinOp, lv: Option<int>, rv: Option<int>, counter: nat, st: State)
    requires IsRelational(op) && (f.lhsNullable || f.rhsNullable) && !KeepsNode(f, op)
    requires Agrees(f, lv, rv)
    requires f.lhsReusable && !f.rhsReusable
    ensures var out := Eval(LowerComparison(f, op, counter).expr, Env(OfInt(lv), OfInt(rv)), st);
            && out.Done? && out.value == ExpectedComparison(f.collapse, op, lv, rv)
            && out.st.rhsEvals == st.rhsEvals + 1
  {
    RhsCapturedShape(f, op, counter);
    RhsCapturedGuardCorrect(f.collapse, op, f.lhsNullable, DropsLastCheck(f, op), counter + 1, lv, rv, st);
  }

  /** The guard when only the right operand is safely reusable:
      `lhs is { } argN && rhs.HasValue`. */
  function LhsCapturedGuard(rhsNullable: bool, drop: bool, n: nat): CsExpr {
    if rhsNullable && !drop then And(IsObjectPattern(Operand(Lhs), n), HasValue(Operand(Rhs)))
    else IsObjectPattern(Operand(Lhs), n)
  }

  lemma LhsCapturedShape(f: Facts, op: VbSyntax.VbBinOp, counter: nat)
    requires IsRelational(op) && (f.lhsNullable || f.rhsNullable) && !KeepsNode(f, op)
    requires !f.lhsReusable && f.rhsReusable
    ensures LowerComparison(f, op, counter).expr
            == Guarded(f.collapse, op, LhsCapturedGuard(f.rhsNullable, DropsLastCheck(f, op), counter + 1),
                       Arg(counter + 1), Operand(Rhs))
  {
    var lhs, rhs := Operand(Lhs), Operand(Rhs);
    var pat := Condition(false, IsObjectPattern(lhs, counter + 1));
    var rhv := Condition(true, HasValue(rhs));
    LhsCapturedChecks(f, counter);
    GuardedForm(f, op, counter);
    var conds := [pat] + (if f.rhsNullable then [rhv] else []);
    if f.rhsNullable {
      assert conds == [pat, rhv];
      OrderedPairKept(pat, rhv, DropsLastCheck(f, op));
    } else {
      assert conds == [pat];
      SingleKept(pat);
    }
  }

  /** The checks built when only the right operand is safely reusable. */
  lemma LhsCapturedChecks(f: Facts, counter: nat)
    requires (f.lhsNullable || f.rhsNullable) && !f.lhsReusable && f.rhsReusable
    ensures BuildConditions(f, Operand(Lhs), Operand(Rhs), counter)
            == Checks([Condition(false, IsObjectPattern(Operand(Lhs), counter + 1))]
                      + (if f.rhsNullable then [Condition(true, HasValue(Operand(Rhs)))] else []),
                      Arg(counter + 1), Operand(Rhs), counter + 1)
  {
  }

  lemma LhsCapturedGuardCorrect(collapse: bool, op: VbSyntax.VbBinOp, rhsNullable: bool, drop: bool, n: nat,
                                lv: Option<int>, rv: Option<int>, st: State)
    requires IsRelational(op)
    requires !rhsNullable ==> rv.Some?
    requires drop ==> collapse && op == VbSyntax.EqualsOp && rhsNullable
    ensures var e := Guarded(collapse, op, LhsCapturedGuard(rhsNullable, drop, n), Arg(n), Operand(Rhs));
            var out := Eval(e, Env(OfInt(lv), OfInt(rv)), st);
            && out.Done? && out.value == ExpectedComparison(collapse, op, lv, rv)
            && out.st.lhsEvals == st.lhsEvals + 1
  {
    var env := Env(OfInt(lv), OfInt(rv));
    var lhs, rhs := Operand(Lhs), Operand(Rhs);
    var g := LhsCapturedGuard(rhsNullable, drop, n);
    var s1 := Count(st, Lhs);
    var s1b := if lv.Some? then Bind(s1, n, OfInt(lv)) else s1;
    assert Eval(IsObjectPattern(lhs, n), env, st) == Done(BoolV(lv.Some?), s1b);
    var sg := s1b;
    if rhsNullable && !drop && lv.Some? {
      sg := Count(s1b, Rhs);
      assert Eval(HasValue(rhs), env, s1b) == Done(BoolV(rv.Some?), sg);
      assert Eval(g, env, st) == Done(BoolV(rv.Some?), sg);
    }
    assert Eval(g, env, st) == Done(BoolV(lv.Some? && (rhsNullable && !drop ==> rv.Some?)), sg);
    if lv.Some? {
      assert n in sg.vars && sg.vars[n] == OfInt(lv);
      assert Eval(Arg(n), env, sg) == Done(OfInt(lv), sg);
      assert Eval(rhs, env, sg) == Done(OfInt(rv), Count(sg, Rhs));
    }
    GuardedComparison(collapse, op, g, Arg(n), rhs, lv, rv, st);
  }

  /** Only the right operand safely reusable: the left one is evaluated once. */
  lemma RelationalLhsCaptured(f: Facts, op: VbSyntax.VbBinOp, lv: Option<int>, rv: Option<int>, counter: nat, st: State)
    requires IsRelational(op) && (f.lhsNullable || f.rhsNullable) && !KeepsNode(f, op)
    requires Agrees(f, lv, rv)
    requires !f.lhsReusable && f.rhsReusable
    ensures var out := Eval(LowerComparison(f, op, counter).expr, Env(OfInt(lv), OfInt(rv)), st);
            && out.Done? && out.value == ExpectedComparison(f.collapse, op, lv, rv)
            && out.st.lhsEvals == st.lhsEvals + 1
  {
    LhsCapturedShape(f, op, counter);
    LhsCapturedGuardCorrect(f.collapse, op, f.rhsNullable, DropsLastCheck(f, op), counter + 1, lv, rv, st);
  }

  /** The guard when neither operand is safely reusable: the right operand is
      saved first, `rhs is var argN && lhs is { } argM && argN.HasValue`. */
  function CapturedGuard(rhsNullable: bool, drop: bool, n: nat, m: nat): CsExpr {
    var saved := And(IsVarPattern(Operand(Rhs), n), IsObjectPattern(Operand(Lhs), m));
    if rhsNullable && !drop then And(saved, HasValue(Arg(n))) else saved
  }

  /** The checks built when neither operand is safely reusable. */
  lemma CapturedChecks(f: Facts, counter: nat)
    requires (f.lhsNullable || f.rhsNullable) && !f.lhsReusable && !f.rhsReusable
    ensures BuildConditions(f, Operand(Lhs), Operand(Rhs), counter)
            == Checks([Condition(false, IsVarPattern(Operand(Rhs), counter + 1)),
                       Condition(false, IsObjectPattern(Operand(Lhs), counter + 2))]
                      + (if f.rhsNullable then [Condition(true, HasValue(Arg(counter + 1)))] else []),
                      Arg(counter + 2), Arg(counter + 1), counter + 2)
  {
  }

  /** Sorting keeps the two captures ahead of the optional check, and the
      fold joins what is kept leftmost first. */
  lemma CapturedKept(save: Condition, pat: Condition, rhv: Condition, rhsNullable: bool, drop: bool)
    requires !save.executionOptional && !pat.executionOptional && rhv.executionOptional
    requires drop ==> rhsNullable
    ensures var conds := [save, pat] + (if rhsNullable then [rhv] else []);
            var sorted := ListSort(conds);
            var kept := if drop then sorted[..|sorted| - 1] else sorted;
            |kept| >= 1
            && FoldAnd(kept) == (if rhsNullable && !drop then And(And(save.expr, pat.expr), rhv.expr)
                                 else And(save.expr, pat.expr))
  {
    var conds := [save, pat] + (if rhsNullable then [rhv] else []);
    if rhsNullable {
      assert conds == [save, pat, rhv];
      assert SwapIfGreater(conds, 0, 1) == conds;
      assert SwapIfGreater(conds, 0, 2) == conds;
      assert SwapIfGreater(conds, 1, 2) == conds;
      assert ListSort(conds) == conds;
      if drop {
        assert conds[..2] == [save, pat];
      } else {
        assert conds[..2] == [save, pat];
        assert FoldAnd(conds[..2]) == And(save.expr, pat.expr);
      }
    } else {
      assert conds == [save, pat];
      assert ListSort(conds) == conds;
    }
  }

  lemma CapturedShape(f: Facts, op: VbSyntax.VbBinOp, counter: nat)
    requires IsRelational(op) && (f.lhsNullable || f.rhsNullable) && !KeepsNode(f, op)
    requires !f.lhsReusable && !f.rhsReusable
    ensures LowerComparison(f, op, counter).expr
            == Guarded(f.collapse, op, CapturedGuard(f.rhsNullable, DropsLastCheck(f, op), counter + 1, counter + 2),
                       Arg(counter + 2), Arg(counter + 1))
  {
    var lhs, rhs := Operand(Lhs), Operand(Rhs);
    var save := Condition(false, IsVarPattern(rhs, counter + 1));
    var pat := Condition(false, IsObjectPattern(lhs, counter + 2));
    var rhv := Condition(true, HasValue(Arg(counter + 1)));
    CapturedChecks(f, counter);
    GuardedForm(f, op, counter);
    CapturedKept(save, pat, rhv, f.rhsNullable, DropsLastCheck(f, op));
  }

  lemma CapturedGuardCorrect(collapse: bool, op: VbSyntax.VbBinOp, rhsNullable: bool, drop: bool, counter: nat,
                             lv: Option<int>, rv: Option<int>, st: State)
    requires IsRelational(op)
    requires !rhsNullable ==> rv.Some?
    requires drop ==> collapse && op == VbSyntax.EqualsOp && rhsNullable
    ensures var n, m := counter + 1, counter + 2;
            var e := Guarded(collapse, op, CapturedGuard(rhsNullable, drop, n, m), Arg(m), Arg(n));
            var out := Eval(e, Env(OfInt(lv), OfInt(rv)), st);
            && out.Done? && out.value == ExpectedComparison(collapse, op, lv, rv)
            && out.st.lhsEvals == st.lhsEvals + 1 && out.st.rhsEvals == st.rhsEvals + 1
  {
    var env := Env(OfInt(lv), OfInt(rv));
    var lhs, rhs := Operand(Lhs), Operand(Rhs);
    var n, m := counter + 1, counter + 2;
    var g := CapturedGuard(rhsNullable, drop, n, m);
    var s1 := Bind(Count(st, Rhs), n, OfInt(rv));
    assert Eval(IsVarPattern(rhs, n), env, st) == Done(BoolV(true), s1);
    var s2 := Count(s1, Lhs);
    var s2b := if lv.Some? then Bind(s2, m, OfInt(lv)) else s2;
    assert Eval(IsObjectPattern(lhs, m), env, s1) == Done(BoolV(lv.Some?), s2b);
    var saved := And(IsVarPattern(rhs, n), IsObjectPattern(lhs, m));
    assert Eval(saved, env, st) == Done(BoolV(lv.Some?), s2b);
    assert n in s2b.vars && s2b.vars[n] == OfInt(rv);
    if rhsNullable && !drop && lv.Some? {
      assert Eval(HasValue(Arg(n)), env, s2b) == Done(BoolV(rv.Some?), s2b);
    }
    assert Eval(g, env, st) == Done(BoolV(lv.Some? && (rhsNullable && !drop ==> rv.Some?)), s2b);
    if lv.Some? {
      assert Eval(Arg(m), env, s2b) == Done(OfInt(lv), s2b);
      assert Eval(Arg(n), env, s2b) == Done(OfInt(rv), s2b);
    }
    GuardedComparison(collapse, op, g, Arg(m), Arg(n), lv, rv, st);
  }

  /** Neither operand safely reusable: each is evaluated once. */
  lemma RelationalCaptured(f: Facts, op: VbSyntax.VbBinOp, lv: Option<int>, rv: Option<int>, counter: nat, st: State)
    requires IsRelational(op) && (f.lhsNullable || f.rhsNullable) && !KeepsNode(f, op)
    requires Agrees(f, lv, rv)
    requires !f.lhsReusable && !f.rhsReusable
    ensures var out := Eval(LowerComparison(f, op, counter).expr, Env(OfInt(lv), OfInt(rv)), st);
            && out.Done? && out.value == ExpectedComparison(f.collapse, op, lv, rv)
            && out.st.lhsEvals == st.lhsEvals + 1 && out.st.rhsEvals == st.rhsEvals + 1
  {
    CapturedShape(f, op, counter);
    CapturedGuardCorrect(f.collapse, op, f.rhsNullable, DropsLastCheck(f, op), counter, lv, rv, st);
  }

  /** `ForRelationalOperators` is Visual Basic's lifted comparison: the
      three-valued result, or in a collapsing position whether it is `True`;
      an operand that is not safely reusable is evaluated exactly once, as in
      Visual Basic. */
  lemma RelationalLoweringCorrect(f: Facts, op: VbSyntax.VbBinOp, lv: Option<int>, rv: Option<int>, counter: nat, st: State)
    requires IsRelational(op) && (f.lhsNullable || f.rhsNullable)
    requires Agrees(f, lv, rv)
    ensures var out := Eval(LowerComparison(f, op, counter).expr, Env(OfInt(lv), OfInt(rv)), st);
            && out.Done? && out.value == ExpectedComparison(f.collapse, op, lv, rv)
            && (!f.lhsReusable ==> out.st.lhsEvals == st.lhsEvals + 1)
            && (!f.rhsReusable ==> out.st.rhsEvals == st.rhsEvals + 1)
  {
    if KeepsNode(f, op) {
      assert LowerComparison(f, op, counter).expr == BinaryExpr(CsRelational(op), Operand(Lhs), Operand(Rhs));
      KeptNodeCorrect(f, op, lv, rv, st);
    } else if f.lhsReusable && f.rhsReusable {
      RelationalReusable(f, op, lv, rv, counter, st);
    } else if f.lhsReusable {
      RelationalRhsCaptured(f, op, lv, rv, counter, st);
    } else if f.rhsReusable {
      RelationalLhsCaptured(f, op, lv, rv, counter, st);
    } else {
      RelationalCaptured(f, op, lv, rv, counter, st);
    }
  }
}

=== FILE: lowering_end_to_end.dfy ===
/** The nullable lowering end to end: from a Visual Basic operator node, its
    ancestor path and what the semantic model says of its operands, through
    the null-flow lookup, `CanConvertToBoolean` and the dispatch of
    `WithBinaryExpressionLogicForNullableTypes`, to the value of the C# it
    builds. The theorems are stated for the corrected reading; on the input
    of the null-flow finding the reading as written is shown to differ. */
module LoweringEndToEnd {
  import opened Options
  import opened VbSyntax
  import opened CsSyntax
  import opened CsSemantics
  import opened VbSemantics
  import opened SyntaxExtensions
  import opened VbSyntaxNodeExtensions
  import opened NullableExpressionsConverter
  import opened Revisions
  import opened LoweringCorrectness
  import NullFlow
  import BooleanContext

  /** The operators the lowering handles are exactly those with a
      three-valued meaning here: `AndAlso`, `OrElse` and the six comparisons.
      `And`, `Or` and the rest pass through. */
  lemma SupportedOperators(op: VbBinOp)
    ensures IsSupported(op) <==> op == AndAlsoOp || op == OrElseOp || IsRelational(op)
  {
  }

  /** An operand of a non-nullable type, or whose C# form carries the
      not-nullable mark under some parentheses, is never nullable; an
      unmarked operand of a nullable type that is not a bare identifier
      always is, since the null-flow lookup answers only for identifiers. */
  lemma NullableOperandShapes(rev: Revision, vbOperand: VbExpr, operandCtx: seq<Frame>, cs: CsExpr, typeInfo: TypeInfo,
                              tagged: CsExpr -> bool)
    ensures !typeInfo.typeIsNullable || AnyInParens(Some(cs), tagged)
            ==> !IsNullable(rev, vbOperand, operandCtx, cs, typeInfo, tagged)
    ensures typeInfo.typeIsNullable && !AnyInParens(Some(cs), tagged) && !SkipIntoParens(vbOperand).IdentifierName?
            ==> IsNullable(rev, vbOperand, operandCtx, cs, typeInfo, tagged)
  {
  }

  /** The facts the templates read agree with each other: a reusable right
      operand is pure, a node in condition position collapses, and the
      nullability passed in is kept. */
  lemma FactsConsistent(rev: Revision, vbNode: VbExpr, ctx: seq<Frame>, lhsNullable: bool, rhsNullable: bool)
    requires vbNode.Binary?
    ensures var f := FactsOf(rev, vbNode, ctx, lhsNullable, rhsNullable);
            && (f.rhsReusable ==> f.rhsPure)
            && (AlwaysHasBooleanTypeInCSharp(ctx) ==> f.collapse)
            && f.lhsNullable == lhsNullable && f.rhsNullable == rhsNullable
  {
    if IsSafelyReusable(vbNode.right) {
      ReusableImpliesPure(vbNode.right);
    }
  }

  /** What holds of an operand whose Visual Basic value is `v` and whose C#
      form is `cs`: an operand whose type is not nullable, or whose C# form
      carries the not-nullable mark, has a value; and a null operand that is
      a variable is one of the null variables `nulls`. */
  predicate ConsistentOperand<T>(operand: VbExpr, cs: CsExpr, typeInfo: TypeInfo, tagged: CsExpr -> bool,
                                 nulls: string -> bool, v: Option<T>) {
    && (!typeInfo.typeIsNullable || AnyInParens(Some(cs), tagged) ==> v.Some?)
    && (v.None? && SkipIntoParens(operand).IdentifierName? ==> nulls(ToUpper(SkipIntoParens(operand).identifier)))
  }

  /** An operand the corrected lowering treats as not nullable has a value
      wherever evaluation reaches it. */
  lemma NotNullableHasValue<T>(operand: VbExpr, operandCtx: seq<Frame>, cs: CsExpr, typeInfo: TypeInfo, tagged: CsExpr -> bool,
                               nulls: string -> bool, atom: VbExpr -> Option<bool>, v: Option<T>)
    requires NullFlow.Reaches(operandCtx, nulls, atom)
    requires ConsistentOperand(operand, cs, typeInfo, tagged, nulls, v)
    requires !IsNullable(Corrected, operand, operandCtx, cs, typeInfo, tagged)
    ensures v.Some?
  {
    if v.None? {
      NullOperandKeepsCheck(operand, operandCtx, cs, typeInfo, tagged, nulls, atom);
    }
  }

  /** A path is reached exactly when its first frame and the rest are. */
  lemma ReachesCons(f: Frame, ctx: seq<Frame>, nulls: string -> bool, atom: VbExpr -> Option<bool>)
    ensures NullFlow.Reaches([f] + ctx, nulls, atom) <==> NullFlow.Reaches([f], nulls, atom) && NullFlow.Reaches(ctx, nulls, atom)
  {
    var p := [f] + ctx;
    assert p[0] == f;
    assert forall i :: 1 <= i < |p| ==> p[i] == ctx[i - 1];
    if NullFlow.Reaches(ctx, nulls, atom) && NullFlow.Reaches([f], nulls, atom) {
      forall i | 0 <= i < |p| && p[i].BinaryRightFrame?
        ensures (p[i].op == AndAlsoOp ==> Truth(p[i].left, nulls, atom) != Some(false))
                && (p[i].op == OrElseOp ==> Truth(p[i].left, nulls, atom) != Some(true))
      {
        if i == 0 {
          assert [f][0] == p[i];
        } else {
          assert ctx[i - 1] == p[i];
        }
      }
    }
    if NullFlow.Reaches(p, nulls, atom) {
      forall i | 0 <= i < |ctx| && ctx[i].BinaryRightFrame?
        ensures (ctx[i].op == AndAlsoOp ==> Truth(ctx[i].left, nulls, atom) != Some(false))
                && (ctx[i].op == OrElseOp ==> Truth(ctx[i].left, nulls, atom) != Some(true))
      {
        assert p[i + 1] == ctx[i];
      }
      assert [f][0] == p[0];
    }
  }

  /** The Visual Basic value of `lhs AndAlso rhs` or `lhs OrElse rhs`, or,
      where `Nothing` acts as `False`, whether it is `True`. */
  function ExpectedLogical(collapse: bool, op: VbBinOp, lv: Option<bool>, rv: Option<bool>): CsValue
    requires op == AndAlsoOp || op == OrElseOp
  {
    var v := if op == AndAlsoOp then And3(lv, rv) else Or3(lv, rv);
    if collapse then BoolV(v == Some(true)) else OfBool(v)
  }

  /** The C# `&&` or `||` an `AndAlso` or `OrElse` is first converted to. */
  function CsLogical(op: VbBinOp): CsBinOp {
    if op == AndAlsoOp then LogicalAnd else LogicalOr
  }

  /** C#'s `&&` and `||` on two values are Visual Basic's operators. */
  lemma PlainLogicalCorrect(collapse: bool, op: VbBinOp, lv: Option<bool>, rv: Option<bool>, st: State)
    requires op == AndAlsoOp || op == OrElseOp
    requires lv.Some? && rv.Some?
    ensures var out := Eval(BinaryExpr(CsLogical(op), Operand(Lhs), Operand(Rhs)), Env(OfBool(lv), OfBool(rv)), st);
            out.Done? && out.value == ExpectedLogical(collapse, op, lv, rv)
  {
  }

  /** C#'s comparison of two values is Visual Basic's. */
  lemma PlainComparisonCorrect(collapse: bool, op: VbBinOp, lv: Option<int>, rv: Option<int>, st: State)
    requires IsRelational(op)
    requires lv.Some? && rv.Some?
    ensures var out := Eval(BinaryExpr(CsRelational(op), Operand(Lhs), Operand(Rhs)), Env(OfInt(lv), OfInt(rv)), st);
            out.Done? && out.value == ExpectedComparison(collapse, op, lv, rv)
  {
    ComparisonOfValues(op, lv.value, rv.value);
  }

  /** Corrected, the lowering of `lhs AndAlso rhs` or `lhs OrElse rhs`
      computes Visual Basic's result (whether it is `True`, where `Nothing`
      acts as `False`) and never throws, for every evaluation that reaches
      the right operand: whatever the lookup, the marks and the types let it
      drop is a check the values do not need. */
  lemma LogicalLoweringEndToEnd(vbNode: VbExpr, ctx: seq<Frame>, lhsType: TypeInfo, rhsType: TypeInfo,
                                tagged: CsExpr -> bool, counter: nat, lv: Option<bool>, rv: Option<bool>,
                                nulls: string -> bool, atom: VbExpr -> Option<bool>, st: State)
    requires vbNode.Binary? && (vbNode.op == AndAlsoOp || vbNode.op == OrElseOp)
    requires lhsType.convertedTypeIsNullable && rhsType.convertedTypeIsNullable
    requires NullFlow.Reaches([BinaryRightFrame(vbNode.op, vbNode.left)] + ctx, nulls, atom)
    requires ConsistentOperand(vbNode.left, Operand(Lhs), lhsType, tagged, nulls, lv)
    requires ConsistentOperand(vbNode.right, Operand(Rhs), rhsType, tagged, nulls, rv)
    ensures var cs := BinaryExpr(CsLogical(vbNode.op), Operand(Lhs), Operand(Rhs));
            var r := WithBinaryExpressionLogicForNullableTypes(Corrected, vbNode, ctx, lhsType, rhsType, cs, Operand(Lhs), Operand(Rhs), tagged, counter);
            var out := Eval(r.expr, Env(OfBool(lv), OfBool(rv)), st);
            out.Done? && out.value == ExpectedLogical(BooleanContext.CanConvertToBoolean(Corrected, vbNode, ctx), vbNode.op, lv, rv)
  {
    OperandsHaveValues(vbNode, ctx, lhsType, rhsType, tagged, lv, rv, nulls, atom);
    var lN := IsNullable(Corrected, vbNode.left, [BinaryLeftFrame(vbNode.op, vbNode.right)] + ctx, Operand(Lhs), lhsType, tagged);
    var rN := IsNullable(Corrected, vbNode.right, [BinaryRightFrame(vbNode.op, vbNode.left)] + ctx, Operand(Rhs), rhsType, tagged);
    var collapse := BooleanContext.CanConvertToBoolean(Corrected, vbNode, ctx);
    if !lN && !rN {
      PlainLogicalCorrect(collapse, vbNode.op, lv, rv, st);
    } else {
      var f := FactsOf(Corrected, vbNode, ctx, lN, rN);
      if f.rhsReusable {
        ReusableImpliesPure(vbNode.right);
      }
      if vbNode.op == AndAlsoOp {
        AndAlsoLoweringCorrect(f, lv, rv, counter, st);
      } else {
        OrElseLoweringCorrect(f, lv, rv, counter, st);
      }
    }
  }

  /** Where evaluation reaches a binary node, each operand the corrected
      lowering treats as not nullable has a value. */
  lemma OperandsHaveValues<T>(vbNode: VbExpr, ctx: seq<Frame>, lhsType: TypeInfo, rhsType: TypeInfo, tagged: CsExpr -> bool,
                              lv: Option<T>, rv: Option<T>, nulls: string -> bool, atom: VbExpr -> Option<bool>)
    requires vbNode.Binary?
    requires NullFlow.Reaches([BinaryRightFrame(vbNode.op, vbNode.left)] + ctx, nulls, atom)
    requires ConsistentOperand(vbNode.left, Operand(Lhs), lhsType, tagged, nulls, lv)
    requires ConsistentOperand(vbNode.right, Operand(Rhs), rhsType, tagged, nulls, rv)
    ensures !IsNullable(Corrected, vbNode.left, [BinaryLeftFrame(vbNode.op, vbNode.right)] + ctx, Operand(Lhs), lhsType, tagged) ==> lv.Some?
    ensures !IsNullable(Corrected, vbNode.right, [BinaryRightFrame(vbNode.op, vbNode.left)] + ctx, Operand(Rhs), rhsType, tagged) ==> rv.Some?
  {
    var lhsCtx := [BinaryLeftFrame(vbNode.op, vbNode.right)] + ctx;
    var rhsCtx := [BinaryRightFrame(vbNode.op, vbNode.left)] + ctx;
    ReachesCons(BinaryRightFrame(vbNode.op, vbNode.left), ctx, nulls, atom);
    ReachesCons(BinaryLeftFrame(vbNode.op, vbNode.right), ctx, nulls, atom);
    if !IsNullable(Corrected, vbNode.left, lhsCtx, Operand(Lhs), lhsType, tagged) {
      NotNullableHasValue(vbNode.left, lhsCtx, Operand(Lhs), lhsType, tagged, nulls, atom, lv);
    }
    if !IsNullable(Corrected, vbNode.right, rhsCtx, Operand(Rhs), rhsType, tagged) {
      NotNullableHasValue(vbNode.right, rhsCtx, Operand(Rhs), rhsType, tagged, nulls, atom, rv);
    }
  }

  /** A right frame under a comparison asks nothing of the values. */
  lemma ReachesUnderComparison(vbNode: VbExpr, ctx: seq<Frame>, nulls: string -> bool, atom: VbExpr -> Option<bool>)
    requires vbNode.Binary? && IsRelational(vbNode.op)
    requires NullFlow.Reaches(ctx, nulls, atom)
    ensures NullFlow.Reaches([BinaryRightFrame(vbNode.op, vbNode.left)] + ctx, nulls, atom)
  {
    ReachesCons(BinaryRightFrame(vbNode.op, vbNode.left), ctx, nulls, atom);
    assert NullFlow.Reaches([BinaryRightFrame(vbNode.op, vbNode.left)], nulls, atom);
  }

  /** Which lowering the dispatch picks for a comparison. */
  lemma ComparisonDispatch(vbNode: VbExpr, ctx: seq<Frame>, lhsType: TypeInfo, rhsType: TypeInfo, tagged: CsExpr -> bool, counter: nat)
    requires vbNode.Binary? && IsRelational(vbNode.op)
    requires lhsType.convertedTypeIsNullable && rhsType.convertedTypeIsNullable
    ensures var cs := BinaryExpr(CsRelational(vbNode.op), Operand(Lhs), Operand(Rhs));
            var lN := IsNullable(Corrected, vbNode.left, [BinaryLeftFrame(vbNode.op, vbNode.right)] + ctx, Operand(Lhs), lhsType, tagged);
            var rN := IsNullable(Corrected, vbNode.right, [BinaryRightFrame(vbNode.op, vbNode.left)] + ctx, Operand(Rhs), rhsType, tagged);
            var r := WithBinaryExpressionLogicForNullableTypes(Corrected, vbNode, ctx, lhsType, rhsType, cs, Operand(Lhs), Operand(Rhs), tagged, counter);
            && (!lN && !rN ==> r.expr == cs)
            && (lN || rN ==> r == LowerComparison(FactsOf(Corrected, vbNode, ctx, lN, rN), vbNode.op, counter))
  {
  }

  /** Corrected, the lowering of a comparison computes Visual Basic's result
      (whether it is `True`, where `Nothing` acts as `False`) and never
      throws, wherever evaluation reaches the comparison. */
  lemma RelationalLoweringEndToEnd(vbNode: VbExpr, ctx: seq<Frame>, lhsType: TypeInfo, rhsType: TypeInfo,
                                   tagged: CsExpr -> bool, counter: nat, lv: Option<int>, rv: Option<int>,
                                   nulls: string -> bool, atom: VbExpr -> Option<bool>, st: State)
    requires vbNode.Binary? && IsRelational(vbNode.op)
    requires lhsType.convertedTypeIsNullable && rhsType.convertedTypeIsNullable
    requires NullFlow.Reaches(ctx, nulls, atom)
    requires ConsistentOperand(vbNode.left, Operand(Lhs), lhsType, tagged, nulls, lv)
    requires ConsistentOperand(vbNode.right, Operand(Rhs), rhsType, tagged, nulls, rv)
    ensures var cs := BinaryExpr(CsRelational(vbNode.op), Operand(Lhs), Operand(Rhs));
            var r := WithBinaryExpressionLogicForNullableTypes(Corrected, vbNode, ctx, lhsType, rhsType, cs, Operand(Lhs), Operand(Rhs), tagged, counter);
            var out := Eval(r.expr, Env(OfInt(lv), OfInt(rv)), st);
            out.Done? && out.value == ExpectedComparison(BooleanContext.CanConvertToBoolean(Corrected, vbNode, ctx), vbNode.op, lv, rv)
  {
    ReachesUnderComparison(vbNode, ctx, nulls, atom);
    OperandsHaveValues(vbNode, ctx, lhsType, rhsType, tagged, lv, rv, nulls, atom);
    var lN := IsNullable(Corrected, vbNode.left, [BinaryLeftFrame(vbNode.op, vbNode.right)] + ctx, Operand(Lhs), lhsType, tagged);
    var rN := IsNullable(Corrected, vbNode.right, [BinaryRightFrame(vbNode.op, vbNode.left)] + ctx, Operand(Rhs), rhsType, tagged);
    var collapse := BooleanContext.CanConvertToBoolean(Corrected, vbNode, ctx);
    ComparisonDispatch(vbNode, ctx, lhsType, rhsType, tagged, counter);
    if !lN && !rN {
      PlainComparisonCorrect(collapse, vbNode.op, lv, rv, st);
    } else {
      RelationalLoweringCorrect(FactsOf(Corrected, vbNode, ctx, lN, rN), vbNode.op, lv, rv, counter, st);
    }
  }

  // ------------------------------------------------ the null-flow finding

  /** `x <> 5` of `If Not x.HasValue AndAlso b OrElse x <> 5 Then`, for an
      `Integer?` variable `x`. */
  const FindingNode: VbExpr := Binary(VbBinOp.NotEqualsOp, NullFlow.ExampleX, Literal(IntegerLiteral(5)))
  const FindingCtx: seq<Frame> := [BinaryRightFrame(OrElseOp, NullFlow.ExampleGuard), ConditionFrame(IfStatement)]
  const FindingCs: CsExpr := BinaryExpr(CsBinOp.NotEqualsOp, Operand(Lhs), Operand(Rhs))

  /** `x <> 5` is a condition: its `OrElse` parent is the `If` condition. */
  lemma FindingCollapses(rev: Revision)
    ensures BooleanContext.CanConvertToBoolean(rev, FindingNode, FindingCtx)
  {
    var parent := Binary(OrElseOp, NullFlow.ExampleGuard, FindingNode);
    assert SkipOutOfParens(FindingCtx) == 0;
    assert FindingCtx[1..] == [ConditionFrame(IfStatement)];
    assert BooleanContext.CanConvertToBoolean(rev, parent, FindingCtx[1..]);
  }

  /** As written, the lookup takes `x` to be non-null, so `x <> 5` is kept as
      C#'s `x != 5`; that is true for a null `x`, so the C# condition holds
      and the branch is taken. */
  lemma FindingAsWrittenLowering(tagged: CsExpr -> bool, counter: nat, st: State)
    requires !tagged(Operand(Lhs)) && !tagged(Operand(Rhs))
    ensures var r := WithBinaryExpressionLogicForNullableTypes(AsWritten, FindingNode, FindingCtx, TypeInfo(true, true), TypeInfo(false, true),
                                                               FindingCs, Operand(Lhs), Operand(Rhs), tagged, counter);
            && r == Lowering(FindingCs, true, counter)
            && Eval(r.expr, Env(NullV, IntV(5)), st).Done?
            && Eval(r.expr, Env(NullV, IntV(5)), st).value == BoolV(true)
  {
    var lhsCtx := [BinaryLeftFrame(VbBinOp.NotEqualsOp, Literal(IntegerLiteral(5)))] + FindingCtx;
    assert lhsCtx == NullFlow.ExampleCtx;
    NullFlow.AndUnderFalseAsWrittenUnsound();
    assert !IsNullable(AsWritten, NullFlow.ExampleX, lhsCtx, Operand(Lhs), TypeInfo(true, true), tagged);
    var rhsCtx := [BinaryRightFrame(VbBinOp.NotEqualsOp, NullFlow.ExampleX)] + FindingCtx;
    assert !IsNullable(AsWritten, Literal(IntegerLiteral(5)), rhsCtx, Operand(Rhs), TypeInfo(false, true), tagged);
    NullNotEqualsFive(st);
  }

  /** C#'s lifted `!=` says a null `x` differs from `5`. */
  lemma NullNotEqualsFive(st: State)
    ensures Eval(FindingCs, Env(NullV, IntV(5)), st).Done?
    ensures Eval(FindingCs, Env(NullV, IntV(5)), st).value == BoolV(true)
  {
  }

  /** Corrected, `x` keeps its null check and the comparison is false. With
      `x` null and `b` false, Visual Basic's condition is
      `False OrElse Nothing`, which is `Nothing`, and the `If` is skipped. */
  lemma FindingCorrectedLowering(tagged: CsExpr -> bool, counter: nat, st: State)
    requires !tagged(Operand(Lhs)) && !tagged(Operand(Rhs))
    ensures var r := WithBinaryExpressionLogicForNullableTypes(Corrected, FindingNode, FindingCtx, TypeInfo(true, true), TypeInfo(false, true),
                                                               FindingCs, Operand(Lhs), Operand(Rhs), tagged, counter);
            && Eval(r.expr, Env(NullV, IntV(5)), st).Done?
            && Eval(r.expr, Env(NullV, IntV(5)), st).value == BoolV(false)
    ensures Or3(Some(false), Compare3(VbBinOp.NotEqualsOp, None, Some(5))) == None
  {
    NullFlow.ExampleReached();
    ReachesCons(BinaryRightFrame(OrElseOp, NullFlow.ExampleGuard), [ConditionFrame(IfStatement)], NullFlow.AllNull, NullFlow.AllFalse);
    assert FindingCtx == [BinaryRightFrame(OrElseOp, NullFlow.ExampleGuard)] + [ConditionFrame(IfStatement)];
    assert NullFlow.Reaches(FindingCtx, NullFlow.AllNull, NullFlow.AllFalse);
    assert ConsistentOperand(NullFlow.ExampleX, Operand(Lhs), TypeInfo(true, true), tagged, NullFlow.AllNull, Option<int>.None);
    assert ConsistentOperand(Literal(IntegerLiteral(5)), Operand(Rhs), TypeInfo(false, true), tagged, NullFlow.AllNull, Some(5));
    assert FindingCs == BinaryExpr(CsRelational(VbBinOp.NotEqualsOp), Operand(Lhs), Operand(Rhs));
    FindingCollapses(Corrected);
    RelationalLoweringEndToEnd(FindingNode, FindingCtx, TypeInfo(true, true), TypeInfo(false, true), tagged, counter,
                               None, Some(5), NullFlow.AllNull, NullFlow.AllFalse, st);
  }
}

=== FILE: lowering_hygiene.dfy ===
/** Syntactic facts about the lowered expressions: an operand that is not
    safely reusable is written once (later reads go through the pattern
    variable that captures it), and every pattern variable is declared once,
    with a name drawn from the counter range the lowering consumed. That
    every read pattern variable is bound first is part of the evaluation
    lemmas: an unbound read would be stuck. */
module LoweringHygiene {
  import opened CsSyntax
  import opened NullableTypesLogicExtensions
  import opened NullableExpressionsConverter
  import opened VbSemantics
  import opened LoweringCorrectness
  import VbSyntax

  /** The declared names are distinct and lie in `(lo, hi]`. */
  predicate FreshBinders(e: CsExpr, lo: nat, hi: nat) {
    DistinctBinders(e) && forall i :: 0 <= i < |Binders(e)| ==> lo < Binders(e)[i] <= hi
  }

  /** An operand or a pattern variable, and the builders applied to one:
      they declare nothing and write the operand as often as the leaf does. */
  lemma {:induction false} LeafFacts(e: CsExpr)
    requires e.Operand? || e.Arg?
    ensures Binders(e) == [] && Occurrences(e, Lhs) == (if e == Operand(Lhs) then 1 else 0)
            && Occurrences(e, Rhs) == (if e == Operand(Rhs) then 1 else 0)
    ensures Binders(HasValue(e)) == [] && Binders(HasNoValue(e)) == [] && Binders(GetValue(e)) == []
    ensures Binders(EqualsFalse(e)) == [] && Binders(EqualsTrue(e)) == []
    ensures Occurrences(HasValue(e), Lhs) == Occurrences(e, Lhs) && Occurrences(HasValue(e), Rhs) == Occurrences(e, Rhs)
    ensures Occurrences(HasNoValue(e), Lhs) == Occurrences(e, Lhs) && Occurrences(HasNoValue(e), Rhs) == Occurrences(e, Rhs)
    ensures Occurrences(GetValue(e), Lhs) == Occurrences(e, Lhs) && Occurrences(GetValue(e), Rhs) == Occurrences(e, Rhs)
    ensures Occurrences(EqualsFalse(e), Lhs) == Occurrences(e, Lhs) && Occurrences(EqualsFalse(e), Rhs) == Occurrences(e, Rhs)
    ensures Occurrences(EqualsTrue(e), Lhs) == Occurrences(e, Lhs) && Occurrences(EqualsTrue(e), Rhs) == Occurrences(e, Rhs)
  {
    assert Binders(HasValue(e)) == [];
    assert Occurrences(HasValue(e), Lhs) == Occurrences(e, Lhs);
    assert Occurrences(HasValue(e), Rhs) == Occurrences(e, Rhs);
  }

  /** A pattern capturing an operand declares its one name. */
  lemma {:induction false} PatternFacts(s: Side, id: nat)
    ensures var o := Operand(s);
            && Binders(IsVarPattern(o, id)) == [id] && Binders(IsObjectPattern(o, id)) == [id]
            && Binders(IsNotObjectPattern(o, id)) == [id]
            && Occurrences(IsVarPattern(o, id), s) == 1 && Occurrences(IsObjectPattern(o, id), s) == 1
            && Occurrences(IsNotObjectPattern(o, id), s) == 1
  {
    LeafFacts(Operand(s));
  }

  /** A pattern does not write the other operand. */
  lemma {:induction false} PatternOtherSide(s: Side, t: Side, id: nat)
    requires s != t
    ensures var o := Operand(s);
            && Occurrences(IsVarPattern(o, id), t) == 0 && Occurrences(IsObjectPattern(o, id), t) == 0
            && Occurrences(IsNotObjectPattern(o, id), t) == 0
  {
    LeafFacts(Operand(s));
  }

  /** `lhs is var argN && argN == true ? true : whenFalse`, the right operand
      captured in `argM` when it may be null. */
  lemma {:induction false} OrElseFullHygiene(rhsNullable: bool, counter: nat)
    ensures var r := ForOrElseOperator(Facts(false, true, rhsNullable, false, false, false), Operand(Lhs), Operand(Rhs), counter);
            && Occurrences(r.expr, Lhs) == 1 && Occurrences(r.expr, Rhs) == 1
            && Binders(r.expr) == (if rhsNullable then [counter + 1, counter + 2] else [counter + 1])
  {
    var lhs, rhs := Operand(Lhs), Operand(Rhs);
    var n, m := counter + 1, counter + 2;
    assert Binders(IsVarPattern(lhs, n)) == [n];
    assert Binders(EqualsTrue(Arg(n))) == [];
    assert Occurrences(IsVarPattern(lhs, n), Lhs) == 1 && Occurrences(IsVarPattern(lhs, n), Rhs) == 0;
    assert Occurrences(EqualsTrue(Arg(n)), Lhs) == 0 && Occurrences(EqualsTrue(Arg(n)), Rhs) == 0;
    var test := And(IsVarPattern(lhs, n), EqualsTrue(Arg(n)));
    assert Binders(test) == [n];
    assert Occurrences(test, Lhs) == 1;
    assert Occurrences(test, Rhs) == 0;
    OrElseFullTail(rhsNullable, n, m);
    var whenFalse := if rhsNullable then Conditional(IsNotObjectPattern(rhs, m), Null, Conditional(Arg(m), True, Arg(n)))
                     else Conditional(rhs, True, Arg(n));
    assert ForOrElseOperator(Facts(false, true, rhsNullable, false, false, false), lhs, rhs, counter).expr
        == Conditional(test, True, whenFalse);
  }

  /** The branch of the OrElse pattern template taken when the left operand
      is not `true`. */
  lemma {:induction false} OrElseFullTail(rhsNullable: bool, n: nat, m: nat)
    ensures var rhs := Operand(Rhs);
            var whenFalse := if rhsNullable then Conditional(IsNotObjectPattern(rhs, m), Null, Conditional(Arg(m), True, Arg(n)))
                             else Conditional(rhs, True, Arg(n));
            && Binders(whenFalse) == (if rhsNullable then [m] else [])
            && Occurrences(whenFalse, Lhs) == 0 && Occurrences(whenFalse, Rhs) == 1
  {
    var rhs := Operand(Rhs);
    var inner := Conditional(Arg(m), True, Arg(n));
    assert Binders(inner) == [];
    assert Occurrences(inner, Lhs) == 0 && Occurrences(inner, Rhs) == 0;
    if rhsNullable {
      assert Binders(IsNotObjectPattern(rhs, m)) == [m];
      assert Occurrences(IsNotObjectPattern(rhs, m), Lhs) == 0 && Occurrences(IsNotObjectPattern(rhs, m), Rhs) == 1;
    } else {
      assert Occurrences(Conditional(rhs, True, Arg(n)), Lhs) == 0 && Occurrences(Conditional(rhs, True, Arg(n)), Rhs) == 1;
    }
  }

  /** `ForOrElseOperator` writes each operand exactly once. */
  lemma {:induction false} OrElseHygiene(f: Facts, counter: nat)
    ensures var r := ForOrElseOperator(f, Operand(Lhs), Operand(Rhs), counter);
            && Occurrences(r.expr, Lhs) == 1
            && Occurrences(r.expr, Rhs) == 1
            && FreshBinders(r.expr, counter, r.counter)
  {
    if !f.collapse && f.lhsNullable {
      OrElseFullHygiene(f.rhsNullable, counter);
      assert ForOrElseOperator(f, Operand(Lhs), Operand(Rhs), counter)
          == ForOrElseOperator(Facts(false, true, f.rhsNullable, false, false, false), Operand(Lhs), Operand(Rhs), counter);
    } else {
      OrElseSimpleHygiene(f, counter);
    }
  }

  /** The OrElse templates that declare nothing. */
  lemma {:induction false} OrElseSimpleHygiene(f: Facts, counter: nat)
    requires f.collapse || !f.lhsNullable
    ensures var r := ForOrElseOperator(f, Operand(Lhs), Operand(Rhs), counter);
            Occurrences(r.expr, Lhs) == 1 && Occurrences(r.expr, Rhs) == 1 && Binders(r.expr) == []
  {
    var lhs, rhs := Operand(Lhs), Operand(Rhs);
    var e := ForOrElseOperator(f, lhs, rhs, counter).expr;
    LeafFacts(lhs);
    LeafFacts(rhs);
    if !f.collapse {
      assert e == Conditional(lhs, True, rhs);
    } else if !f.lhsNullable {
      assert e == Or(lhs, EqualsTrue(rhs));
    } else if !f.rhsNullable {
      assert e == Or(EqualsTrue(lhs), rhs);
    } else {
      assert e == Or(EqualsTrue(lhs), EqualsTrue(rhs));
    }
  }

  /** The captured left operand `lhs is var argN && argN == false` of the
      AndAlso templates. */
  lemma {:induction false} CapturedLeftTest(n: nat)
    ensures var t := AndEqualsFalse(IsVarPattern(Operand(Lhs), n), Arg(n));
            && Occurrences(t, Lhs) == 1 && Occurrences(t, Rhs) == 0 && Binders(t) == [n]
  {
    PatternFacts(Lhs, n);
    PatternOtherSide(Lhs, Rhs, n);
    LeafFacts(Arg(n));
  }

  /** An expression whose declared names are listed explicitly. */
  lemma {:induction false} FreshFromList(e: CsExpr, lo: nat, hi: nat)
    requires |Binders(e)| <= 2
    requires forall i :: 0 <= i < |Binders(e)| ==> lo < Binders(e)[i] <= hi
    requires |Binders(e)| == 2 ==> Binders(e)[0] != Binders(e)[1]
    ensures FreshBinders(e, lo, hi)
  {
  }

  /** `lhs == false ? false : tail` or its captured form, for a tail that does
      not write the left operand. */
  lemma {:induction false} LeftGuardHygiene(lhsReusable: bool, n: nat, tail: CsExpr)
    requires !lhsReusable ==> Occurrences(tail, Lhs) == 0
    ensures var t := if lhsReusable then EqualsFalse(Operand(Lhs)) else AndEqualsFalse(IsVarPattern(Operand(Lhs), n), Arg(n));
            var e := Conditional(t, False, tail);
            && (!lhsReusable ==> Occurrences(e, Lhs) == 1)
            && Occurrences(e, Rhs) == Occurrences(tail, Rhs)
            && Binders(e) == (if lhsReusable then [] else [n]) + Binders(tail)
  {
    var t := if lhsReusable then EqualsFalse(Operand(Lhs)) else AndEqualsFalse(IsVarPattern(Operand(Lhs), n), Arg(n));
    ConditionalFacts(t, False, tail);
    if lhsReusable {
      LeafFacts(Operand(Lhs));
      assert Binders(t) + Binders(False) + Binders(tail) == Binders(tail);
    } else {
      CapturedLeftTest(n);
      assert Binders(t) + Binders(False) + Binders(tail) == [n] + Binders(tail);
    }
  }

  /** A conditional declares its parts' names in order and writes what they write. */
  lemma {:induction false} ConditionalFacts(c: CsExpr, t: CsExpr, f: CsExpr)
    ensures Binders(Conditional(c, t, f)) == Binders(c) + Binders(t) + Binders(f)
    ensures Occurrences(Conditional(c, t, f), Lhs) == Occurrences(c, Lhs) + Occurrences(t, Lhs) + Occurrences(f, Lhs)
    ensures Occurrences(Conditional(c, t, f), Rhs) == Occurrences(c, Rhs) + Occurrences(t, Rhs) + Occurrences(f, Rhs)
  {
  }

  /** The tail of the full template with a reusable right operand. */
  lemma {:induction false} ReusableRightTail(name: CsExpr)
    requires name == Operand(Lhs) || name.Arg?
    ensures var e := Conditional(HasNoValue(Operand(Rhs)), Null, Conditional(GetValue(Operand(Rhs)), name, False));
            && Binders(e) == [] && (name.Arg? ==> Occurrences(e, Lhs) == 0)
  {
    var rhs := Operand(Rhs);
    var tail := Conditional(GetValue(rhs), name, False);
    LeafFacts(rhs);
    assert Binders(name) == [] && (name.Arg? ==> Occurrences(name, Lhs) == 0);
    ConditionalFacts(GetValue(rhs), name, False);
    assert Binders(tail) == [] + [] + [] == [];
    ConditionalFacts(HasNoValue(rhs), Null, tail);
    assert Binders(Conditional(HasNoValue(rhs), Null, tail)) == [] + [] + [] == [];
  }

  /** The tail of the full template with a captured right operand. */
  lemma {:induction false} CapturedRightTail(name: CsExpr, m: nat)
    requires name == Operand(Lhs) || name.Arg?
    ensures var e := Conditional(IsNotObjectPattern(Operand(Rhs), m), Null, Conditional(Arg(m), name, False));
            && Binders(e) == [m] && Occurrences(e, Rhs) == 1 && (name.Arg? ==> Occurrences(e, Lhs) == 0)
  {
    var neg := IsNotObjectPattern(Operand(Rhs), m);
    var tail := Conditional(Arg(m), name, False);
    PatternFacts(Rhs, m);
    PatternOtherSide(Rhs, Lhs, m);
    ArgSelectsName(name, m);
    assert Binders(Conditional(neg, Null, tail)) == Binders(neg) + Binders(Null) + Binders(tail) == [m];
  }

  /** `argM ? name : false` declares nothing and writes no operand beyond `name`. */
  lemma {:induction false} ArgSelectsName(name: CsExpr, m: nat)
    requires name == Operand(Lhs) || name.Arg?
    ensures var e := Conditional(Arg(m), name, False);
            && Binders(e) == [] && Occurrences(e, Rhs) == 0 && (name.Arg? ==> Occurrences(e, Lhs) == 0)
  {
    assert Binders(name) == [] && Occurrences(name, Rhs) == 0 && (name.Arg? ==> Occurrences(name, Lhs) == 0);
    ConditionalFacts(Arg(m), name, False);
    assert Binders(Conditional(Arg(m), name, False)) == [] + [] + [];
  }

  /** The four `FullAndExpression` templates: each operand that is not safely
      reusable is written once, and the declared names are fresh. */
  lemma {:induction false} FullAndHygiene(f: Facts, counter: nat)
    ensures var r := FullAndExpression(f, Operand(Lhs), Operand(Rhs), counter);
            && (!f.lhsReusable ==> Occurrences(r.expr, Lhs) == 1)
            && (!f.rhsReusable ==> Occurrences(r.expr, Rhs) == 1)
            && FreshBinders(r.expr, counter, r.counter)
  {
    if f.rhsReusable {
      FullAndReusableRightHygiene(f, counter);
    } else {
      FullAndCapturedRightHygiene(f, counter);
    }
  }

  /** `FullAndExpression` with a safely reusable right operand. */
  lemma {:induction false} FullAndReusableRightHygiene(f: Facts, counter: nat)
    requires f.rhsReusable
    ensures var r := FullAndExpression(f, Operand(Lhs), Operand(Rhs), counter);
            && (!f.lhsReusable ==> Occurrences(r.expr, Lhs) == 1)
            && FreshBinders(r.expr, counter, r.counter)
  {
    var lhs, rhs := Operand(Lhs), Operand(Rhs);
    var r := FullAndExpression(f, lhs, rhs, counter);
    var n := counter + 1;
    var name := if f.lhsReusable then lhs else Arg(n);
    var tail := Conditional(HasNoValue(rhs), Null, Conditional(GetValue(rhs), name, False));
    ReusableRightTail(name);
    LeftGuardHygiene(f.lhsReusable, n, tail);
    assert r.expr == Conditional(if f.lhsReusable then EqualsFalse(lhs) else AndEqualsFalse(IsVarPattern(lhs, n), Arg(n)), False, tail);
    FreshFromList(r.expr, counter, r.counter);
  }

  /** `FullAndExpression` with the right operand captured in a pattern. */
  lemma {:induction false} FullAndCapturedRightHygiene(f: Facts, counter: nat)
    requires !f.rhsReusable
    ensures var r := FullAndExpression(f, Operand(Lhs), Operand(Rhs), counter);
            && (!f.lhsReusable ==> Occurrences(r.expr, Lhs) == 1)
            && Occurrences(r.expr, Rhs) == 1
            && FreshBinders(r.expr, counter, r.counter)
  {
    var lhs, rhs := Operand(Lhs), Operand(Rhs);
    var r := FullAndExpression(f, lhs, rhs, counter);
    var m := counter + 1;
    var n := counter + 2;
    var name := if f.lhsReusable then lhs else Arg(n);
    var tail := Conditional(IsNotObjectPattern(rhs, m), Null, Conditional(Arg(m), name, False));
    CapturedRightTail(name, m);
    LeftGuardHygiene(f.lhsReusable, n, tail);
    assert r.expr == Conditional(if f.lhsReusable then EqualsFalse(lhs) else AndEqualsFalse(IsVarPattern(lhs, n), Arg(n)), False, tail);
    FreshFromList(r.expr, counter, r.counter);
  }

  /** The collapsed template for a right operand that cannot be null and a
      reusable left one: `(!lhs.HasValue || lhs.Value) && rhs && lhs.HasValue`. */
  lemma {:induction false} CollapsedReusableLeftHygiene()
    ensures var lhs, rhs := Operand(Lhs), Operand(Rhs);
            var e := AndHasValue(And(OrGetValue(HasNoValue(lhs), lhs), rhs), lhs);
            Occurrences(e, Rhs) == 1 && Binders(e) == []
  {
    var lhs, rhs := Operand(Lhs), Operand(Rhs);
    LeafFacts(lhs);
    LeafFacts(rhs);
    var g := OrGetValue(HasNoValue(lhs), lhs);
    assert Binders(g) == [] && Occurrences(g, Rhs) == 0;
    assert Binders(And(g, rhs)) == [] && Occurrences(And(g, rhs), Rhs) == 1;
  }

  /** The same template with the left operand captured in `argN`. */
  lemma {:induction false} CollapsedCapturedLeftHygiene(n: nat)
    ensures var lhs, rhs := Operand(Lhs), Operand(Rhs);
            var e := AndHasValue(And(OrGetValue(AndHasNoValue(IsVarPattern(lhs, n), Arg(n)), Arg(n)), rhs), Arg(n));
            Occurrences(e, Lhs) == 1 && Occurrences(e, Rhs) == 1 && Binders(e) == [n]
  {
    var lhs, rhs := Operand(Lhs), Operand(Rhs);
    LeafFacts(rhs);
    LeafFacts(Arg(n));
    PatternFacts(Lhs, n);
    PatternOtherSide(Lhs, Rhs, n);
    var p := IsVarPattern(lhs, n);
    var h := AndHasNoValue(p, Arg(n));
    BinaryFacts(LogicalAnd, p, HasNoValue(Arg(n)));
    assert Binders(h) == [n] + [] == [n];
    var g := OrGetValue(h, Arg(n));
    BinaryFacts(LogicalOr, h, GetValue(Arg(n)));
    assert Binders(g) == [n] + [] == [n];
    BinaryFacts(LogicalAnd, g, rhs);
    assert Binders(And(g, rhs)) == [n] + [] == [n];
    BinaryFacts(LogicalAnd, And(g, rhs), HasValue(Arg(n)));
    assert Binders(AndHasValue(And(g, rhs), Arg(n))) == [n] + [] == [n];
  }

  /** A binary node declares its operands' names in order and writes what they write. */
  lemma {:induction false} BinaryFacts(op: CsBinOp, a: CsExpr, b: CsExpr)
    ensures Binders(BinaryExpr(op, a, b)) == Binders(a) + Binders(b)
    ensures Occurrences(BinaryExpr(op, a, b), Lhs) == Occurrences(a, Lhs) + Occurrences(b, Lhs)
    ensures Occurrences(BinaryExpr(op, a, b), Rhs) == Occurrences(a, Rhs) + Occurrences(b, Rhs)
  {
  }

  /** The collapsed AndAlso templates, used where `Nothing` acts as false. */
  lemma {:induction false} AndAlsoCollapsedHygiene(f: Facts, counter: nat)
    requires f.collapse
    ensures var r := ForAndAlsoOperator(f, Operand(Lhs), Operand(Rhs), counter);
            && (!f.lhsReusable ==> Occurrences(r.expr, Lhs) == 1)
            && (!f.rhsReusable ==> Occurrences(r.expr, Rhs) == 1)
            && FreshBinders(r.expr, counter, r.counter)
  {
    if !f.lhsNullable || f.rhsPure {
      CollapsedPlainHygiene(f, counter);
    } else if !f.rhsNullable {
      var r := ForAndAlsoOperator(f, Operand(Lhs), Operand(Rhs), counter);
      if f.lhsReusable {
        CollapsedReusableLeftHygiene();
      } else {
        CollapsedCapturedLeftHygiene(counter + 1);
      }
      FreshFromList(r.expr, counter, r.counter);
    } else {
      CollapsedFullHygiene(f, counter);
    }
  }

  /** The collapsed templates that only compare the operands with `true`. */
  lemma {:induction false} CollapsedPlainHygiene(f: Facts, counter: nat)
    requires f.collapse && (!f.lhsNullable || f.rhsPure)
    ensures var e := ForAndAlsoOperator(f, Operand(Lhs), Operand(Rhs), counter).expr;
            Occurrences(e, Lhs) == 1 && Occurrences(e, Rhs) == 1 && Binders(e) == []
  {
    var lhs, rhs := Operand(Lhs), Operand(Rhs);
    var e := ForAndAlsoOperator(f, lhs, rhs, counter).expr;
    var l := if f.lhsNullable then EqualsTrue(lhs) else lhs;
    var r := if f.lhsNullable && !f.rhsNullable then rhs else EqualsTrue(rhs);
    assert e == And(l, r);
    BinaryFacts(EqualsOp, lhs, BoolLit(true));
    BinaryFacts(EqualsOp, rhs, BoolLit(true));
    BinaryFacts(LogicalAnd, l, r);
    assert Binders(e) == [] + [];
  }

  /** The collapsed template `FullAndExpression(...) == true`. */
  lemma {:induction false} CollapsedFullHygiene(f: Facts, counter: nat)
    requires f.collapse && f.lhsNullable && !f.rhsPure && f.rhsNullable
    ensures var r := ForAndAlsoOperator(f, Operand(Lhs), Operand(Rhs), counter);
            && (!f.lhsReusable ==> Occurrences(r.expr, Lhs) == 1)
            && (!f.rhsReusable ==> Occurrences(r.expr, Rhs) == 1)
            && FreshBinders(r.expr, counter, r.counter)
  {
    var lhs, rhs := Operand(Lhs), Operand(Rhs);
    FullAndHygiene(f, counter);
    var full := FullAndExpression(f, lhs, rhs, counter);
    assert ForAndAlsoOperator(f, lhs, rhs, counter) == Lowering(EqualsTrue(full.expr), true, full.counter);
  }

  /** The AndAlso templates outside a collapsing position. */
  lemma {:induction false} AndAlsoConditionalHygiene(f: Facts, counter: nat)
    requires !f.collapse
    ensures var r := ForAndAlsoOperator(f, Operand(Lhs), Operand(Rhs), counter);
            && (!f.lhsReusable ==> Occurrences(r.expr, Lhs) == 1)
            && (!f.rhsReusable ==> Occurrences(r.expr, Rhs) == 1)
            && FreshBinders(r.expr, counter, r.counter)
  {
    var lhs, rhs := Operand(Lhs), Operand(Rhs);
    var r := ForAndAlsoOperator(f, lhs, rhs, counter);
    var n := counter + 1;
    LeafFacts(lhs);
    LeafFacts(rhs);
    if !f.lhsNullable {
      assert r.expr == Conditional(lhs, rhs, False);
    } else if !f.rhsNullable {
      NotNullRightHygiene(f.lhsReusable, n);
      var name := if f.lhsReusable then lhs else Arg(n);
      var t := if f.lhsReusable then EqualsFalse(lhs) else AndEqualsFalse(IsVarPattern(lhs, n), Arg(n));
      assert r.expr == Conditional(t, False, Conditional(rhs, name, False));
      FreshFromList(r.expr, counter, r.counter);
    } else {
      FullAndHygiene(f, counter);
    }
  }

  /** `lhs == false ? false : rhs ? lhs : false` and its captured form. */
  lemma {:induction false} NotNullRightHygiene(lhsReusable: bool, n: nat)
    ensures var name := if lhsReusable then Operand(Lhs) else Arg(n);
            var t := if lhsReusable then EqualsFalse(Operand(Lhs)) else AndEqualsFalse(IsVarPattern(Operand(Lhs), n), Arg(n));
            var e := Conditional(t, False, Conditional(Operand(Rhs), name, False));
            && (!lhsReusable ==> Occurrences(e, Lhs) == 1)
            && Occurrences(e, Rhs) == 1
            && Binders(e) == (if lhsReusable then [] else [n])
  {
    var name := if lhsReusable then Operand(Lhs) else Arg(n);
    assert Binders(name) == [] && Occurrences(name, Rhs) == 0 && (!lhsReusable ==> Occurrences(name, Lhs) == 0);
    var tail := Conditional(Operand(Rhs), name, False);
    ConditionalFacts(Operand(Rhs), name, False);
    assert Binders(tail) == [] + [] + [] == [];
    assert Occurrences(tail, Rhs) == 1;
    assert !lhsReusable ==> Occurrences(tail, Lhs) == 0;
    LeftGuardHygiene(lhsReusable, n, tail);
    if lhsReusable {
      assert [] + Binders(tail) == [];
    } else {
      assert [n] + Binders(tail) == [n];
    }
  }

  /** `ForAndAlsoOperator` writes an operand that is not safely reusable
      exactly once and declares fresh, distinct names. */
  lemma {:induction false} AndAlsoHygiene(f: Facts, counter: nat)
    ensures var r := ForAndAlsoOperator(f, Operand(Lhs), Operand(Rhs), counter);
            && (!f.lhsReusable ==> Occurrences(r.expr, Lhs) == 1)
            && (!f.rhsReusable ==> Occurrences(r.expr, Rhs) == 1)
            && FreshBinders(r.expr, counter, r.counter)
  {
    if f.collapse {
      AndAlsoCollapsedHygiene(f, counter);
    } else {
      AndAlsoConditionalHygiene(f, counter);
    }
  }

  // --------------------------------------------------- relational operators

  /** With both operands nullable, the check that sorts last, and that a
      collapsing `=` drops, is an optional `HasValue` test: never a pattern
      that captures an operand, whose evaluation could not be skipped. */
  lemma DroppedCheckIsHasValue(f: Facts, counter: nat)
    requires f.lhsNullable && f.rhsNullable
    ensures var s := ListSort(BuildConditions(f, Operand(Lhs), Operand(Rhs), counter).conditions);
            |s| >= 2 && s[|s| - 1].executionOptional && s[|s| - 1].expr.HasValueExpr?
  {
    if f.lhsReusable && f.rhsReusable {
      ReusableSorted(f, counter);
    } else if f.lhsReusable {
      RhsCapturedSorted(f, counter);
    } else if f.rhsReusable {
      LhsCapturedSorted(f, counter);
    } else {
      CapturedSorted(f, counter);
    }
  }

  lemma ReusableSorted(f: Facts, counter: nat)
    requires f.lhsNullable && f.rhsNullable && f.lhsReusable && f.rhsReusable
    ensures ListSort(BuildConditions(f, Operand(Lhs), Operand(Rhs), counter).conditions)
            == [Condition(true, HasValue(Operand(Lhs))), Condition(true, HasValue(Operand(Rhs)))]
  {
    ReusableChecks(f, counter);
  }

  lemma RhsCapturedSorted(f: Facts, counter: nat)
    requires f.lhsNullable && f.rhsNullable && f.lhsReusable && !f.rhsReusable
    ensures ListSort(BuildConditions(f, Operand(Lhs), Operand(Rhs), counter).conditions)
            == [Condition(false, IsObjectPattern(Operand(Rhs), counter + 1)), Condition(true, HasValue(Operand(Lhs)))]
  {
    RhsCapturedChecks(f, counter);
    var a := Condition(true, HasValue(Operand(Lhs)));
    var b := Condition(false, IsObjectPattern(Operand(Rhs), counter + 1));
    assert SwapIfGreater([a, b], 0, 1) == [b, a];
  }

  lemma LhsCapturedSorted(f: Facts, counter: nat)
    requires f.lhsNullable && f.rhsNullable && !f.lhsReusable && f.rhsReusable
    ensures ListSort(BuildConditions(f, Operand(Lhs), Operand(Rhs), counter).conditions)
            == [Condition(false, IsObjectPattern(Operand(Lhs), counter + 1)), Condition(true, HasValue(Operand(Rhs)))]
  {
    LhsCapturedChecks(f, counter);
  }

  lemma CapturedSorted(f: Facts, counter: nat)
    requires f.lhsNullable && f.rhsNullable && !f.lhsReusable && !f.rhsReusable
    ensures ListSort(BuildConditions(f, Operand(Lhs), Operand(Rhs), counter).conditions)
            == [Condition(false, IsVarPattern(Operand(Rhs), counter + 1)),
                Condition(false, IsObjectPattern(Operand(Lhs), counter + 2)),
                Condition(true, HasValue(Arg(counter + 1)))]
  {
    CapturedChecks(f, counter);
  }

  /** The null checks take one name for each operand that is not safely
      reusable. */
  lemma {:induction false} ChecksCounter(f: Facts, counter: nat)
    requires f.lhsNullable || f.rhsNullable
    ensures BuildConditions(f, Operand(Lhs), Operand(Rhs), counter).counter
            == counter + (if f.lhsReusable then 0 else 1) + (if f.rhsReusable then 0 else 1)
  {
  }

  /** The relational lowering takes one name for each operand that is not
      safely reusable, none where it keeps the node. */
  lemma {:induction false} RelationalCounter(f: Facts, op: VbSyntax.VbBinOp, counter: nat)
    requires IsRelational(op) && (f.lhsNullable || f.rhsNullable)
    ensures LowerComparison(f, op, counter).counter
            == counter + (if KeepsNode(f, op) then 0 else (if f.lhsReusable then 0 else 1) + (if f.rhsReusable then 0 else 1))
  {
    if !KeepsNode(f, op) {
      ChecksCounter(f, counter);
    }
  }

  /** A comparison of two leaves declares nothing. */
  lemma {:induction false} BinOfLeaves(ln: CsExpr, rn: CsExpr, o: CsBinOp)
    requires ln.Operand? || ln.Arg?
    requires rn.Operand? || rn.Arg?
    ensures Binders(Bin(ln, rn, o)) == []
    ensures Occurrences(Bin(ln, rn, o), Lhs) == Occurrences(ln, Lhs) + Occurrences(rn, Lhs)
    ensures Occurrences(Bin(ln, rn, o), Rhs) == Occurrences(ln, Rhs) + Occurrences(rn, Rhs)
  {
  }

  /** A guarded comparison is its guard joined to the comparison. */
  lemma {:induction false} GuardedParts(collapse: bool, op: VbSyntax.VbBinOp, g: CsExpr, ln: CsExpr, rn: CsExpr)
    requires IsRelational(op)
    ensures var e, bin := Guarded(collapse, op, g, ln, rn), Bin(ln, rn, CsRelational(op));
            && Binders(e) == Binders(g) + Binders(bin)
            && Occurrences(e, Lhs) == Occurrences(g, Lhs) + Occurrences(bin, Lhs)
            && Occurrences(e, Rhs) == Occurrences(g, Rhs) + Occurrences(bin, Rhs)
  {
  }

  /** A guarded comparison of two leaves writes what its guard and its leaves
      write and declares what its guard declares. */
  lemma {:induction false} GuardedFacts(collapse: bool, op: VbSyntax.VbBinOp, g: CsExpr, ln: CsExpr, rn: CsExpr)
    requires IsRelational(op)
    requires ln.Operand? || ln.Arg?
    requires rn.Operand? || rn.Arg?
    ensures var e := Guarded(collapse, op, g, ln, rn);
            && Binders(e) == Binders(g)
            && Occurrences(e, Lhs) == Occurrences(g, Lhs) + Occurrences(ln, Lhs) + Occurrences(rn, Lhs)
            && Occurrences(e, Rhs) == Occurrences(g, Rhs) + Occurrences(ln, Rhs) + Occurrences(rn, Rhs)
  {
    BinOfLeaves(ln, rn, CsRelational(op));
    GuardedParts(collapse, op, g, ln, rn);
    assert Binders(g) + [] == Binders(g);
  }

  lemma {:induction false} ReusableGuardFacts(lhsNullable: bool, rhsNullable: bool, drop: bool)
    ensures Binders(ReusableGuard(lhsNullable, rhsNullable, drop)) == []
  {
    LeafFacts(Operand(Lhs));
    LeafFacts(Operand(Rhs));
  }

  lemma {:induction false} RhsCapturedGuardFacts(lhsNullable: bool, drop: bool, n: nat)
    ensures var g := RhsCapturedGuard(lhsNullable, drop, n);
            Binders(g) == [n] && Occurrences(g, Rhs) == 1 && Occurrences(g, Lhs) <= 1
  {
    LeafFacts(Operand(Lhs));
    PatternFacts(Rhs, n);
    PatternOtherSide(Rhs, Lhs, n);
  }

  lemma {:induction false} LhsCapturedGuardFacts(rhsNullable: bool, drop: bool, n: nat)
    ensures var g := LhsCapturedGuard(rhsNullable, drop, n);
            Binders(g) == [n] && Occurrences(g, Lhs) == 1 && Occurrences(g, Rhs) <= 1
  {
    LeafFacts(Operand(Rhs));
    PatternFacts(Lhs, n);
    PatternOtherSide(Lhs, Rhs, n);
  }

  lemma {:induction false} CapturedGuardFacts(rhsNullable: bool, drop: bool, n: nat, m: nat)
    ensures var g := CapturedGuard(rhsNullable, drop, n, m);
            Binders(g) == [n, m] && Occurrences(g, Lhs) == 1 && Occurrences(g, Rhs) == 1
  {
    LeafFacts(Arg(n));
    PatternFacts(Rhs, n);
    PatternOtherSide(Rhs, Lhs, n);
    PatternFacts(Lhs, m);
    PatternOtherSide(Lhs, Rhs, m);
    var saved := And(IsVarPattern(Operand(Rhs), n), IsObjectPattern(Operand(Lhs), m));
    assert Binders(saved) == [n, m] && Occurrences(saved, Lhs) == 1 && Occurrences(saved, Rhs) == 1;
  }

  /** Two safely reusable operands: nothing is declared. */
  lemma {:induction false} ReusableHygiene(f: Facts, op: VbSyntax.VbBinOp, counter: nat)
    requires IsRelational(op) && (f.lhsNullable || f.rhsNullable) && !KeepsNode(f, op)
    requires f.lhsReusable && f.rhsReusable
    ensures var e := LowerComparison(f, op, counter).expr;
            Binders(e) == []
  {
    var n := counter + 1;
    var drop := DropsLastCheck(f, op);
    RelationalReusableShape(f, op, counter);
    ReusableGuardFacts(f.lhsNullable, f.rhsNullable, drop);
    GuardedFacts(f.collapse, op, ReusableGuard(f.lhsNullable, f.rhsNullable, drop), Operand(Lhs), Operand(Rhs));
  }

  /** The right operand is written once, in the pattern that names it. */
  lemma {:induction false} RhsCapturedHygiene(f: Facts, op: VbSyntax.VbBinOp, counter: nat)
    requires IsRelational(op) && (f.lhsNullable || f.rhsNullable) && !KeepsNode(f, op)
    requires f.lhsReusable && !f.rhsReusable
    ensures var e := LowerComparison(f, op, counter).expr;
            Occurrences(e, Rhs) == 1 && Binders(e) == [counter + 1]
  {
    var n := counter + 1;
    var drop := DropsLastCheck(f, op);
    RhsCapturedShape(f, op, counter);
    RhsCapturedGuardFacts(f.lhsNullable, drop, n);
    GuardedFacts(f.collapse, op, RhsCapturedGuard(f.lhsNullable, drop, n), Operand(Lhs), Arg(n));
    LeafFacts(Arg(n));
  }

  /** The left operand is written once, in the pattern that names it. */
  lemma {:induction false} LhsCapturedHygiene(f: Facts, op: VbSyntax.VbBinOp, counter: nat)
    requires IsRelational(op) && (f.lhsNullable || f.rhsNullable) && !KeepsNode(f, op)
    requires !f.lhsReusable && f.rhsReusable
    ensures var e := LowerComparison(f, op, counter).expr;
            Occurrences(e, Lhs) == 1 && Binders(e) == [counter + 1]
  {
    var n := counter + 1;
    var drop := DropsLastCheck(f, op);
    LhsCapturedShape(f, op, counter);
    LhsCapturedGuardFacts(f.rhsNullable, drop, n);
    GuardedFacts(f.collapse, op, LhsCapturedGuard(f.rhsNullable, drop, n), Arg(n), Operand(Rhs));
    LeafFacts(Arg(n));
  }

  /** The template when neither operand is safely reusable. */
  lemma {:induction false} CapturedTemplateFacts(collapse: bool, op: VbSyntax.VbBinOp, rhsNullable: bool, drop: bool, n: nat)
    requires IsRelational(op)
    ensures var e := Guarded(collapse, op, CapturedGuard(rhsNullable, drop, n, n + 1), Arg(n + 1), Arg(n));
            Occurrences(e, Lhs) == 1 && Occurrences(e, Rhs) == 1 && Binders(e) == [n, n + 1]
  {
    CapturedGuardFacts(rhsNullable, drop, n, n + 1);
    GuardedFacts(collapse, op, CapturedGuard(rhsNullable, drop, n, n + 1), Arg(n + 1), Arg(n));
    LeafFacts(Arg(n));
    LeafFacts(Arg(n + 1));
  }

  /** Both operands are written once; the right one is named first. */
  lemma {:induction false} CapturedHygiene(f: Facts, op: VbSyntax.VbBinOp, counter: nat)
    requires IsRelational(op) && (f.lhsNullable || f.rhsNullable) && !KeepsNode(f, op)
    requires !f.lhsReusable && !f.rhsReusable
    ensures var e := LowerComparison(f, op, counter).expr;
            Occurrences(e, Lhs) == 1 && Occurrences(e, Rhs) == 1 && Binders(e) == [counter + 1, counter + 2]
  {
    CapturedShape(f, op, counter);
    CapturedTemplateFacts(f.collapse, op, f.rhsNullable, DropsLastCheck(f, op), counter + 1);
  }

  /** Where the comparison is guarded, each template writes an operand that
      is not safely reusable once and declares one name per such operand. */
  lemma {:induction false} GuardedHygiene(f: Facts, op: VbSyntax.VbBinOp, counter: nat)
    requires IsRelational(op) && (f.lhsNullable || f.rhsNullable) && !KeepsNode(f, op)
    ensures var e := LowerComparison(f, op, counter).expr;
            && (!f.lhsReusable ==> Occurrences(e, Lhs) == 1)
            && (!f.rhsReusable ==> Occurrences(e, Rhs) == 1)
            && Binders(e) == (if f.lhsReusable && f.rhsReusable then []
                              else if f.lhsReusable || f.rhsReusable then [counter + 1]
                              else [counter + 1, counter + 2])
  {
    if f.lhsReusable && f.rhsReusable {
      ReusableHygiene(f, op, counter);
    } else if f.lhsReusable {
      RhsCapturedHygiene(f, op, counter);
    } else if f.rhsReusable {
      LhsCapturedHygiene(f, op, counter);
    } else {
      CapturedHygiene(f, op, counter);
    }
  }

  /** Where the node is kept, each operand is written once, as the caller
      wrote it. */
  lemma {:induction false} KeptHygiene(f: Facts, op: VbSyntax.VbBinOp, counter: nat)
    requires IsRelational(op) && (f.lhsNullable || f.rhsNullable) && KeepsNode(f, op)
    ensures var e := LowerComparison(f, op, counter).expr;
            Occurrences(e, Lhs) == 1 && Occurrences(e, Rhs) == 1 && Binders(e) == []
  {
    assert LowerComparison(f, op, counter).expr == BinaryExpr(CsRelational(op), Operand(Lhs), Operand(Rhs));
  }

  /** `ForRelationalOperators` writes an operand that is not safely reusable
      exactly once, and declares fresh, distinct names, one per such operand. */
  lemma {:induction false} RelationalHygiene(f: Facts, op: VbSyntax.VbBinOp, counter: nat)
    requires IsRelational(op) && (f.lhsNullable || f.rhsNullable)
    ensures var r := LowerComparison(f, op, counter);
            && (!f.lhsReusable ==> Occurrences(r.expr, Lhs) == 1)
            && (!f.rhsReusable ==> Occurrences(r.expr, Rhs) == 1)
            && FreshBinders(r.expr, counter, r.counter)
  {
    if KeepsNode(f, op) {
      KeptHygiene(f, op, counter);
      RelationalCounter(f, op, counter);
      FreshFromList(LowerComparison(f, op, counter).expr, counter, counter);
    } else {
      GuardedFresh(f, op, counter);
    }
  }

  /** The guarded comparison's names are fresh and distinct. */
  lemma {:induction false} GuardedFresh(f: Facts, op: VbSyntax.VbBinOp, counter: nat)
    requires IsRelational(op) && (f.lhsNullable || f.rhsNullable) && !KeepsNode(f, op)
    ensures var r := LowerComparison(f, op, counter);
            && (!f.lhsReusable ==> Occurrences(r.expr, Lhs) == 1)
            && (!f.rhsReusable ==> Occurrences(r.expr, Rhs) == 1)
            && FreshBinders(r.expr, counter, r.counter)
  {
    var r := LowerComparison(f, op, counter);
    GuardedHygiene(f, op, counter);
    RelationalCounter(f, op, counter);
    FreshOneNamePerCapture(r.expr, counter, r.counter, f.lhsReusable, f.rhsReusable);
  }

  /** Names `counter + 1`, then `counter + 2`, one per captured operand, are
      fresh with respect to `counter` and distinct. */
  lemma {:induction false} FreshOneNamePerCapture(e: CsExpr, counter: nat, hi: nat, lhsReusable: bool, rhsReusable: bool)
    requires Binders(e) == (if lhsReusable && rhsReusable then []
                            else if lhsReusable || rhsReusable then [counter + 1]
                            else [counter + 1, counter + 2])
    requires hi == counter + (if lhsReusable then 0 else 1) + (if rhsReusable then 0 else 1)
    ensures FreshBinders(e, counter, hi)
  {
    FreshFromList(e, counter, hi);
  }
}

=== FILE: name_expander.dfy ===
/** The decisions of the Visual Basic name expander (`VbNameExpander`), which
    runs before conversion to make every name fully qualified: which nodes it
    rewrites itself, which it descends into, the workarounds for known
    expansion bugs of the underlying Roslyn simplifier, and the rewrite of
    the non-short-circuiting `And` / `Or` to `AndAlso` / `OrElse`. The
    semantic model and the simplifier's own expansion are inputs. */
module VbNameExpander {
  import opened Options
  import opened VbSyntax
  import opened SyntaxExtensions
  import opened VbSyntaxNodeExtensions

  /** `IMemberReferenceOperation`: the receiver the binder found for a
      member reference (none for a static one) and the member's name. */
  datatype MemberReference = MemberReference(instance: Option<VbExpr>, memberName: string)

  /** What the expander asks the semantic model about the node at hand. */
  datatype SemanticModel = SemanticModel(
    typeOf: VbExpr -> Option<TypeName>,              // `GetTypeInfo(e).Type`
    convertedIsBoolean: VbExpr -> bool,              // `GetTypeInfo(e).ConvertedType.IsBooleanType()`
    containsMember: (TypeName, Symbol) -> bool,      // `ITypeSymbol.ContainsMember`
    inheritsFromOrEquals: (TypeName, TypeName) -> bool,
    enclosingSymbols: seq<Symbol>,                   // the containment chain at the node's position
    enclosingDeclaredType: TypeName,                 // `GetEnclosingDeclaredTypeSymbol`
    memberReference: VbExpr -> Option<MemberReference>,  // `GetOperation(e) as IMemberReferenceOperation`
    expand: VbExpr -> VbExpr)                        // `Simplifier.Expand`

  /** The rewritten node and, for a module member reached by a bare name,
      the module an extra `using static` must import. */
  datatype Expansion = Expansion(node: VbExpr, extraStaticUsing: Option<string>)

  // ------------------------------------------------------------ predicates

  /** `IsQualifiableInstanceReference`: a resolved non-static method, field
      or property. */
  predicate IsQualifiableInstanceReference(symbol: Option<Symbol>) {
    symbol.Some? && !symbol.value.isStatic
    && (symbol.value.kind == Method || symbol.value.kind == Field || symbol.value.kind == Property)
  }

  /** `IsLeftMostQualifier` for a simple name with ancestor path `ctx`: false
      only for the name part of a member access and the when-not-null part
      of a conditional access. */
  predicate IsLeftMostQualifier(ctx: seq<Frame>) {
    if |ctx| == 0 then true
    else
      match ctx[0]
      case MemberAccessExpressionFrame(_) => true
      case MemberAccessNameFrame(_) => false
      case ConditionalAccessExpressionFrame => true
      case ConditionalAccessWhenNotNullFrame => false
      case _ => true
  }

  /** `GetDefaultImplicitInstance`: for a qualifiable instance reference in
      leftmost position, the innermost named type enclosing the node (which
      may be missing). */
  function GetDefaultImplicitInstance(ctx: seq<Frame>, symbol: Option<Symbol>, sm: SemanticModel): (r: Option<Symbol>)
    ensures r.Some? <==> IsQualifiableInstanceReference(symbol) && IsLeftMostQualifier(ctx)
                         && exists i :: 0 <= i < |sm.enclosingSymbols| && sm.enclosingSymbols[i].kind == NamedType
    ensures r.Some? ==> r.value.kind == NamedType
    ensures r.Some? ==> exists i :: 0 <= i < |sm.enclosingSymbols| && sm.enclosingSymbols[i] == r.value
                                    && forall j :: 0 <= j < i ==> sm.enclosingSymbols[j].kind != NamedType
  {
    if IsQualifiableInstanceReference(symbol) && IsLeftMostQualifier(ctx) then
      EnclosingSymbolIsFirst(sm.enclosingSymbols, NamedType);
      EnclosingSymbol(sm.enclosingSymbols, NamedType)
    else None
  }

  /** `IsTypePromotion`: a qualifiable instance reference made through a
      member access whose receiver's type is unknown or does not itself
      declare the member. */
  predicate IsTypePromotion(node: VbExpr, symbol: Option<Symbol>, sm: SemanticModel) {
    if IsQualifiableInstanceReference(symbol) && node.MemberAccess? && node.expression.Some? then
      var qualifyingType := sm.typeOf(node.expression.value);
      qualifyingType.None? || !sm.containsMember(qualifyingType.value, symbol.value)
    else false
  }

  /** `CouldBeMyBaseBug`: a leftmost simple name with a default implicit
      instance, which Roslyn's expander may qualify with `MyBase`. */
  predicate CouldBeMyBaseBug(node: VbExpr, ctx: seq<Frame>, symbol: Option<Symbol>, sm: SemanticModel) {
    IsSimpleName(node) && IsLeftMostQualifier(ctx) && GetDefaultImplicitInstance(ctx, symbol, sm).Some?
  }

  /** `ShouldBeQualified`: static, or one of the two cases Roslyn's expander
      gets wrong. */
  predicate ShouldBeQualified(node: VbExpr, ctx: seq<Frame>, symbol: Option<Symbol>, sm: SemanticModel) {
    (symbol.Some? && symbol.value.isStatic) || CouldBeMyBaseBug(node, ctx, symbol, sm) || IsTypePromotion(node, symbol, sm)
  }

  /** `IsRoslynInstanceExpressionBug`: a member access on `Me`, `MyBase` or
      `MyClass`, which the simplifier would expand into an identifier. */
  predicate IsRoslynInstanceExpressionBug(node: VbExpr) {
    node.MemberAccess? && node.expression.Some? && node.expression.value.Instance?
  }

  /** `IsRoslynElementAccessBug`: a dictionary access `a!b`, which the
      simplifier would turn into `a.Item`. */
  predicate IsRoslynElementAccessBug(node: VbExpr)
    requires node.MemberAccess?
  {
    node.accessKind == DictionaryAccess
  }

  /** `NameCanBeExpanded`: not a name whose parent cannot hold a qualified
      name, nor one whose expansion duplicates an inferred field name. */
  predicate NameCanBeExpanded(ctx: seq<Frame>) {
    !(|ctx| > 0 && (ctx[0].NameColonEqualsFrame? || ctx[0].NamedFieldInitializerFrame? || ctx[0].InferredFieldInitializerFrame?))
  }

  predicate ShouldExpandName(node: VbExpr, ctx: seq<Frame>) {
    IsName(node) && NameCanBeExpanded(ctx)
  }

  predicate ShouldExpandMemberAccess(node: VbExpr, ctx: seq<Frame>, sm: SemanticModel) {
    node.MemberAccess? && !IsRoslynInstanceExpressionBug(node) && !IsRoslynElementAccessBug(node)
    && ShouldBeQualified(node, ctx, SymbolOf(node), sm)
  }

  predicate ShouldExpandBinaryExpression(node: VbExpr) {
    node.Binary? && (node.op == AndOp || node.op == OrOp)
  }

  /** `ShouldExpandNode`: whether the expander rewrites the node itself. */
  predicate ShouldExpandNode(node: VbExpr, ctx: seq<Frame>, sm: SemanticModel) {
    ShouldExpandName(node, ctx) || ShouldExpandMemberAccess(node, ctx, sm) || ShouldExpandBinaryExpression(node)
  }

  /** `ShouldExpandWithinNode`: whether the expander descends into the node. */
  predicate ShouldExpandWithinNode(node: VbExpr, ctx: seq<Frame>, sm: SemanticModel) {
    !ShouldExpandNode(node, ctx, sm) && !IsRoslynInstanceExpressionBug(node)
  }

  // ------------------------------------------------- And / Or normalisation

  /** The loop of `HandleNonShortCircuitingBooleanOperators`: the node, then
      each ancestor as long as the ancestors are expressions, is tested for a
      condition position. */
  function ConditionInChain(ctx: seq<Frame>): bool
    decreases |ctx|
  {
    AlwaysHasBooleanTypeInCSharp(ctx) || (|ctx| > 0 && IsExpressionFrame(ctx[0]) && ConditionInChain(ctx[1..]))
  }

  /** The node, or an ancestor reached through expressions only, is in a
      condition position. */
  predicate ExpressionAncestorIsCondition(ctx: seq<Frame>) {
    exists i :: 0 <= i <= |ctx| && (forall j :: 0 <= j < i ==> IsExpressionFrame(ctx[j])) && AlwaysHasBooleanTypeInCSharp(ctx[i..])
  }

  lemma {:induction false} ConditionInChainMeaning(ctx: seq<Frame>)
    ensures ConditionInChain(ctx) <==> ExpressionAncestorIsCondition(ctx)
    decreases |ctx|
  {
    assert ctx[0..] == ctx;
    if !AlwaysHasBooleanTypeInCSharp(ctx) && |ctx| > 0 && IsExpressionFrame(ctx[0]) {
      var tail := ctx[1..];
      ConditionInChainMeaning(tail);
      if ConditionInChain(tail) {
        var i :| 0 <= i <= |tail| && (forall j :: 0 <= j < i ==> IsExpressionFrame(tail[j])) && AlwaysHasBooleanTypeInCSharp(tail[i..]);
        assert ctx[i + 1..] == tail[i..];
        assert forall j :: 0 <= j < i + 1 ==> IsExpressionFrame(ctx[j]) by {
          forall j | 0 <= j < i + 1
            ensures IsExpressionFrame(ctx[j])
          {
            if j > 0 {
              assert ctx[j] == tail[j - 1];
            }
          }
        }
      }
      if ExpressionAncestorIsCondition(ctx) {
        var i :| 0 <= i <= |ctx| && (forall j :: 0 <= j < i ==> IsExpressionFrame(ctx[j])) && AlwaysHasBooleanTypeInCSharp(ctx[i..]);
        assert tail[i - 1..] == ctx[i..];
        assert forall j :: 0 <= j < i - 1 ==> IsExpressionFrame(tail[j]) by {
          forall j | 0 <= j < i - 1
            ensures IsExpressionFrame(tail[j])
          {
            assert tail[j] == ctx[j + 1];
          }
        }
      }
    }
  }

  /** The short-circuiting counterpart of `And` and `Or`. */
  function ShortCircuiting(op: VbBinOp): VbBinOp
    requires op == AndOp || op == OrOp
  {
    if op == AndOp then AndAlsoOp else OrElseOp
  }

  /** `HandleNonShortCircuitingBooleanOperators`: `None` is `false` (the node
      is not handled here); `Some(n)` is `true` with the node replaced by `n`.
      Only a binary node with a pure right operand is handled, and it is
      made short-circuiting only when both operands convert to `Boolean` and
      the node, or an ancestor reached through expressions, is a condition:
      there skipping the pure right operand cannot be observed. */
  function HandleNonShortCircuitingBooleanOperators(node: VbExpr, ctx: seq<Frame>, sm: SemanticModel): (r: Option<VbExpr>)
    ensures r.None? <==> !node.Binary? || !IsPureExpression(node.right)
    ensures r.Some? && r.value != node
            ==> && (node.op == AndOp || node.op == OrOp)
                && r.value == Binary(ShortCircuiting(node.op), node.left, node.right)
                && sm.convertedIsBoolean(node.left) && sm.convertedIsBoolean(node.right)
                && ExpressionAncestorIsCondition(ctx)
    ensures r.Some? && (node.op == AndOp || node.op == OrOp)
            && sm.convertedIsBoolean(node.left) && sm.convertedIsBoolean(node.right) && ExpressionAncestorIsCondition(ctx)
            ==> r.value != node
  {
    ConditionInChainMeaning(ctx);
    if !node.Binary? || !IsPureExpression(node.right) then None
    else if !sm.convertedIsBoolean(node.left) || !sm.convertedIsBoolean(node.right) then Some(node)
    else if ConditionInChain(ctx) && node.op == AndOp then Some(Binary(AndAlsoOp, node.left, node.right))
    else if ConditionInChain(ctx) && node.op == OrOp then Some(Binary(OrElseOp, node.left, node.right))
    else Some(node)
  }

  /** The loop form of the condition search, as the source writes it. */
  method FindConditionAncestor(ctx: seq<Frame>) returns (found: bool)
    ensures found <==> ExpressionAncestorIsCondition(ctx)
  {
    var i := 0;
    while true
      invariant 0 <= i <= |ctx|
      invariant forall j :: 0 <= j < i ==> IsExpressionFrame(ctx[j])
      invariant ConditionInChain(ctx) <==> ConditionInChain(ctx[i..])
      decreases |ctx| - i
    {
      if AlwaysHasBooleanTypeInCSharp(ctx[i..]) {
        ConditionInChainMeaning(ctx);
        return true;
      }
      if i < |ctx| && IsExpressionFrame(ctx[i]) {
        assert ctx[i..][1..] == ctx[i + 1..];
        i := i + 1;
      } else {
        break;
      }
    }
    ConditionInChainMeaning(ctx);
    return false;
  }

  // ------------------------------------------------------------ ExpandNode

  /** The leading trivia of an expression: that of its first token, as far as
      the model keeps trivia. */
  function LeadingTrivia(e: VbExpr): string {
    match e
    case IdentifierName(_, t, _) => t
    case GenericName(_, t, _) => t
    case Instance(_, t, _) => t
    case QualifiedName(q, _, _) => LeadingTrivia(q)
    case MemberAccess(_, Some(x), _, _) => LeadingTrivia(x)
    case _ => ""
  }

  /** `Me.<name>`, with the name's leading trivia moved onto `Me`; the
      rewritten node keeps the symbol the name resolved to. */
  function MeQualified(sns: VbExpr): (r: VbExpr)
    requires IsSimpleName(sns)
  {
    MemberAccess(SimpleMemberAccess, Some(Instance(Me, sns.trivia, None)), sns.identifier, SymbolOf(sns))
  }

  /** `IsReducedExtensionInExtendedTypeOrDerivedType`: an extension method
      called as an instance method from inside the type it extends or a type
      derived from it. */
  predicate IsReducedExtensionInExtendedTypeOrDerivedType(symbol: Symbol, sm: SemanticModel) {
    symbol.isReducedExtension && sm.inheritsFromOrEquals(sm.enclosingDeclaredType, symbol.receiverType)
  }

  /** `IsOriginalSymbolGenericMethod`. */
  predicate IsGenericMethod(symbol: Option<Symbol>) {
    symbol.Some? && symbol.value.isGenericMethod
  }

  /** The rewrite of a simple name with a default implicit instance, if one
      of the three rules applies: `Me.` when the enclosing type is or
      derives from the member's type, the binder's own receiver when it has
      one, `Me.` for an extension method reduced inside the extended type. */
  function ImplicitInstanceRewrite(node: VbExpr, ctx: seq<Frame>, sm: SemanticModel): (r: Option<VbExpr>)
    requires IsSimpleName(node)
    ensures r.Some? ==> r.value.MemberAccess? && r.value.identifier == node.identifier && r.value.expression.Some?
    ensures r.Some? ==> GetDefaultImplicitInstance(ctx, SymbolOf(node), sm).Some?
  {
    var symbol := SymbolOf(node);
    var dii := GetDefaultImplicitInstance(ctx, symbol, sm);
    if dii.None? then None
    else if sm.inheritsFromOrEquals(dii.value.name, symbol.value.containingType) then Some(MeQualified(node))
    else if sm.memberReference(node).Some? && sm.memberReference(node).value.instance.Some? then
      Some(MemberAccess(SimpleMemberAccess, sm.memberReference(node).value.instance, node.identifier, symbol))
    else if IsReducedExtensionInExtendedTypeOrDerivedType(symbol.value, sm) then Some(MeQualified(node))
    else None
  }

  /** The rewrite of a type-promoted member access: the binder's receiver and
      member name, bypassing the simplifier. */
  function TypePromotionRewrite(node: VbExpr, sm: SemanticModel): (r: Option<VbExpr>)
    ensures r.Some? ==> node.MemberAccess? && IsTypePromotion(node, SymbolOf(node), sm)
    ensures r.Some? ==> r.value.MemberAccess? && r.value.accessKind == SimpleMemberAccess
  {
    if node.MemberAccess? && IsTypePromotion(node, SymbolOf(node), sm)
       && sm.memberReference(node).Some? && sm.memberReference(node).value.instance.Some?
    then Some(MemberAccess(SimpleMemberAccess, sm.memberReference(node).value.instance,
                           sm.memberReference(node).value.memberName, SymbolOf(node)))
    else None
  }

  /** `ExpandNode`: the And/Or normalisation first, then the implicit
      instance rules for a simple name, then type promotion, and otherwise
      the simplifier's expansion (skipped for generic methods), tagging a
      bare identifier that names a module member. */
  function ExpandNode(node: VbExpr, ctx: seq<Frame>, sm: SemanticModel): (r: Expansion)
    ensures r.extraStaticUsing.Some?
            ==> node.IdentifierName? && SymbolOf(node).Some? && SymbolOf(node).value.isModuleMember
                && r.extraStaticUsing.value == SymbolOf(node).value.containingSymbol
    ensures HandleNonShortCircuitingBooleanOperators(node, ctx, sm).Some?
            ==> r == Expansion(HandleNonShortCircuitingBooleanOperators(node, ctx, sm).value, None)
    ensures IsGenericMethod(SymbolOf(node)) ==> r.node == node || r.node.MemberAccess? || r.node.Binary?
  {
    var handled := HandleNonShortCircuitingBooleanOperators(node, ctx, sm);
    if handled.Some? then Expansion(handled.value, None)
    else
      var symbol := SymbolOf(node);
      var implicitInstance := if IsSimpleName(node) then ImplicitInstanceRewrite(node, ctx, sm) else None;
      if implicitInstance.Some? then Expansion(implicitInstance.value, None)
      else if TypePromotionRewrite(node, sm).Some? then Expansion(TypePromotionRewrite(node, sm).value, None)
      else
        var result := if IsGenericMethod(symbol) then node else sm.expand(node);
        var tag := if node.IdentifierName? && symbol.Some? && symbol.value.isModuleMember
                   then Some(symbol.value.containingSymbol) else None;
        Expansion(result, tag)
  }

  // -------------------------------------------------------------- the walk

  /** The walk that asks the two questions above of every node, from the
      root down: a node the expander rewrites is replaced by `ExpandNode`'s
      result and not entered, so that a name is qualified once, at the
      highest level; a node it may descend into keeps its shape with its
      children walked, each at its own position; anything else is kept
      whole. The member name of a member access is a token here, not a
      node, so the walk does not visit it. */
  function ExpandTree(node: VbExpr, ctx: seq<Frame>, sm: SemanticModel): VbExpr
    decreases node
  {
    if ShouldExpandNode(node, ctx, sm) then ExpandNode(node, ctx, sm).node
    else if !ShouldExpandWithinNode(node, ctx, sm) then node
    else
      match node
      case MemberAccess(k, Some(x), id, s) =>
        MemberAccess(k, Some(ExpandTree(x, [MemberAccessExpressionFrame(k)] + ctx, sm)), id, s)
      case Invocation(t, args, s) =>
        Invocation(ExpandTree(t, [OtherExpressionFrame] + ctx, sm),
                   seq(|args|, i requires 0 <= i < |args| => ExpandTree(args[i], [ArgumentFrame] + ctx, sm)), s)
      case Parenthesized(e) => Parenthesized(ExpandTree(e, [ParenFrame] + ctx, sm))
      case Unary(op, e) => Unary(op, ExpandTree(e, [UnaryFrame(op)] + ctx, sm))
      case Binary(op, l, r) =>
        Binary(op, ExpandTree(l, [BinaryLeftFrame(op, r)] + ctx, sm), ExpandTree(r, [BinaryRightFrame(op, l)] + ctx, sm))
      case TernaryConditional(c, t, f) =>
        TernaryConditional(ExpandTree(c, [TernaryConditionFrame] + ctx, sm),
                           ExpandTree(t, [TernaryBranchFrame] + ctx, sm), ExpandTree(f, [TernaryBranchFrame] + ctx, sm))
      case Lambda(b) => Lambda(ExpandTree(b, [LambdaBodyFrame] + ctx, sm))
      case _ => node
  }

  /** No node the walk visits is one the expander rewrites. */
  predicate NothingToExpand(node: VbExpr, ctx: seq<Frame>, sm: SemanticModel)
    decreases node
  {
    && !ShouldExpandNode(node, ctx, sm)
    && (ShouldExpandWithinNode(node, ctx, sm) ==>
          match node
          case MemberAccess(k, Some(x), _, _) => NothingToExpand(x, [MemberAccessExpressionFrame(k)] + ctx, sm)
          case Invocation(t, args, _) =>
            && NothingToExpand(t, [OtherExpressionFrame] + ctx, sm)
            && (forall i :: 0 <= i < |args| ==> NothingToExpand(args[i], [ArgumentFrame] + ctx, sm))
          case Parenthesized(e) => NothingToExpand(e, [ParenFrame] + ctx, sm)
          case Unary(op, e) => NothingToExpand(e, [UnaryFrame(op)] + ctx, sm)
          case Binary(op, l, r) =>
            NothingToExpand(l, [BinaryLeftFrame(op, r)] + ctx, sm) && NothingToExpand(r, [BinaryRightFrame(op, l)] + ctx, sm)
          case TernaryConditional(c, t, f) =>
            && NothingToExpand(c, [TernaryConditionFrame] + ctx, sm)
            && NothingToExpand(t, [TernaryBranchFrame] + ctx, sm) && NothingToExpand(f, [TernaryBranchFrame] + ctx, sm)
          case Lambda(b) => NothingToExpand(b, [LambdaBodyFrame] + ctx, sm)
          case _ => true)
  }

  // ---------------------------------------------------------------- lemmas

  /** What the expander rewrites: an expandable name, a member access that is
      static or type-promoted (the implicit-instance case is for simple names
      only) and hits neither bug, or an `And` / `Or`. */
  lemma {:induction false} WhatIsExpanded(node: VbExpr, ctx: seq<Frame>, sm: SemanticModel)
    ensures ShouldExpandNode(node, ctx, sm)
            <==> (IsName(node) && NameCanBeExpanded(ctx))
                 || (node.MemberAccess? && !IsRoslynInstanceExpressionBug(node) && node.accessKind != DictionaryAccess
                     && ((SymbolOf(node).Some? && SymbolOf(node).value.isStatic) || IsTypePromotion(node, SymbolOf(node), sm)))
                 || (node.Binary? && (node.op == AndOp || node.op == OrOp))
  {
    if node.MemberAccess? {
      assert !CouldBeMyBaseBug(node, ctx, SymbolOf(node), sm);
    }
  }

  /** A name in a slot that cannot hold an expanded name is left alone. */
  lemma BlockedNamesNotExpanded(node: VbExpr, ctx: seq<Frame>, sm: SemanticModel)
    requires IsName(node)
    requires |ctx| > 0 && (ctx[0].NameColonEqualsFrame? || ctx[0].NamedFieldInitializerFrame? || ctx[0].InferredFieldInitializerFrame?)
    ensures !ShouldExpandNode(node, ctx, sm)
  {
  }

  /** The three reasons to qualify are the static case and two instance
      cases: a static symbol is never a qualifiable instance reference, so it
      is neither type-promoted nor given a default implicit instance. */
  lemma StaticExcludesInstanceCases(node: VbExpr, ctx: seq<Frame>, symbol: Option<Symbol>, sm: SemanticModel)
    requires symbol.Some? && symbol.value.isStatic
    ensures !IsTypePromotion(node, symbol, sm) && !CouldBeMyBaseBug(node, ctx, symbol, sm)
  {
  }

  /** For a simple name, the qualification question comes down to the
      symbol and the position: static, or an instance method, field or
      property in leftmost position with a named type enclosing it. Type
      promotion needs a member access, so it never applies here. The
      expander asks `ShouldBeQualified` only of member accesses, so this
      case describes the predicate, not a path the expander takes; simple
      names are expanded through `ShouldExpandName` instead. */
  lemma SimpleNameQualification(node: VbExpr, ctx: seq<Frame>, sm: SemanticModel)
    requires IsSimpleName(node)
    ensures ShouldBeQualified(node, ctx, SymbolOf(node), sm)
            <==> (SymbolOf(node).Some? && SymbolOf(node).value.isStatic)
                 || (IsQualifiableInstanceReference(SymbolOf(node)) && IsLeftMostQualifier(ctx)
                     && exists i :: 0 <= i < |sm.enclosingSymbols| && sm.enclosingSymbols[i].kind == NamedType)
  {
    assert !IsTypePromotion(node, SymbolOf(node), sm);
  }

  /** Two nodes of the same kind that agree on everything but their
      sub-expressions. */
  predicate SameKind(a: VbExpr, b: VbExpr) {
    match (a, b)
    case (MemberAccess(k1, _, id1, s1), MemberAccess(k2, _, id2, s2)) => k1 == k2 && id1 == id2 && s1 == s2
    case (Invocation(_, args1, s1), Invocation(_, args2, s2)) => |args1| == |args2| && s1 == s2
    case (Parenthesized(_), Parenthesized(_)) => true
    case (Unary(op1, _), Unary(op2, _)) => op1 == op2
    case (Binary(op1, _, _), Binary(op2, _, _)) => op1 == op2
    case (TernaryConditional(_, _, _), TernaryConditional(_, _, _)) => true
    case (Lambda(_), Lambda(_)) => true
    case _ => a == b
  }

  /** A node the walk descends into keeps its kind, operator, member name
      and symbol: only the sub-expressions below it may be rewritten. */
  lemma EnteredNodeKeepsKind(node: VbExpr, ctx: seq<Frame>, sm: SemanticModel)
    requires ShouldExpandWithinNode(node, ctx, sm)
    ensures SameKind(ExpandTree(node, ctx, sm), node)
  {
  }

  /** The normalisation is idempotent: the short-circuiting node it produces
      is handled again without change. */
  lemma NormalisationIdempotent(node: VbExpr, ctx: seq<Frame>, sm: SemanticModel)
    requires HandleNonShortCircuitingBooleanOperators(node, ctx, sm).Some?
    ensures var n := HandleNonShortCircuitingBooleanOperators(node, ctx, sm).value;
            HandleNonShortCircuitingBooleanOperators(n, ctx, sm) == Some(n)
  {
    var n := HandleNonShortCircuitingBooleanOperators(node, ctx, sm).value;
    if n != node {
      assert n.right == node.right && n.op != AndOp && n.op != OrOp;
    }
  }

  /** The node the normalisation produces is not one the expander rewrites
      again, nor is any node left short-circuiting to begin with. */
  lemma NormalisedNotExpandedAgain(node: VbExpr, ctx: seq<Frame>, sm: SemanticModel)
    requires HandleNonShortCircuitingBooleanOperators(node, ctx, sm).Some?
    requires HandleNonShortCircuitingBooleanOperators(node, ctx, sm).value != node
    ensures !ShouldExpandNode(HandleNonShortCircuitingBooleanOperators(node, ctx, sm).value, ctx, sm)
  {
  }

  /** A `Me.`-qualified name keeps the name and its leading trivia, and is a
      fixed point of the expander: a member access on `Me` is neither
      rewritten nor descended into. */
  lemma MeQualifiedIsFinal(sns: VbExpr, ctx: seq<Frame>, sm: SemanticModel)
    requires IsSimpleName(sns)
    ensures LeadingTrivia(MeQualified(sns)) == LeadingTrivia(sns)
    ensures MeQualified(sns).identifier == sns.identifier
    ensures !ShouldExpandNode(MeQualified(sns), ctx, sm) && !ShouldExpandWithinNode(MeQualified(sns), ctx, sm)
    ensures ExpandTree(MeQualified(sns), ctx, sm) == MeQualified(sns)
  {
  }

  /** The first implicit-instance rule: a leftmost instance member of the
      enclosing type or one of its bases becomes `Me.<name>`, whatever the
      simplifier would have done. */
  lemma ImplicitMeQualification(node: VbExpr, ctx: seq<Frame>, sm: SemanticModel, enclosing: Symbol)
    requires IsSimpleName(node) && IsQualifiableInstanceReference(SymbolOf(node)) && IsLeftMostQualifier(ctx)
    requires EnclosingSymbol(sm.enclosingSymbols, NamedType) == Some(enclosing)
    requires sm.inheritsFromOrEquals(enclosing.name, SymbolOf(node).value.containingType)
    ensures ShouldExpandNode(node, ctx, sm) <==> NameCanBeExpanded(ctx)
    ensures ExpandNode(node, ctx, sm) == Expansion(MeQualified(node), None)
  {
  }

  /** A generic method that no custom rule rewrites is left as it is rather
      than handed to the simplifier, and a bare identifier naming a module
      member is tagged with its module. */
  lemma DefaultExpansion(node: VbExpr, ctx: seq<Frame>, sm: SemanticModel)
    requires !node.Binary? && !IsSimpleName(node) && TypePromotionRewrite(node, sm).None?
    ensures ExpandNode(node, ctx, sm).node == (if IsGenericMethod(SymbolOf(node)) then node else sm.expand(node))
    ensures ExpandNode(node, ctx, sm).extraStaticUsing.None?
  {
  }

  /** A bare identifier naming a module member, reached by no custom rule,
      is expanded by the simplifier (or kept, for a generic method) and
      tagged with the module that needs a `using static`. */
  lemma ModuleMemberTagged(node: VbExpr, ctx: seq<Frame>, sm: SemanticModel)
    requires node.IdentifierName? && SymbolOf(node).Some? && SymbolOf(node).value.isModuleMember
    requires ImplicitInstanceRewrite(node, ctx, sm).None?
    ensures ExpandNode(node, ctx, sm).extraStaticUsing == Some(SymbolOf(node).value.containingSymbol)
    ensures ExpandNode(node, ctx, sm).node == (if IsGenericMethod(SymbolOf(node)) then node else sm.expand(node))
  {
  }

  /** The name part of `a.b` or `a?.b` is never qualified on its own: it has
      no default implicit instance, so it is neither a possible `MyBase` case
      nor given `Me.`, and falls through to the simplifier (or is kept, for a
      generic method). */
  lemma NamePartNotQualifiedAlone(node: VbExpr, ctx: seq<Frame>, sm: SemanticModel)
    requires IsSimpleName(node)
    requires |ctx| > 0 && (ctx[0].MemberAccessNameFrame? || ctx[0].ConditionalAccessWhenNotNullFrame?)
    ensures GetDefaultImplicitInstance(ctx, SymbolOf(node), sm).None?
    ensures !CouldBeMyBaseBug(node, ctx, SymbolOf(node), sm)
    ensures ExpandNode(node, ctx, sm).node == (if IsGenericMethod(SymbolOf(node)) then node else sm.expand(node))
  {
  }

  /** A type-promoted member access is rewritten unless it is one of the two
      bug shapes, and the rewrite is the binder's receiver with the member's
      name, still resolving to the same symbol. */
  lemma TypePromotionExpanded(node: VbExpr, ctx: seq<Frame>, sm: SemanticModel, receiver: VbExpr, name: string)
    requires node.MemberAccess? && IsTypePromotion(node, SymbolOf(node), sm)
    requires sm.memberReference(node) == Some(MemberReference(Some(receiver), name))
    ensures ShouldExpandNode(node, ctx, sm) <==> node.accessKind != DictionaryAccess && !IsRoslynInstanceExpressionBug(node)
    ensures ExpandNode(node, ctx, sm) == Expansion(MemberAccess(SimpleMemberAccess, Some(receiver), name, SymbolOf(node)), None)
    ensures SymbolOf(ExpandNode(node, ctx, sm).node) == SymbolOf(node)
  {
  }

  /** A member access on a receiver that is `Me`, `MyBase` or `MyClass`, or
      whose type declares the member, is not rewritten: the expander's output
      for a resolved promotion or binder receiver is final. */
  lemma ResolvedAccessFinal(receiver: VbExpr, name: string, symbol: Option<Symbol>, ctx: seq<Frame>, sm: SemanticModel)
    requires IsQualifiableInstanceReference(symbol)
    requires receiver.Instance? || (sm.typeOf(receiver).Some? && sm.containsMember(sm.typeOf(receiver).value, symbol.value))
    ensures !ShouldExpandNode(MemberAccess(SimpleMemberAccess, Some(receiver), name, symbol), ctx, sm)
  {
  }

  /** The promoted access, once its receiver's type declares the member, is
      not rewritten a second time. */
  lemma PromotedAccessFinal(node: VbExpr, ctx: seq<Frame>, sm: SemanticModel, receiver: VbExpr, name: string)
    requires node.MemberAccess? && IsTypePromotion(node, SymbolOf(node), sm)
    requires sm.memberReference(node) == Some(MemberReference(Some(receiver), name))
    requires receiver.Instance? || (sm.typeOf(receiver).Some? && sm.containsMember(sm.typeOf(receiver).value, SymbolOf(node).value))
    ensures !ShouldExpandNode(ExpandNode(node, ctx, sm).node, ctx, sm)
  {
    TypePromotionExpanded(node, ctx, sm, receiver, name);
    ResolvedAccessFinal(receiver, name, SymbolOf(node), ctx, sm);
  }

  /** The second implicit-instance rule: when the enclosing type does not
      derive from the member's type, the name is qualified with the receiver
      the binder found, keeping the name and its symbol; that access is final
      when the receiver is an instance expression or declares the member. */
  lemma BinderReceiverQualification(node: VbExpr, ctx: seq<Frame>, sm: SemanticModel, enclosing: Symbol, receiver: VbExpr, name: string)
    requires IsSimpleName(node) && IsQualifiableInstanceReference(SymbolOf(node)) && IsLeftMostQualifier(ctx)
    requires EnclosingSymbol(sm.enclosingSymbols, NamedType) == Some(enclosing)
    requires !sm.inheritsFromOrEquals(enclosing.name, SymbolOf(node).value.containingType)
    requires sm.memberReference(node) == Some(MemberReference(Some(receiver), name))
    ensures ExpandNode(node, ctx, sm) == Expansion(MemberAccess(SimpleMemberAccess, Some(receiver), node.identifier, SymbolOf(node)), None)
    ensures receiver.Instance? || (sm.typeOf(receiver).Some? && sm.containsMember(sm.typeOf(receiver).value, SymbolOf(node).value))
            ==> !ShouldExpandNode(ExpandNode(node, ctx, sm).node, ctx, sm)
  {
    if receiver.Instance? || (sm.typeOf(receiver).Some? && sm.containsMember(sm.typeOf(receiver).value, SymbolOf(node).value)) {
      ResolvedAccessFinal(receiver, node.identifier, SymbolOf(node), ctx, sm);
    }
  }

  /** The third rule: an extension method reduced to an instance call inside
      the type it extends, with no binder receiver, becomes `Me.<name>`. */
  lemma ReducedExtensionQualification(node: VbExpr, ctx: seq<Frame>, sm: SemanticModel, enclosing: Symbol)
    requires IsSimpleName(node) && IsQualifiableInstanceReference(SymbolOf(node)) && IsLeftMostQualifier(ctx)
    requires EnclosingSymbol(sm.enclosingSymbols, NamedType) == Some(enclosing)
    requires !sm.inheritsFromOrEquals(enclosing.name, SymbolOf(node).value.containingType)
    requires sm.memberReference(node).None? || sm.memberReference(node).value.instance.None?
    requires IsReducedExtensionInExtendedTypeOrDerivedType(SymbolOf(node).value, sm)
    ensures ExpandNode(node, ctx, sm) == Expansion(MeQualified(node), None)
  {
  }

  /** `Me.x`, `MyBase.x` and `MyClass.x` come out of the walk exactly as
      they went in, receiver and all: the simplifier never sees them. */
  lemma InstanceAccessKeptWhole(node: VbExpr, ctx: seq<Frame>, sm: SemanticModel)
    requires IsRoslynInstanceExpressionBug(node)
    ensures ExpandTree(node, ctx, sm) == node
  {
  }

  /** A qualified name in a slot that may hold one is handed whole to the
      simplifier, which qualifies it at once: its qualifier is not walked
      and qualified on its own. */
  lemma QualifiedNameExpandedWhole(node: VbExpr, ctx: seq<Frame>, sm: SemanticModel)
    requires node.QualifiedName? && NameCanBeExpanded(ctx) && !IsGenericMethod(SymbolOf(node))
    ensures ExpandTree(node, ctx, sm) == sm.expand(node)
  {
  }

  /** A static member access is handed whole to the simplifier; an instance
      access on a receiver whose type declares the member is entered, and
      only its receiver is walked. */
  lemma StaticAccessExpandedWhole(node: VbExpr, ctx: seq<Frame>, sm: SemanticModel)
    requires node.MemberAccess? && node.accessKind == SimpleMemberAccess && node.expression.Some?
    requires !node.expression.value.Instance?
    requires SymbolOf(node).Some? && !IsGenericMethod(SymbolOf(node))
    requires SymbolOf(node).value.isStatic
    ensures ExpandTree(node, ctx, sm) == sm.expand(node)
  {
  }

  lemma InstanceAccessEntered(node: VbExpr, ctx: seq<Frame>, sm: SemanticModel)
    requires node.MemberAccess? && node.expression.Some? && !node.expression.value.Instance?
    requires IsQualifiableInstanceReference(SymbolOf(node))
    requires sm.typeOf(node.expression.value).Some? && sm.containsMember(sm.typeOf(node.expression.value).value, SymbolOf(node).value)
    ensures ExpandTree(node, ctx, sm)
            == MemberAccess(node.accessKind, Some(ExpandTree(node.expression.value, [MemberAccessExpressionFrame(node.accessKind)] + ctx, sm)),
                            node.identifier, node.sym)
  {
  }

  /** The walk changes nothing but the nodes the expander rewrites: a tree
      in which no visited node is rewritten comes out as it went in. */
  lemma {:induction false} UntouchedTreeKept(node: VbExpr, ctx: seq<Frame>, sm: SemanticModel)
    requires NothingToExpand(node, ctx, sm)
    ensures ExpandTree(node, ctx, sm) == node
    decreases node
  {
    if ShouldExpandWithinNode(node, ctx, sm) {
      match node
      case MemberAccess(k, Some(x), _, _) => UntouchedTreeKept(x, [MemberAccessExpressionFrame(k)] + ctx, sm);
      case Invocation(t, args, s) =>
        UntouchedTreeKept(t, [OtherExpressionFrame] + ctx, sm);
        forall i | 0 <= i < |args|
          ensures ExpandTree(args[i], [ArgumentFrame] + ctx, sm) == args[i]
        {
          UntouchedTreeKept(args[i], [ArgumentFrame] + ctx, sm);
        }
        assert seq(|args|, i requires 0 <= i < |args| => ExpandTree(args[i], [ArgumentFrame] + ctx, sm)) == args;
      case Parenthesized(e) => UntouchedTreeKept(e, [ParenFrame] + ctx, sm);
      case Unary(op, e) => UntouchedTreeKept(e, [UnaryFrame(op)] + ctx, sm);
      case Binary(op, l, r) =>
        UntouchedTreeKept(l, [BinaryLeftFrame(op, r)] + ctx, sm);
        UntouchedTreeKept(r, [BinaryRightFrame(op, l)] + ctx, sm);
      case TernaryConditional(c, t, f) =>
        UntouchedTreeKept(c, [TernaryConditionFrame] + ctx, sm);
        UntouchedTreeKept(t, [TernaryBranchFrame] + ctx, sm);
        UntouchedTreeKept(f, [TernaryBranchFrame] + ctx, sm);
      case Lambda(b) => UntouchedTreeKept(b, [LambdaBodyFrame] + ctx, sm);
      case _ =>
    }
  }
}

=== FILE: null_flow.dfy ===
/** The null-flow lookup of the nullable lowering: an operand that is a bare
    identifier is known to be non-null (or null) when the expression is only
    evaluated after a check on that identifier succeeded, as in
    `x.HasValue AndAlso x > 3`. */
module NullFlow {
  import opened Options
  import opened VbSyntax
  import opened SyntaxExtensions
  import opened VbSemantics
  import opened Revisions

  /** `KnownNullability`; `None` of it means not known. */
  datatype KnownNullability = Null | NotNull

  /** Whether a known nullability is the truth about a variable. */
  predicate Holds(k: KnownNullability, name: string, nulls: string -> bool) {
    (k == Null) == nulls(ToUpper(name))
  }

  predicate MatchesNothing(e: VbExpr) {
    SkipIntoParens(e) == Literal(NothingLiteral)
  }

  predicate MatchesIdentifier(e: VbExpr, name: string) {
    var s := SkipIntoParens(e);
    s.IdentifierName? && EqualsIgnoreCase(name, s.identifier)
  }

  /** `ContainsIdentifierAndNothing`: one side is the identifier, the other
      `Nothing`, either way round. */
  predicate ContainsIdentifierAndNothing(l: VbExpr, r: VbExpr, name: string) {
    (MatchesIdentifier(l, name) && MatchesNothing(r)) || (MatchesNothing(l) && MatchesIdentifier(r, name))
  }

  /** Whether `name` occurs in `e` as a variable the lookup can test: a bare
      identifier, the receiver of a member access, or inside parentheses,
      `Not` or a binary operator. */
  predicate Mentions(e: VbExpr, name: string) {
    match e
    case IdentifierName(id, _, _) => EqualsIgnoreCase(name, id)
    case MemberAccess(_, Some(x), _, _) => Mentions(x, name)
    case Parenthesized(i) => Mentions(i, name)
    case Unary(_, o) => Mentions(o, name)
    case Binary(_, l, r) => Mentions(l, name) || Mentions(r, name)
    case _ => false
  }

  /** A variable found under the parentheses occurs in the whole. */
  lemma {:induction false} PeeledMentions(e: VbExpr, name: string)
    ensures Mentions(SkipIntoParens(e), name) ==> Mentions(e, name)
  {
    if e.Parenthesized? {
      PeeledMentions(e.inner, name);
    }
  }

  /** What `expression` evaluating to `expressionResult` tells about the
      variable `name`. As written, an `And` or `AndAlso` answers from either
      side whatever the assumed result; the corrected reading does that only
      when the result is `True` and otherwise asks both sides to agree, as
      `Or` and `OrElse` always do. */
  function GetNullabilityWithinBooleanExpression(rev: Revision, name: string, expression: VbExpr, expressionResult: bool)
    : (r: Option<KnownNullability>)
    ensures r.Some? ==> Mentions(expression, name)
    decreases expression, 1
  {
    if HasValueAccess(expression).Some? && EqualsIgnoreCase(HasValueAccess(expression).value, name) then
      Some(if expressionResult then NotNull else Null)
    else if expression.Binary? then
      GetNullabilityWithinBinaryExpression(rev, name, expression, expressionResult)
    else if expression.Unary? && expression.unOp == NotOp then
      GetNullabilityWithinBooleanExpression(rev, name, expression.operand, !expressionResult)
    else None
  }

  function GetNullabilityWithinBinaryExpression(rev: Revision, name: string, bin: VbExpr, expressionResult: bool)
    : (r: Option<KnownNullability>)
    requires bin.Binary?
    ensures r.Some? ==> Mentions(bin, name)
    decreases bin, 0
  {
    PeeledMentions(bin.left, name);
    PeeledMentions(bin.right, name);
    if bin.op == IsOp && ContainsIdentifierAndNothing(bin.left, bin.right, name) then
      Some(if expressionResult then Null else NotNull)
    else if bin.op == IsNotOp && ContainsIdentifierAndNothing(bin.left, bin.right, name) then
      Some(if expressionResult then NotNull else Null)
    else if bin.op == AndAlsoOp || bin.op == AndOp then
      var left := GetNullabilityWithinBooleanExpression(rev, name, bin.left, expressionResult);
      var right := GetNullabilityWithinBooleanExpression(rev, name, bin.right, expressionResult);
      if expressionResult || rev == AsWritten then left.OrElse(right)
      else if left == right then left else None
    else if bin.op == OrElseOp || bin.op == OrOp then
      var left := GetNullabilityWithinBooleanExpression(rev, name, bin.left, expressionResult);
      var right := GetNullabilityWithinBooleanExpression(rev, name, bin.right, expressionResult);
      if left == right then left else None
    else None
  }

  /** The walk up from an operand: starting at its grandparent, through
      binary ancestors only, a child that is the right operand of an
      `AndAlso` (`OrElse`) learns what the left operand being `True`
      (`False`) implies. Frame `i` relates the walk's current child to the
      binary node above it. */
  function WalkUp(rev: Revision, name: string, ctx: seq<Frame>, i: nat, childIsExpression: bool)
    : (r: Option<KnownNullability>)
    ensures r.Some? ==> exists j :: i <= j < |ctx| && ctx[j].BinaryRightFrame? && (ctx[j].op == AndAlsoOp || ctx[j].op == OrElseOp)
                                    && Mentions(ctx[j].left, name)
    decreases |ctx| - i
  {
    if i >= |ctx| || !IsBinaryFrame(ctx[i]) then None
    else
      var f := ctx[i];
      var found :=
        if f.BinaryRightFrame? && childIsExpression then
          if f.op == AndAlsoOp then GetNullabilityWithinBooleanExpression(rev, name, f.left, true)
          else if f.op == OrElseOp then GetNullabilityWithinBooleanExpression(rev, name, f.left, false)
          else None
        else None;
      if found.Some? then found else WalkUp(rev, name, ctx, i + 1, true)
  }

  /** `GetNullabilityWithinBooleanExpression(original)` for the operand
      `original` whose ancestor path is `ctx`: only a bare identifier, perhaps
      parenthesised, is looked up. */
  function GetNullabilityOfOperand(rev: Revision, original: VbExpr, ctx: seq<Frame>): (r: Option<KnownNullability>)
    ensures r.Some? ==> SkipIntoParens(original).IdentifierName?
  {
    var s := SkipIntoParens(original);
    if !s.IdentifierName? then None
    else WalkUp(rev, s.identifier, ctx, 1, |ctx| > 0 && IsExpressionFrame(ctx[0]))
  }

  // ------------------------------------------------------------- soundness

  /** Corrected lookups are sound: whenever `expression` does not evaluate to
      the opposite of the assumed result (it evaluates to it, or to
      `Nothing`), the answer is the truth about the variable. */
  lemma {:induction false} WithinSound(name: string, expression: VbExpr, expressionResult: bool,
                                       nulls: string -> bool, atom: VbExpr -> Option<bool>)
    requires GetNullabilityWithinBooleanExpression(Corrected, name, expression, expressionResult).Some?
    requires Truth(expression, nulls, atom) != Some(!expressionResult)
    ensures Holds(GetNullabilityWithinBooleanExpression(Corrected, name, expression, expressionResult).value, name, nulls)
    decreases expression, 2
  {
    if HasValueAccess(expression).Some? && EqualsIgnoreCase(HasValueAccess(expression).value, name) {
    } else if expression.Binary? {
      WithinBinarySound(name, expression, expressionResult, nulls, atom);
    } else {
      WithinSound(name, expression.operand, !expressionResult, nulls, atom);
    }
  }

  lemma {:induction false} WithinBinarySound(name: string, bin: VbExpr, expressionResult: bool,
                                             nulls: string -> bool, atom: VbExpr -> Option<bool>)
    requires bin.Binary?
    requires GetNullabilityWithinBinaryExpression(Corrected, name, bin, expressionResult).Some?
    requires Truth(bin, nulls, atom) != Some(!expressionResult)
    ensures Holds(GetNullabilityWithinBinaryExpression(Corrected, name, bin, expressionResult).value, name, nulls)
    decreases bin, 1
  {
    var tl := Truth(bin.left, nulls, atom);
    var tr := Truth(bin.right, nulls, atom);
    var left := GetNullabilityWithinBooleanExpression(Corrected, name, bin.left, expressionResult);
    var right := GetNullabilityWithinBooleanExpression(Corrected, name, bin.right, expressionResult);
    if (bin.op == IsOp || bin.op == IsNotOp) && ContainsIdentifierAndNothing(bin.left, bin.right, name) {
      assert NullTest(bin.left, bin.right).Some?;
      assert EqualsIgnoreCase(NullTest(bin.left, bin.right).value, name);
    } else if bin.op == AndAlsoOp || bin.op == AndOp {
      WithinConjunctionSound(name, bin, expressionResult, nulls, atom);
    } else {
      if tl != Some(!expressionResult) {
        WithinSound(name, bin.left, expressionResult, nulls, atom);
      } else {
        WithinSound(name, bin.right, expressionResult, nulls, atom);
      }
    }
  }

  /** The `AndAlso`/`And` case: assumed true, either side's answer holds; assumed
      false, the corrected lookup answers only when both sides agree, and one
      of them was not known to be true. */
  lemma {:induction false} WithinConjunctionSound(name: string, bin: VbExpr, expressionResult: bool,
                                                  nulls: string -> bool, atom: VbExpr -> Option<bool>)
    requires bin.Binary? && (bin.op == AndAlsoOp || bin.op == AndOp)
    requires GetNullabilityWithinBinaryExpression(Corrected, name, bin, expressionResult).Some?
    requires Truth(bin, nulls, atom) != Some(!expressionResult)
    ensures Holds(GetNullabilityWithinBinaryExpression(Corrected, name, bin, expressionResult).value, name, nulls)
    decreases bin, 0
  {
    var left := GetNullabilityWithinBooleanExpression(Corrected, name, bin.left, expressionResult);
    if expressionResult {
      if left.Some? {
        WithinSound(name, bin.left, expressionResult, nulls, atom);
      } else {
        WithinSound(name, bin.right, expressionResult, nulls, atom);
      }
    } else if Truth(bin.left, nulls, atom) != Some(true) {
      WithinSound(name, bin.left, expressionResult, nulls, atom);
    } else {
      WithinSound(name, bin.right, expressionResult, nulls, atom);
    }
  }

  /** Evaluation reaches the node at the bottom of `ctx`: no `AndAlso` above
      it, with the node on its right, has a `False` left operand, and no such
      `OrElse` a `True` one. */
  predicate Reaches(ctx: seq<Frame>, nulls: string -> bool, atom: VbExpr -> Option<bool>) {
    forall i :: 0 <= i < |ctx| && ctx[i].BinaryRightFrame? ==>
      (ctx[i].op == AndAlsoOp ==> Truth(ctx[i].left, nulls, atom) != Some(false))
      && (ctx[i].op == OrElseOp ==> Truth(ctx[i].left, nulls, atom) != Some(true))
  }

  lemma {:induction false} WalkUpSound(name: string, ctx: seq<Frame>, i: nat, childIsExpression: bool,
                                       nulls: string -> bool, atom: VbExpr -> Option<bool>)
    requires WalkUp(Corrected, name, ctx, i, childIsExpression).Some?
    requires Reaches(ctx, nulls, atom)
    ensures Holds(WalkUp(Corrected, name, ctx, i, childIsExpression).value, name, nulls)
    decreases |ctx| - i
  {
    var f := ctx[i];
    if f.BinaryRightFrame? && childIsExpression && f.op == AndAlsoOp
       && GetNullabilityWithinBooleanExpression(Corrected, name, f.left, true).Some? {
      WithinSound(name, f.left, true, nulls, atom);
    } else if f.BinaryRightFrame? && childIsExpression && f.op == OrElseOp
       && GetNullabilityWithinBooleanExpression(Corrected, name, f.left, false).Some? {
      WithinSound(name, f.left, false, nulls, atom);
    } else {
      WalkUpSound(name, ctx, i + 1, true, nulls, atom);
    }
  }

  /** Whenever evaluation reaches an operand, what the corrected lookup says
      about it is true of the variable it names. */
  lemma OperandNullabilitySound(original: VbExpr, ctx: seq<Frame>, nulls: string -> bool, atom: VbExpr -> Option<bool>)
    requires GetNullabilityOfOperand(Corrected, original, ctx).Some?
    requires Reaches(ctx, nulls, atom)
    ensures Holds(GetNullabilityOfOperand(Corrected, original, ctx).value, SkipIntoParens(original).identifier, nulls)
  {
    var s := SkipIntoParens(original);
    WalkUpSound(s.identifier, ctx, 1, |ctx| > 0 && IsExpressionFrame(ctx[0]), nulls, atom);
  }

  // ------------------------------------------------------- the discrepancy

  /** The example `If Not x.HasValue AndAlso b OrElse x <> 5 Then`, which
      parses as `(Not x.HasValue AndAlso b) OrElse (x <> 5)`, with `x` null
      and `b` false. `ExampleCtx` is the ancestor path of the `x` in
      `x <> 5`. */
  const ExampleX: VbExpr := IdentifierName("x", "", None)
  const ExampleB: VbExpr := IdentifierName("b", "", None)
  const ExampleHasValue: VbExpr := MemberAccess(SimpleMemberAccess, Some(ExampleX), "HasValue", None)
  const ExampleGuard: VbExpr := Binary(AndAlsoOp, Unary(NotOp, ExampleHasValue), ExampleB)
  const ExampleCtx: seq<Frame> :=
    [BinaryLeftFrame(NotEqualsOp, Literal(IntegerLiteral(5))), BinaryRightFrame(OrElseOp, ExampleGuard), ConditionFrame(IfStatement)]
  const AllNull: string -> bool := (n: string) => true
  const AllFalse: VbExpr -> Option<bool> := (e: VbExpr) => Some(false)

  /** Of the example's parts, only `x.HasValue` reads `HasValue`. */
  lemma ExampleAccesses()
    ensures HasValueAccess(ExampleHasValue) == Some("x")
    ensures HasValueAccess(ExampleB) == None
  {
    assert EqualsIgnoreCase("HasValue", "HasValue");
  }

  /** `Not hv AndAlso b` is false when `hv` and `b` are both false. */
  lemma GuardTruth(hv: VbExpr, b: VbExpr, nulls: string -> bool, atom: VbExpr -> Option<bool>)
    requires Truth(hv, nulls, atom) == Some(false) && Truth(b, nulls, atom) == Some(false)
    ensures Truth(Binary(AndAlsoOp, Unary(NotOp, hv), b), nulls, atom) == Some(false)
  {
    assert Truth(Unary(NotOp, hv), nulls, atom) == Some(true);
  }

  /** `Not hv` being false, for `hv` a `HasValue` test of `name`, says `name`
      has a value. */
  lemma NotHasValueFalse(rev: Revision, name: string, hv: VbExpr)
    requires HasValueAccess(hv) == Some(name)
    ensures GetNullabilityWithinBooleanExpression(rev, name, Unary(NotOp, hv), false) == Some(NotNull)
  {
    assert GetNullabilityWithinBooleanExpression(rev, name, hv, true) == Some(NotNull);
  }

  /** `l AndAlso r` being false: as written either operand's answer for being
      false is taken, corrected only an answer both give. */
  lemma AndAlsoFalseLookup(rev: Revision, name: string, l: VbExpr, r: VbExpr)
    ensures var left := GetNullabilityWithinBooleanExpression(rev, name, l, false);
            var right := GetNullabilityWithinBooleanExpression(rev, name, r, false);
            GetNullabilityWithinBooleanExpression(rev, name, Binary(AndAlsoOp, l, r), false)
            == (if rev == AsWritten then left.OrElse(right) else if left == right then left else None)
  {
    var bin := Binary(AndAlsoOp, l, r);
    assert HasValueAccess(bin) == None;
    assert GetNullabilityWithinBooleanExpression(rev, name, bin, false)
        == GetNullabilityWithinBinaryExpression(rev, name, bin, false);
  }

  /** With `x` null and `b` false the guard is false, so the `OrElse`
      evaluates `x <> 5`. */
  lemma ExampleReached()
    ensures Truth(ExampleGuard, AllNull, AllFalse) == Some(false)
    ensures Reaches(ExampleCtx, AllNull, AllFalse)
  {
    ExampleAccesses();
    assert Truth(ExampleHasValue, AllNull, AllFalse) == Some(false);
    assert Truth(ExampleB, AllNull, AllFalse) == Some(false);
    GuardTruth(ExampleHasValue, ExampleB, AllNull, AllFalse);
    ReachesUnderFalseGuard(ExampleCtx[0], ExampleGuard, ExampleCtx[2], AllNull, AllFalse);
  }

  /** A path whose one right-operand frame sits under an `OrElse` with a false
      left operand is reached. */
  lemma ReachesUnderFalseGuard(below: Frame, guard: VbExpr, above: Frame, nulls: string -> bool, atom: VbExpr -> Option<bool>)
    requires !below.BinaryRightFrame? && !above.BinaryRightFrame?
    requires Truth(guard, nulls, atom) == Some(false)
    ensures Reaches([below, BinaryRightFrame(OrElseOp, guard), above], nulls, atom)
  {
  }

  /** As written, `Not x.HasValue AndAlso b` being false says `x` has a
      value, from its left operand alone. */
  lemma ExampleAsWrittenLookup()
    ensures GetNullabilityWithinBooleanExpression(AsWritten, "x", ExampleGuard, false) == Some(NotNull)
  {
    ExampleAccesses();
    NotHasValueFalse(AsWritten, "x", ExampleHasValue);
    AndAlsoFalseLookup(AsWritten, "x", Unary(NotOp, ExampleHasValue), ExampleB);
  }

  /** Corrected, the two operands of the `AndAlso` disagree and nothing is
      concluded. */
  lemma ExampleCorrectedLookup()
    ensures GetNullabilityWithinBooleanExpression(Corrected, "x", ExampleGuard, false) == None
  {
    ExampleAccesses();
    NotHasValueFalse(Corrected, "x", ExampleHasValue);
    assert GetNullabilityWithinBooleanExpression(Corrected, "x", ExampleB, false) == None;
    AndAlsoFalseLookup(Corrected, "x", Unary(NotOp, ExampleHasValue), ExampleB);
  }

  /** In `If Not x.HasValue AndAlso b OrElse x <> 5 Then`, the guard is false
      when `b` is false, whatever `x` holds, and evaluation reaches `x <> 5`
      with `x` null; as written, the lookup still concludes that `x` is not
      null, while the corrected lookup concludes nothing. */
  lemma AndUnderFalseAsWrittenUnsound()
    ensures Reaches(ExampleCtx, AllNull, AllFalse)
    ensures GetNullabilityOfOperand(AsWritten, ExampleX, ExampleCtx) == Some(NotNull)
    ensures !Holds(NotNull, "x", AllNull)
    ensures GetNullabilityOfOperand(Corrected, ExampleX, ExampleCtx) == None
  {
    ExampleReached();
    ExampleAsWrittenLookup();
    ExampleCorrectedLookup();
    assert WalkUp(AsWritten, "x", ExampleCtx, 1, true) == Some(NotNull);
    assert WalkUp(Corrected, "x", ExampleCtx, 2, true) == None;
    assert WalkUp(Corrected, "x", ExampleCtx, 1, true) == None;
  }

  /** Under parentheses the lookup stops: `Not (…)` wraps its operand in a
      parenthesized node, on which neither reading concludes anything, so
      `If Not (Not x.HasValue AndAlso b) AndAlso x < 5` cannot show the
      discrepancy. */
  lemma ParenthesizedGuardSaysNothing(rev: Revision, name: string, e: VbExpr, result: bool)
    ensures GetNullabilityWithinBooleanExpression(rev, name, Unary(NotOp, Parenthesized(e)), result) == None
  {
    assert HasValueAccess(Unary(NotOp, Parenthesized(e))) == None;
    assert HasValueAccess(Parenthesized(e)) == None;
  }
}

=== FILE: nullable_converter.dfy ===
/** `VisualBasicNullableExpressionsConverter`: rewrites a Visual Basic binary
    operator on nullable operands into C# that reproduces Visual Basic's
    three-valued result, evaluating each operand that might have side effects
    as often as Visual Basic would. */
module NullableExpressionsConverter {
  import opened Options
  import opened VbSyntax
  import opened CsSyntax
  import opened SyntaxExtensions
  import opened VbSyntaxNodeExtensions
  import opened NullableTypesLogicExtensions
  import opened Revisions
  import NullFlow
  import BooleanContext

  /** What the semantic model says of an operand: whether its own type and
      the type it is converted to are `Nullable(Of T)`. */
  datatype TypeInfo = TypeInfo(typeIsNullable: bool, convertedTypeIsNullable: bool)

  /** The answers about the Visual Basic operands that the templates branch
      on: `collapse` is `CanConvertToBoolean` of the operator node, then
      `IsNullable`, `IsSafelyReusable` of each operand and
      `IsPureExpression` of the right one. */
  datatype Facts = Facts(
    collapse: bool,
    lhsNullable: bool,
    rhsNullable: bool,
    lhsReusable: bool,
    rhsReusable: bool,
    rhsPure: bool)

  /** A lowered expression, whether it carries the not-nullable annotation,
      and the pattern-variable counter after lowering it. */
  datatype Lowering = Lowering(expr: CsExpr, notNullable: bool, counter: nat)

  /** A pattern that captures an operand, the variable it declares, and the
      counter after allocating that variable. */
  datatype Capture = Capture(pattern: CsExpr, name: CsExpr, counter: nat)

  /** `GetArgName`: the counter is incremented before use, so names start at
      `arg1` and are never repeated. */
  function GetArgName(counter: nat): (id: nat)
    ensures id > counter
  {
    counter + 1
  }

  /** `PatternVar`: `expr is var argN`. */
  function PatternVar(expr: CsExpr, counter: nat): (r: Capture)
    ensures r.counter > counter && r.name == Arg(r.counter)
  {
    var id := GetArgName(counter);
    Capture(IsVarPattern(expr, id), Arg(id), id)
  }

  /** `PatternObject`: `expr is { } argN`. */
  function PatternObject(expr: CsExpr, counter: nat): (r: Capture)
    ensures r.counter > counter && r.name == Arg(r.counter)
  {
    var id := GetArgName(counter);
    Capture(IsObjectPattern(expr, id), Arg(id), id)
  }

  /** `NegatedPatternObject`: `expr is not { } argN`. */
  function NegatedPatternObject(expr: CsExpr, counter: nat): (r: Capture)
    ensures r.counter > counter && r.name == Arg(r.counter)
  {
    var id := GetArgName(counter);
    Capture(IsNotObjectPattern(expr, id), Arg(id), id)
  }

  /** `IsSupported`: the six comparisons, `OrElse` and `AndAlso`. */
  predicate IsSupported(op: VbBinOp) {
    match op
    case EqualsOp => true
    case NotEqualsOp => true
    case GreaterThanOp => true
    case GreaterThanOrEqualOp => true
    case LessThanOp => true
    case LessThanOrEqualOp => true
    case OrElseOp => true
    case AndAlsoOp => true
    case _ => false
  }

  /** `IsNullable`: the operand's type is nullable, its C# form is not marked
      as already lowered to a non-null value, and the null-flow lookup does
      not know it to be non-null. `rev` selects the null-flow lookup as
      written or corrected. */
  predicate IsNullable(rev: Revision, vbOperand: VbExpr, operandCtx: seq<Frame>, csOperand: CsExpr, typeInfo: TypeInfo,
                       tagged: CsExpr -> bool)
  {
    typeInfo.typeIsNullable
    && !AnyInParens(Some(csOperand), tagged)
    && NullFlow.GetNullabilityOfOperand(rev, vbOperand, operandCtx) != Some(NullFlow.NotNull)
  }

  /** With the corrected lookup, an operand of a nullable type that nothing
      marks as non-null and that is null wherever evaluation reaches it is
      counted as nullable: the null check it needs is never dropped. */
  lemma NullOperandKeepsCheck(vbOperand: VbExpr, operandCtx: seq<Frame>, csOperand: CsExpr, typeInfo: TypeInfo,
                              tagged: CsExpr -> bool, nulls: string -> bool, atom: VbExpr -> Option<bool>)
    requires typeInfo.typeIsNullable && !AnyInParens(Some(csOperand), tagged)
    requires NullFlow.Reaches(operandCtx, nulls, atom)
    requires SkipIntoParens(vbOperand).IdentifierName? ==> nulls(ToUpper(SkipIntoParens(vbOperand).identifier))
    ensures IsNullable(Corrected, vbOperand, operandCtx, csOperand, typeInfo, tagged)
  {
    if NullFlow.GetNullabilityOfOperand(Corrected, vbOperand, operandCtx).Some? {
      NullFlow.OperandNullabilitySound(vbOperand, operandCtx, nulls, atom);
    }
  }

  // ---------------------------------------------------------------- AndAlso

  /** `FullAndExpression`: both operands nullable and the result kept
      three-valued: `lhs == false ? false : rhs is null ? null : rhs ? lhs : false`,
      capturing the right operand (first) and the left one in pattern
      variables unless they are safely reusable. */
  function FullAndExpression(f: Facts, lhs: CsExpr, rhs: CsExpr, counter: nat): (r: Lowering)
    ensures !r.notNullable
    ensures r.counter == counter + (if f.rhsReusable then 0 else 1) + (if f.lhsReusable then 0 else 1)
  {
    if f.rhsReusable then
      if f.lhsReusable then
        Lowering(Conditional(EqualsFalse(lhs), False,
                   Conditional(HasNoValue(rhs), Null, Conditional(GetValue(rhs), lhs, False))), false, counter)
      else
        var l := PatternVar(lhs, counter);
        Lowering(Conditional(AndEqualsFalse(l.pattern, l.name), False,
                   Conditional(HasNoValue(rhs), Null, Conditional(GetValue(rhs), l.name, False))), false, l.counter)
    else
      var r := NegatedPatternObject(rhs, counter);
      if f.lhsReusable then
        Lowering(Conditional(EqualsFalse(lhs), False,
                   Conditional(r.pattern, Null, Conditional(r.name, lhs, False))), false, r.counter)
      else
        var l := PatternVar(lhs, r.counter);
        Lowering(Conditional(AndEqualsFalse(l.pattern, l.name), False,
                   Conditional(r.pattern, Null, Conditional(r.name, l.name, False))), false, l.counter)
  }

  /** `ForAndAlsoOperator`. Where `Nothing` may become `false` (`collapse`),
      the result is a plain `bool` and carries the annotation. */
  function ForAndAlsoOperator(f: Facts, lhs: CsExpr, rhs: CsExpr, counter: nat): (r: Lowering)
    ensures r.notNullable == f.collapse
    ensures r.counter >= counter
  {
    if f.collapse then
      if !f.lhsNullable then
        Lowering(And(lhs, EqualsTrue(rhs)), true, counter)
      else if f.rhsPure then
        Lowering(if !f.rhsNullable then And(EqualsTrue(lhs), rhs) else And(EqualsTrue(lhs), EqualsTrue(rhs)),
                 true, counter)
      else if !f.rhsNullable then
        if f.lhsReusable then
          Lowering(AndHasValue(And(OrGetValue(HasNoValue(lhs), lhs), rhs), lhs), true, counter)
        else
          var l := PatternVar(lhs, counter);
          Lowering(AndHasValue(And(OrGetValue(AndHasNoValue(l.pattern, l.name), l.name), rhs), l.name),
                   true, l.counter)
      else
        var full := FullAndExpression(f, lhs, rhs, counter);
        Lowering(EqualsTrue(full.expr), true, full.counter)
    else if !f.lhsNullable then
      Lowering(Conditional(lhs, rhs, False), false, counter)
    else if !f.rhsNullable then
      if f.lhsReusable then
        Lowering(Conditional(EqualsFalse(lhs), False, Conditional(rhs, lhs, False)), false, counter)
      else
        var l := PatternVar(lhs, counter);
        Lowering(Conditional(AndEqualsFalse(l.pattern, l.name), False, Conditional(rhs, l.name, False)),
                 false, l.counter)
    else
      FullAndExpression(f, lhs, rhs, counter)
  }

  // ----------------------------------------------------------------- OrElse

  /** `ForOrElseOperator`. Outside a collapsing position both a pattern for
      the left operand and a negated pattern for the right one are allocated,
      even when the right operand cannot be null and its pattern goes unused. */
  function ForOrElseOperator(f: Facts, lhs: CsExpr, rhs: CsExpr, counter: nat): (r: Lowering)
    ensures r.notNullable == f.collapse
    ensures r.counter == counter + (if !f.collapse && f.lhsNullable then 2 else 0)
  {
    if f.collapse then
      if !f.lhsNullable then
        Lowering(Or(lhs, EqualsTrue(rhs)), true, counter)
      else
        Lowering(if !f.rhsNullable then Or(EqualsTrue(lhs), rhs) else Or(EqualsTrue(lhs), EqualsTrue(rhs)),
                 true, counter)
    else if !f.lhsNullable then
      Lowering(Conditional(lhs, True, rhs), false, counter)
    else
      var l := PatternVar(lhs, counter);
      var r := NegatedPatternObject(rhs, l.counter);
      var whenFalse :=
        if !f.rhsNullable then Conditional(rhs, True, l.name)
        else Conditional(r.pattern, Null, Conditional(r.name, True, l.name));
      Lowering(Conditional(And(l.pattern, EqualsTrue(l.name)), True, whenFalse), false, r.counter)
  }

  // ------------------------------------------------------------- relational

  /** One entry of the null-check list: whether evaluating it is optional
      (it only reads a reusable operand) and the check itself. */
  datatype Condition = Condition(executionOptional: bool, expr: CsExpr)

  /** `GetCondition`: `name.HasValue` for a reusable operand, otherwise
      `name is { } argN`, after which the operand is read through `argN`. */
  function GetCondition(name: CsExpr, reusable: bool, counter: nat): (r: Capture)
    ensures reusable ==> r == Capture(HasValue(name), name, counter)
    ensures !reusable ==> r.counter == counter + 1
  {
    if reusable then Capture(HasValue(name), name, counter) else PatternObject(name, counter)
  }

  /** The sort key: `false.CompareTo(true) < 0`. */
  function Key(c: Condition): int {
    if c.executionOptional then 1 else 0
  }

  /** One compare-exchange of `List.Sort`. */
  function SwapIfGreater(s: seq<Condition>, i: nat, j: nat): (r: seq<Condition>)
    requires i < j < |s|
    ensures |r| == |s| && multiset(r) == multiset(s)
    ensures Key(r[i]) <= Key(r[j])
  {
    if Key(s[i]) > Key(s[j]) then s[i := s[j]][j := s[i]] else s
  }

  /** `conditions.Sort` by `ExecutionOptional`, false first, on the lists of
      at most three entries it is given: `List.Sort` sorts two or three
      entries by fixed compare-exchanges. */
  function ListSort(conds: seq<Condition>): (r: seq<Condition>)
    requires |conds| <= 3
    ensures |r| == |conds| && multiset(r) == multiset(conds)
    ensures forall i, j :: 0 <= i < j < |r| ==> Key(r[i]) <= Key(r[j])
  {
    if |conds| == 2 then SwapIfGreater(conds, 0, 1)
    else if |conds| == 3 then SwapIfGreater(SwapIfGreater(SwapIfGreater(conds, 0, 1), 0, 2), 1, 2)
    else conds
  }

  /** The checks joined by `&&`, leftmost first. */
  function FoldAnd(conds: seq<Condition>): CsExpr
    requires |conds| >= 1
  {
    if |conds| == 1 then conds[0].expr else And(FoldAnd(conds[..|conds| - 1]), conds[|conds| - 1].expr)
  }

  /** The null checks `ForRelationalOperators` builds before sorting, with the
      names through which the comparison then reads each operand. */
  datatype Checks = Checks(conditions: seq<Condition>, lhsName: CsExpr, rhsName: CsExpr, counter: nat)

  function BuildConditions(f: Facts, lhs: CsExpr, rhs: CsExpr, counter: nat): (r: Checks)
    requires f.lhsNullable || f.rhsNullable
    ensures 1 <= |r.conditions| <= 3
    ensures f.lhsNullable && f.rhsNullable ==> |r.conditions| >= 2
    ensures r.counter >= counter
  {
    // the worst case: neither operand is reusable, so the right one is saved
    // first in a `var` pattern and is reusable from then on
    var worst := !f.lhsReusable && !f.rhsReusable;
    var saved := if worst then PatternVar(rhs, counter) else Capture(rhs, rhs, counter);
    var conds0 := if worst then [Condition(false, saved.pattern)] else [];
    var rhsReusable := f.rhsReusable || worst;
    var l := if f.lhsNullable || !f.lhsReusable then GetCondition(lhs, f.lhsReusable, saved.counter)
             else Capture(lhs, lhs, saved.counter);
    var conds1 := if f.lhsNullable || !f.lhsReusable then conds0 + [Condition(f.lhsReusable, l.pattern)] else conds0;
    var r := if f.rhsNullable || !rhsReusable then GetCondition(saved.name, rhsReusable, l.counter)
             else Capture(saved.name, saved.name, l.counter);
    var conds2 := if f.rhsNullable || !rhsReusable then conds1 + [Condition(rhsReusable, r.pattern)] else conds1;
    Checks(conds2, l.name, r.name, r.counter)
  }

  /** `ForRelationalOperators`. In a collapsing position `<`, `<=`, `>`,
      `>=`, and `=` with an operand that cannot be null, already give the
      right `bool` in C#; otherwise the comparison is guarded by the null
      checks, the last of which is dropped for a collapsing `=` of two
      nullable operands. */
  function ForRelationalOperators(f: Facts, op: VbBinOp, csNode: CsExpr, lhs: CsExpr, rhs: CsExpr, counter: nat)
    : (r: Lowering)
    requires csNode.BinaryExpr?
    requires f.lhsNullable || f.rhsNullable
    ensures r.notNullable == f.collapse
    ensures r.counter >= counter
  {
    var canConvertToBoolean := f.collapse;
    if canConvertToBoolean && op == VbBinOp.EqualsOp && (!f.lhsNullable || !f.rhsNullable) then
      Lowering(csNode, true, counter)
    else if canConvertToBoolean
            && (op == VbBinOp.GreaterThanOp || op == VbBinOp.GreaterThanOrEqualOp || op == VbBinOp.LessThanOp || op == VbBinOp.LessThanOrEqualOp) then
      Lowering(csNode, true, counter)
    else
      var checks := BuildConditions(f, lhs, rhs, counter);
      var sorted := ListSort(checks.conditions);
      var kept := if canConvertToBoolean && op == VbBinOp.EqualsOp && f.lhsNullable && f.rhsNullable
                  then sorted[..|sorted| - 1] else sorted;
      var notNullCondition := FoldAnd(kept);
      var bin := Bin(checks.lhsName, checks.rhsName, csNode.op);
      if canConvertToBoolean then Lowering(And(notNullCondition, bin), true, checks.counter)
      else Lowering(Conditional(notNullCondition, bin, Null), false, checks.counter)
  }

  // ---------------------------------------------------------------- entry

  /** The facts for the binary node `vbNode` with ancestor path `ctx`. */
  function FactsOf(rev: Revision, vbNode: VbExpr, ctx: seq<Frame>, lhsNullable: bool, rhsNullable: bool): Facts
    requires vbNode.Binary?
  {
    Facts(BooleanContext.CanConvertToBoolean(rev, vbNode, ctx), lhsNullable, rhsNullable,
          IsSafelyReusable(vbNode.left), IsSafelyReusable(vbNode.right), IsPureExpression(vbNode.right))
  }

  /** `WithBinaryExpressionLogicForNullableTypes` for the Visual Basic node
      `vbNode` (ancestor path `ctx`) already converted to `csBinExp` with
      converted operands `lhs` and `rhs`; `tagged` tells which C# nodes carry
      the not-nullable annotation. `rev` selects the null-flow lookup and
      `CanConvertToBoolean` as written or corrected. */
  function WithBinaryExpressionLogicForNullableTypes(
    rev: Revision, vbNode: VbExpr, ctx: seq<Frame>, lhsTypeInfo: TypeInfo, rhsTypeInfo: TypeInfo,
    csBinExp: CsExpr, lhs: CsExpr, rhs: CsExpr, tagged: CsExpr -> bool, counter: nat): (r: Lowering)
    requires vbNode.Binary? && csBinExp.BinaryExpr?
    ensures r.counter >= counter
    ensures !IsSupported(vbNode.op) || !lhsTypeInfo.convertedTypeIsNullable || !rhsTypeInfo.convertedTypeIsNullable
            ==> r == Lowering(csBinExp, tagged(csBinExp), counter)
    ensures !lhsTypeInfo.typeIsNullable && !rhsTypeInfo.typeIsNullable
            ==> r.expr == csBinExp && r.counter == counter
  {
    if !IsSupported(vbNode.op) || !lhsTypeInfo.convertedTypeIsNullable || !rhsTypeInfo.convertedTypeIsNullable then
      Lowering(csBinExp, tagged(csBinExp), counter)
    else
      var isLhsNullable := IsNullable(rev, vbNode.left, [BinaryLeftFrame(vbNode.op, vbNode.right)] + ctx, lhs, lhsTypeInfo, tagged);
      var isRhsNullable := IsNullable(rev, vbNode.right, [BinaryRightFrame(vbNode.op, vbNode.left)] + ctx, rhs, rhsTypeInfo, tagged);
      if !isLhsNullable && !isRhsNullable then Lowering(csBinExp, true, counter)
      else
        var f := FactsOf(rev, vbNode, ctx, isLhsNullable, isRhsNullable);
        if vbNode.op == AndAlsoOp then ForAndAlsoOperator(f, lhs, rhs, counter)
        else if vbNode.op == OrElseOp then ForOrElseOperator(f, lhs, rhs, counter)
        else ForRelationalOperators(f, vbNode.op, csBinExp, lhs, rhs, counter)
  }
}

=== FILE: nullable_logic.dfy ===
/** The small C# builders the lowering composes its templates from
    (`NullableTypesLogicExtensions`). Parenthesisation is not modelled: the
    evaluator treats parentheses as transparent, so the builders leave them out.
    The lemmas state what each builder means under C#'s lifted semantics. */
module NullableTypesLogicExtensions {
  import opened Options
  import opened CsSyntax
  import opened CsSemantics

  /** `(bool?)null`, `(bool?)false`, `(bool?)true`. */
  const Null: CsExpr := NullableBoolLit(None)
  const False: CsExpr := NullableBoolLit(Some(false))
  const True: CsExpr := NullableBoolLit(Some(true))

  function HasValue(a: CsExpr): CsExpr
  {
    HasValueExpr(a)
  }

  function Negate(a: CsExpr): CsExpr
  {
    NotExpr(a)
  }

  function HasNoValue(a: CsExpr): CsExpr
  {
    Negate(HasValue(a))
  }

  function GetValue(a: CsExpr): CsExpr
  {
    ValueExpr(a)
  }

  function EqualsFalse(a: CsExpr): CsExpr
  {
    BinaryExpr(EqualsOp, a, BoolLit(false))
  }

  function EqualsTrue(a: CsExpr): CsExpr
  {
    BinaryExpr(EqualsOp, a, BoolLit(true))
  }

  function And(a: CsExpr, b: CsExpr): CsExpr
  {
    BinaryExpr(LogicalAnd, a, b)
  }

  function AndHasValue(a: CsExpr, b: CsExpr): CsExpr
  {
    And(a, HasValue(b))
  }

  function AndHasNoValue(a: CsExpr, b: CsExpr): CsExpr
  {
    And(a, HasNoValue(b))
  }

  function AndEqualsFalse(a: CsExpr, b: CsExpr): CsExpr
  {
    And(a, EqualsFalse(b))
  }

  function Or(a: CsExpr, b: CsExpr): CsExpr
  {
    BinaryExpr(LogicalOr, a, b)
  }

  function OrGetValue(a: CsExpr, b: CsExpr): CsExpr
  {
    Or(a, GetValue(b))
  }

  function Conditional(c: CsExpr, t: CsExpr, f: CsExpr): CsExpr
  {
    ConditionalExpr(c, t, f)
  }

  function Bin(a: CsExpr, b: CsExpr, op: CsBinOp): CsExpr
  {
    BinaryExpr(op, a, b)
  }

  /** A value a `bool?` expression can have. */
  predicate IsNullableBool(v: CsValue) {
    v.BoolV? || v.NullV?
  }

  /** `a == true` is a plain `bool` that holds exactly when `a` holds a true value;
      a null compares unequal. */
  lemma EqualsTrueMeaning(a: CsExpr, env: Env, st: State)
    requires Eval(a, env, st).Done? && IsNullableBool(Eval(a, env, st).value)
    ensures Eval(EqualsTrue(a), env, st)
         == Done(BoolV(Eval(a, env, st).value == BoolV(true)), Eval(a, env, st).st)
  {
  }

  /** `a == false` holds exactly when `a` holds a false value. */
  lemma EqualsFalseMeaning(a: CsExpr, env: Env, st: State)
    requires Eval(a, env, st).Done? && IsNullableBool(Eval(a, env, st).value)
    ensures Eval(EqualsFalse(a), env, st)
         == Done(BoolV(Eval(a, env, st).value == BoolV(false)), Eval(a, env, st).st)
  {
  }

  /** `!a.HasValue` holds exactly when `a` is null, and never throws. */
  lemma HasNoValueMeaning(a: CsExpr, env: Env, st: State)
    requires Eval(a, env, st).Done?
    ensures Eval(HasNoValue(a), env, st)
         == Done(BoolV(Eval(a, env, st).value.NullV?), Eval(a, env, st).st)
  {
  }

  /** `a.Value` is `a`'s value when it has one and throws on a null. */
  lemma GetValueMeaning(a: CsExpr, env: Env, st: State)
    requires Eval(a, env, st).Done?
    ensures Eval(GetValue(a), env, st).Done? <==> !Eval(a, env, st).value.NullV?
    ensures Eval(GetValue(a), env, st).Done? ==> Eval(GetValue(a), env, st) == Eval(a, env, st)
  {
  }

  /** `c ? t : f` evaluates the condition once and then exactly one branch. */
  lemma {:induction false} ConditionalMeaning(c: CsExpr, t: CsExpr, f: CsExpr, env: Env, st: State)
    requires Eval(c, env, st).Done? && Eval(c, env, st).value.BoolV?
    ensures Eval(Conditional(c, t, f), env, st)
         == (if Eval(c, env, st).value.b then Eval(t, env, Eval(c, env, st).st)
             else Eval(f, env, Eval(c, env, st).st))
  {
  }

  /** `a && b` skips `b` when `a` is false. */
  lemma {:induction false} AndMeaning(a: CsExpr, b: CsExpr, env: Env, st: State)
    requires Eval(a, env, st).Done? && Eval(a, env, st).value == BoolV(false)
    ensures Eval(And(a, b), env, st) == Eval(a, env, st)
  {
  }

  /** `a && b` is `b`, evaluated after `a`, when `a` is true. */
  lemma {:induction false} AndThenMeaning(a: CsExpr, b: CsExpr, env: Env, st: State)
    requires Eval(a, env, st).Done? && Eval(a, env, st).value == BoolV(true)
    requires Eval(b, env, Eval(a, env, st).st).Done? && Eval(b, env, Eval(a, env, st).st).value.BoolV?
    ensures Eval(And(a, b), env, st) == Eval(b, env, Eval(a, env, st).st)
  {
  }

  /** `a || b` skips `b` when `a` is true. */
  lemma {:induction false} OrMeaning(a: CsExpr, b: CsExpr, env: Env, st: State)
    requires Eval(a, env, st).Done? && Eval(a, env, st).value == BoolV(true)
    ensures Eval(Or(a, b), env, st) == Eval(a, env, st)
  {
  }
}

=== FILE: options.dfy ===
/** The optional value used wherever the converter works with a reference that
    may be null: a resolved symbol, a parent node, a known nullability. */
module Options {

  datatype Option<+T> = None | Some(value: T) {

    /** The C# `??` operator: this value when present, otherwise `other`. */
    function OrElse(other: Option<T>): Option<T>
    {
      match this
      case Some(_) => this
      case None => other
    }
  }
}

=== FILE: revisions.dfy ===
/** Where the code and what it evidently means to do part ways, the member
    takes the reading to follow as a parameter: the code as written, or the
    corrected reading that the converter in this model uses. */
module Revisions {
  datatype Revision = AsWritten | Corrected
}

=== FILE: syntax_extensions.dfy ===
/** Parenthesis peeling and parent-chain helpers shared by both languages'
    syntax trees (`SyntaxExtensions`). */
module SyntaxExtensions {
  import opened Options
  import opened VbSyntax
  import opened CsSyntax

  // ---------------------------------------------------------------- C# side

  /** `e` followed by every expression reached by peeling one more parenthesis. */
  function ParenLayers(e: CsExpr): (r: seq<CsExpr>)
    ensures |r| >= 1 && r[0] == e
  {
    match e
    case ParenExpr(i) => [e] + ParenLayers(i)
    case _ => [e]
  }

  /** The C# `SkipIntoParens`: strips every parenthesis layer; null stays null. */
  function SkipIntoParensCs(e: Option<CsExpr>): (r: Option<CsExpr>)
    ensures r.None? <==> e.None?
    ensures r.Some? ==> !r.value.ParenExpr?
    decreases if e.Some? then |ParenLayers(e.value)| else 0
  {
    match e
    case None => None
    case Some(ParenExpr(i)) => SkipIntoParensCs(Some(i))
    case Some(x) => Some(x)
  }

  /** `AnyInParens`: whether `p` holds at `e` or under some of its parentheses. */
  function AnyInParens(e: Option<CsExpr>, p: CsExpr -> bool): bool
    decreases if e.Some? then |ParenLayers(e.value)| else 0
  {
    match e
    case None => false
    case Some(x) =>
      p(x) || (x.ParenExpr? && AnyInParens(Some(x.inner), p))
  }

  /** Peeling parentheses twice peels nothing more. */
  lemma SkipIntoParensCsIdempotent(e: Option<CsExpr>)
    ensures SkipIntoParensCs(SkipIntoParensCs(e)) == SkipIntoParensCs(e)
  {
  }

  /** The peeled expression is the innermost of the paren layers. */
  lemma {:induction false} SkipIntoParensCsIsLastLayer(e: CsExpr)
    ensures SkipIntoParensCs(Some(e)) == Some(ParenLayers(e)[|ParenLayers(e)| - 1])
  {
    match e
    case ParenExpr(i) => SkipIntoParensCsIsLastLayer(i);
    case _ =>
  }

  /** `AnyInParens` holds exactly when `p` holds at one of the paren layers. */
  lemma AnyInParensLayers(e: CsExpr, p: CsExpr -> bool)
    ensures AnyInParens(Some(e), p) <==> exists i :: 0 <= i < |ParenLayers(e)| && p(ParenLayers(e)[i])
  {
    if AnyInParens(Some(e), p) {
      var i := AnyInParensWitness(e, p);
    }
    if exists i :: 0 <= i < |ParenLayers(e)| && p(ParenLayers(e)[i]) {
      var i :| 0 <= i < |ParenLayers(e)| && p(ParenLayers(e)[i]);
      LayerSatisfiesAnyInParens(e, p, i);
    }
  }

  /** A layer at which `p` holds, when `AnyInParens` holds. */
  lemma {:induction false} AnyInParensWitness(e: CsExpr, p: CsExpr -> bool) returns (i: nat)
    requires AnyInParens(Some(e), p)
    ensures i < |ParenLayers(e)| && p(ParenLayers(e)[i])
  {
    if p(e) {
      i := 0;
    } else {
      var j := AnyInParensWitness(e.inner, p);
      assert ParenLayers(e) == [e] + ParenLayers(e.inner);
      i := j + 1;
    }
  }

  /** `p` holding at any layer makes `AnyInParens` hold. */
  lemma {:induction false} LayerSatisfiesAnyInParens(e: CsExpr, p: CsExpr -> bool, i: nat)
    requires i < |ParenLayers(e)| && p(ParenLayers(e)[i])
    ensures AnyInParens(Some(e), p)
  {
    if i > 0 {
      assert e.ParenExpr?;
      assert ParenLayers(e) == [e] + ParenLayers(e.inner);
      LayerSatisfiesAnyInParens(e.inner, p, i - 1);
    }
  }

  /** Null is never annotated. */
  lemma AnyInParensNull(p: CsExpr -> bool)
    ensures !AnyInParens(None, p)
  {
  }

  // ---------------------------------------------------------------- VB side

  /** The VB `SkipIntoParens`. */
  function SkipIntoParens(e: VbExpr): (r: VbExpr)
    ensures !r.Parenthesized?
  {
    match e
    case Parenthesized(i) => SkipIntoParens(i)
    case _ => e
  }

  /** How many parenthesis layers wrap the innermost expression of `e`. */
  function ParenDepth(e: VbExpr): nat {
    match e
    case Parenthesized(i) => 1 + ParenDepth(i)
    case _ => 0
  }

  /** `e` wrapped in `k` parenthesis layers. */
  function WrapParens(e: VbExpr, k: nat): VbExpr {
    if k == 0 then e else Parenthesized(WrapParens(e, k - 1))
  }

  lemma SkipIntoParensIdempotent(e: VbExpr)
    ensures SkipIntoParens(SkipIntoParens(e)) == SkipIntoParens(e)
  {
  }

  /** Peeling and re-wrapping gives back the original expression. */
  lemma {:induction false} SkipIntoParensRoundTrip(e: VbExpr)
    ensures WrapParens(SkipIntoParens(e), ParenDepth(e)) == e
  {
    match e
    case Parenthesized(i) =>
      SkipIntoParensRoundTrip(i);
      assert WrapParens(SkipIntoParens(e), ParenDepth(e))
          == Parenthesized(WrapParens(SkipIntoParens(i), ParenDepth(i)));
    case _ =>
  }

  /** Extra parentheses do not change what peeling reaches. */
  lemma {:induction false} SkipIntoParensOfWrap(e: VbExpr, k: nat)
    ensures SkipIntoParens(WrapParens(e, k)) == SkipIntoParens(e)
    ensures ParenDepth(WrapParens(e, k)) == ParenDepth(e) + k
  {
    if k > 0 {
      SkipIntoParensOfWrap(e, k - 1);
    }
  }

  /** `node.Parent.SkipOutOfParens()` on the ancestor path `ctx` of `node`:
      the index of the frame describing the first ancestor that is not a
      parenthesized expression; `|ctx|` stands for null (the parentheses reach
      the root). */
  function SkipOutOfParens(ctx: seq<Frame>): (k: nat)
    ensures k <= |ctx|
    ensures forall j :: 0 <= j < k ==> ctx[j].ParenFrame?
    ensures k < |ctx| ==> !ctx[k].ParenFrame?
  {
    if |ctx| > 0 && ctx[0].ParenFrame? then 1 + SkipOutOfParens(ctx[1..]) else 0
  }

  /** The index is pinned down by its description: any `k` that follows only
      parenthesis frames and stops at the first other frame is the result. */
  lemma SkipOutOfParensParenPrefix(ctx: seq<Frame>, k: nat)
    requires k <= |ctx|
    requires forall j :: 0 <= j < k ==> ctx[j].ParenFrame?
    requires k < |ctx| ==> !ctx[k].ParenFrame?
    ensures SkipOutOfParens(ctx) == k
  {
    if |ctx| > 0 && ctx[0].ParenFrame? {
      assert k > 0;
      SkipOutOfParensParenPrefix(ctx[1..], k - 1);
    }
  }

  /** The VB `IsParentKind` on a possibly-null node given by its ancestor path. */
  function IsParentKind(node: Option<seq<Frame>>, kind: NodeKind): (r: bool)
    ensures r ==> node.Some? && |node.value| > 0
  {
    node.Some? && |node.value| > 0 && ParentKind(node.value[0]) == kind
  }

  /** A node's parent is a parenthesized expression exactly when climbing out
      of parentheses moves. */
  lemma IsParentKindParenthesized(ctx: seq<Frame>)
    ensures IsParentKind(Some(ctx), ParenthesizedExpressionKind) <==> SkipOutOfParens(ctx) > 0
  {
    if |ctx| > 0 {
      assert ParentKind(ctx[0]) == ParenthesizedExpressionKind <==> ctx[0].ParenFrame?;
    }
  }

  /** `GetEnclosingSymbol<TSymbol>`: walks the containment chain (the enclosing
      symbol at the position, then each `ContainingSymbol`) and returns the
      first symbol of the requested category. */
  method GetEnclosingSymbol(chain: seq<Symbol>, category: SymbolKind) returns (r: Option<Symbol>)
    ensures r.Some? ==> r.value.kind == category
    ensures r.Some? ==> exists i :: 0 <= i < |chain| && chain[i] == r.value
                                    && forall j :: 0 <= j < i ==> chain[j].kind != category
    ensures r.None? <==> forall i :: 0 <= i < |chain| ==> chain[i].kind != category
  {
    var i := 0;
    while i < |chain|
      invariant 0 <= i <= |chain|
      invariant forall j :: 0 <= j < i ==> chain[j].kind != category
    {
      if chain[i].kind == category {
        return Some(chain[i]);
      }
      i := i + 1;
    }
    return None;
  }

  /** The functional form of `GetEnclosingSymbol`, for use inside functions. */
  function EnclosingSymbol(chain: seq<Symbol>, category: SymbolKind): (r: Option<Symbol>)
    ensures r.Some? ==> r.value.kind == category && r.value in chain
    ensures r.None? <==> forall i :: 0 <= i < |chain| ==> chain[i].kind != category
  {
    if |chain| == 0 then None
    else if chain[0].kind == category then Some(chain[0])
    else EnclosingSymbol(chain[1..], category)
  }

  /** The symbol the recursive form finds is the first of its category on
      the chain. */
  lemma {:induction false} EnclosingSymbolIsFirst(chain: seq<Symbol>, category: SymbolKind)
    ensures EnclosingSymbol(chain, category).Some?
            ==> exists i :: 0 <= i < |chain| && chain[i] == EnclosingSymbol(chain, category).value
                            && forall j :: 0 <= j < i ==> chain[j].kind != category
  {
    if |chain| > 0 && chain[0].kind != category {
      var rest := chain[1..];
      EnclosingSymbolIsFirst(rest, category);
      if EnclosingSymbol(rest, category).Some? {
        var i :| 0 <= i < |rest| && rest[i] == EnclosingSymbol(rest, category).value
                 && forall j :: 0 <= j < i ==> rest[j].kind != category;
        assert chain[i + 1] == rest[i];
        forall j | 0 <= j < i + 1
          ensures chain[j].kind != category
        {
          if j > 0 {
            assert chain[j] == rest[j - 1];
          }
        }
      }
    } else if |chain| > 0 {
      assert chain[0] == EnclosingSymbol(chain, category).value;
    }
  }

  /** The loop and the recursive form agree. */
  method GetEnclosingSymbolAgrees(chain: seq<Symbol>, category: SymbolKind) returns (r: Option<Symbol>)
    ensures r == EnclosingSymbol(chain, category)
  {
    r := GetEnclosingSymbol(chain, category);
    if r.Some? {
      var i :| 0 <= i < |chain| && chain[i] == r.value && forall j :: 0 <= j < i ==> chain[j].kind != category;
      EnclosingSymbolFirst(chain, category, i);
    }
  }

  lemma {:induction false} EnclosingSymbolFirst(chain: seq<Symbol>, category: SymbolKind, i: nat)
    requires i < |chain| && chain[i].kind == category
    requires forall j :: 0 <= j < i ==> chain[j].kind != category
    ensures EnclosingSymbol(chain, category) == Some(chain[i])
  {
    if i > 0 {
      EnclosingSymbolFirst(chain[1..], category, i - 1);
    }
  }
}

=== FILE: vb_semantics.dfy ===
/** The truth of a Visual Basic `Boolean?` expression, as far as the null-flow
    analysis needs it. `None` is `Nothing`. Variables are looked up by their
    upper-cased name, since Visual Basic identifiers ignore case; whether a
    variable holds `Nothing` is given by `nulls`. Every expression whose
    value the analysis does not inspect (a comparison, a call, a Boolean
    variable) is an atom whose truth `atom` supplies, so facts proved for
    every `atom` hold whatever those expressions evaluate to. */
module VbSemantics {
  import opened Options
  import opened VbSyntax
  import opened SyntaxExtensions

  /** Three-valued `Not`. */
  function Not3(a: Option<bool>): Option<bool> {
    match a
    case Some(b) => Some(!b)
    case None => None
  }

  /** Three-valued `And` and `AndAlso`: false wins, then `Nothing`. */
  function And3(a: Option<bool>, b: Option<bool>): Option<bool> {
    if a == Some(false) || b == Some(false) then Some(false)
    else if a == Some(true) && b == Some(true) then Some(true)
    else None
  }

  /** Three-valued `Or` and `OrElse`: true wins, then `Nothing`. */
  function Or3(a: Option<bool>, b: Option<bool>): Option<bool> {
    if a == Some(true) || b == Some(true) then Some(true)
    else if a == Some(false) && b == Some(false) then Some(false)
    else None
  }

  /** Lifted `=` on `Boolean?`: `Nothing` as soon as either side is. */
  function Eq3(a: Option<bool>, b: Option<bool>): Option<bool> {
    if a.None? || b.None? then None else Some(a.value == b.value)
  }

  /** The six comparison operators. */
  predicate IsRelational(op: VbBinOp) {
    op == EqualsOp || op == NotEqualsOp || op == LessThanOp || op == LessThanOrEqualOp
    || op == GreaterThanOp || op == GreaterThanOrEqualOp
  }

  /** A lifted comparison of two `Integer?` values: `Nothing` as soon as
      either side is. */
  function Compare3(op: VbBinOp, a: Option<int>, b: Option<int>): (r: Option<bool>)
    requires IsRelational(op)
    ensures r.None? <==> a.None? || b.None?
  {
    if a.None? || b.None? then None
    else
      var x, y := a.value, b.value;
      Some(match op
           case EqualsOp => x == y
           case NotEqualsOp => x != y
           case LessThanOp => x < y
           case LessThanOrEqualOp => x <= y
           case GreaterThanOp => x > y
           case _ => x >= y)
  }

  /** The variable `x` of `x.HasValue`, whatever the letter case of `HasValue`. */
  function HasValueAccess(e: VbExpr): Option<string> {
    if e.MemberAccess? && e.expression.Some? && e.expression.value.IdentifierName?
       && EqualsIgnoreCase(e.identifier, "HasValue")
    then Some(e.expression.value.identifier)
    else None
  }

  /** The variable `x` of `x Is Nothing` or `Nothing Is x`, parentheses allowed. */
  function NullTest(l: VbExpr, r: VbExpr): Option<string> {
    var sl := SkipIntoParens(l);
    var sr := SkipIntoParens(r);
    if sl.IdentifierName? && sr == Literal(NothingLiteral) then Some(sl.identifier)
    else if sr.IdentifierName? && sl == Literal(NothingLiteral) then Some(sr.identifier)
    else None
  }

  function Truth(e: VbExpr, nulls: string -> bool, atom: VbExpr -> Option<bool>): Option<bool> {
    if e.Parenthesized? then Truth(e.inner, nulls, atom)
    else if e.Unary? && e.unOp == NotOp then Not3(Truth(e.operand, nulls, atom))
    else if e.Binary? && (e.op == AndAlsoOp || e.op == AndOp) then
      And3(Truth(e.left, nulls, atom), Truth(e.right, nulls, atom))
    else if e.Binary? && (e.op == OrElseOp || e.op == OrOp) then
      Or3(Truth(e.left, nulls, atom), Truth(e.right, nulls, atom))
    else if e.Binary? && (e.op == IsOp || e.op == IsNotOp) && NullTest(e.left, e.right).Some? then
      var isNull := nulls(ToUpper(NullTest(e.left, e.right).value));
      Some(if e.op == IsOp then isNull else !isNull)
    else if HasValueAccess(e).Some? then Some(!nulls(ToUpper(HasValueAccess(e).value)))
    else atom(e)
  }
}

=== FILE: vb_syntax.dfy ===
/** The Visual Basic syntax the converter inspects, cut down to the node kinds
    its decisions distinguish. Each node that Roslyn can bind carries the symbol
    the semantic model resolves for it, so the oracle's answer travels with the
    node. Parent links are replaced by an explicit ancestor path: a node in
    context is a node together with a `seq<Frame>` whose first frame describes
    its parent. */
module VbSyntax {
  import opened Options

  /** Roslyn's `SymbolKind`, reduced to the kinds the decisions test for. */
  datatype SymbolKind = Local | Field | Parameter | Property | Method | NamedType | Namespace | OtherSymbol

  type TypeName = string

  /** What the semantic model says about a resolved symbol. For a named type,
      `name` is the type it denotes. */
  datatype Symbol = Symbol(
    name: string,
    kind: SymbolKind,
    isStatic: bool,
    isAutoProperty: bool,
    isGenericMethod: bool,
    isModuleMember: bool,
    isReducedExtension: bool,
    containingType: TypeName,
    containingSymbol: string,
    receiverType: TypeName)

  datatype LiteralValue = NothingLiteral | BooleanLiteral(b: bool) | IntegerLiteral(i: int) | StringLiteral(s: string)

  datatype InstanceKind = Me | MyBase | MyClass

  /** `a.b` versus the dictionary access `a!b`, both member-access nodes in Roslyn. */
  datatype MemberAccessKind = SimpleMemberAccess | DictionaryAccess

  datatype VbBinOp =
    | AndOp | AndAlsoOp | OrOp | OrElseOp | XorOp | IsOp | IsNotOp
    | EqualsOp | NotEqualsOp | LessThanOp | LessThanOrEqualOp | GreaterThanOp | GreaterThanOrEqualOp
    | AddOp | SubtractOp | ConcatenateOp

  datatype VbUnOp = NotOp | NegateOp | PlusOp

  /** A Visual Basic expression. Operator nodes carry no symbol: an intrinsic
      operator resolves to none and a user-defined one to a method, and the
      reusability test rejects both alike. */
  datatype VbExpr =
    | Literal(value: LiteralValue)
    | IdentifierName(identifier: string, trivia: string, sym: Option<Symbol>)
    | GenericName(identifier: string, trivia: string, sym: Option<Symbol>)
    | QualifiedName(qualifier: VbExpr, identifier: string, sym: Option<Symbol>)
    | Instance(instanceKind: InstanceKind, trivia: string, sym: Option<Symbol>)
    | MemberAccess(accessKind: MemberAccessKind, expression: Option<VbExpr>, identifier: string, sym: Option<Symbol>)
    | Invocation(target: VbExpr, arguments: seq<VbExpr>, sym: Option<Symbol>)
    | ObjectCreation(typeName: TypeName, sym: Option<Symbol>)
    | Parenthesized(inner: VbExpr)
    | Unary(unOp: VbUnOp, operand: VbExpr)
    | Binary(op: VbBinOp, left: VbExpr, right: VbExpr)
    | TernaryConditional(condition: VbExpr, whenTrue: VbExpr, whenFalse: VbExpr)
    | Lambda(body: VbExpr)
    | OtherExpression(sym: Option<Symbol>)

  /** Upper-casing of one character; only the ASCII letters are folded. */
  function UpperChar(c: char): char {
    if 'a' <= c <= 'z' then (c as int - 32) as char else c
  }

  function ToUpper(s: string): (r: string)
    ensures |r| == |s|
  {
    if |s| == 0 then [] else [UpperChar(s[0])] + ToUpper(s[1..])
  }

  /** `StringComparison.OrdinalIgnoreCase`, and the way Visual Basic compares
      identifiers. */
  predicate EqualsIgnoreCase(a: string, b: string) {
    ToUpper(a) == ToUpper(b)
  }

  /** Names whose first letters differ even after case folding differ. */
  lemma DifferentInitialsDiffer(a: string, b: string)
    requires |a| > 0 && |b| > 0 && UpperChar(a[0]) != UpperChar(b[0])
    ensures !EqualsIgnoreCase(a, b)
  {
    assert ToUpper(a)[0] == UpperChar(a[0]);
    assert ToUpper(b)[0] == UpperChar(b[0]);
  }

  /** `SimpleNameSyntax`: an identifier or a generic name. */
  predicate IsSimpleName(e: VbExpr) {
    e.IdentifierName? || e.GenericName?
  }

  /** `NameSyntax`: a simple name or a qualified name. */
  predicate IsName(e: VbExpr) {
    IsSimpleName(e) || e.QualifiedName?
  }

  /** `semanticModel.GetSymbolInfo(e).Symbol`. */
  function SymbolOf(e: VbExpr): Option<Symbol> {
    match e
    case IdentifierName(_, _, s) => s
    case GenericName(_, _, s) => s
    case QualifiedName(_, _, s) => s
    case Instance(_, _, s) => s
    case MemberAccess(_, _, _, s) => s
    case Invocation(_, _, s) => s
    case ObjectCreation(_, s) => s
    case OtherExpression(s) => s
    case _ => None
  }

  /** The statements whose `Condition` is always a C# `bool`. */
  datatype ConditionalStatement = SingleLineIfStatement | IfStatement | ElseIfStatement

  /** One step of an ancestor path: what the parent is and which slot of it the
      child occupies, with the sibling data the decisions read. */
  datatype Frame =
    | ParenFrame                                                    // parent is `( child )`
    | BinaryLeftFrame(op: VbBinOp, right: VbExpr)                   // child is the parent's Left
    | BinaryRightFrame(op: VbBinOp, left: VbExpr)                   // child is the parent's Right
    | UnaryFrame(unOp: VbUnOp)
    | MemberAccessExpressionFrame(accessKind: MemberAccessKind)     // child is `maes.Expression`
    | MemberAccessNameFrame(accessKind: MemberAccessKind)           // child is `maes.Name`
    | ConditionalAccessExpressionFrame                              // child is `caes.Expression`
    | ConditionalAccessWhenNotNullFrame
    | ConditionFrame(statement: ConditionalStatement)               // child is the statement's Condition
    | TernaryConditionFrame                                         // child is `If(c, a, b)`'s Condition
    | TernaryBranchFrame
    | LambdaBodyFrame
    | ArgumentFrame                                                 // parent is an ArgumentSyntax
    | NameColonEqualsFrame
    | NamedFieldInitializerFrame
    | InferredFieldInitializerFrame
    | OtherExpressionFrame
    | OtherNodeFrame

  /** Whether the parent the frame describes is a VB `ExpressionSyntax`. */
  predicate IsExpressionFrame(f: Frame) {
    match f
    case ConditionFrame(_) => false
    case ArgumentFrame => false
    case NameColonEqualsFrame => false
    case NamedFieldInitializerFrame => false
    case InferredFieldInitializerFrame => false
    case OtherNodeFrame => false
    case _ => true
  }

  predicate IsBinaryFrame(f: Frame) {
    f.BinaryLeftFrame? || f.BinaryRightFrame?
  }

  /** The operator of the binary parent a binary frame describes. */
  function FrameOp(f: Frame): VbBinOp
    requires IsBinaryFrame(f)
  {
    f.op
  }

  /** Roslyn's `SyntaxKind` of a node, as far as the model tells kinds apart. */
  datatype NodeKind =
    | ParenthesizedExpressionKind
    | BinaryExpressionKind(op: VbBinOp)
    | UnaryExpressionKind(unOp: VbUnOp)
    | MemberAccessExpressionKind(accessKind: MemberAccessKind)
    | ConditionalAccessExpressionKind
    | StatementKind(statement: ConditionalStatement)
    | TernaryConditionalExpressionKind
    | LambdaExpressionKind
    | SimpleArgumentKind
    | NameColonEqualsKind
    | NamedFieldInitializerKind
    | InferredFieldInitializerKind
    | OtherExpressionKind
    | OtherNodeKind

  /** The kind of the parent a frame describes. */
  function ParentKind(f: Frame): NodeKind {
    match f
    case ParenFrame => ParenthesizedExpressionKind
    case BinaryLeftFrame(op, _) => BinaryExpressionKind(op)
    case BinaryRightFrame(op, _) => BinaryExpressionKind(op)
    case UnaryFrame(op) => UnaryExpressionKind(op)
    case MemberAccessExpressionFrame(k) => MemberAccessExpressionKind(k)
    case MemberAccessNameFrame(k) => MemberAccessExpressionKind(k)
    case ConditionalAccessExpressionFrame => ConditionalAccessExpressionKind
    case ConditionalAccessWhenNotNullFrame => ConditionalAccessExpressionKind
    case ConditionFrame(s) => StatementKind(s)
    case TernaryConditionFrame => TernaryConditionalExpressionKind
    case TernaryBranchFrame => TernaryConditionalExpressionKind
    case LambdaBodyFrame => LambdaExpressionKind
    case ArgumentFrame => SimpleArgumentKind
    case NameColonEqualsFrame => NameColonEqualsKind
    case NamedFieldInitializerFrame => NamedFieldInitializerKind
    case InferredFieldInitializerFrame => InferredFieldInitializerKind
    case OtherExpressionFrame => OtherExpressionKind
    case OtherNodeFrame => OtherNodeKind
  }
}

=== FILE: vb_syntax_node_extensions.dfy ===
/** Predicates over Visual Basic nodes that the lowering and the name expander
    consult (`VbSyntaxNodeExtensions`): purity, safe reusability, condition
    position and precedence. */
module VbSyntaxNodeExtensions {
  import opened Options
  import opened VbSyntax
  import opened CsSyntax
  import opened CsSemantics
  import opened SyntaxExtensions

  /** A resolved symbol whose re-reading is cheap and has no side effect. */
  predicate IsReusableSymbol(s: Symbol) {
    s.kind == Local || s.kind == Field || s.kind == Parameter || s.isAutoProperty
  }

  /** `IsSafelyReusable`: a literal, or a reference to a local, field,
      parameter or auto-property, looking through parentheses. */
  predicate IsSafelyReusable(e: VbExpr) {
    var s := SkipIntoParens(e);
    s.Literal? || (SymbolOf(s).Some? && IsReusableSymbol(SymbolOf(s).value))
  }

  /** `IsPureExpression`: safely reusable, or an operator applied to pure
      operands. The source first peels parentheses and then recurses into
      operands; recursing through each parenthesis layer is the same test
      (see `PureLooksThroughParens`). */
  predicate IsPureExpression(e: VbExpr) {
    if e.Parenthesized? then IsPureExpression(e.inner)
    else
      IsSafelyReusable(e)
      || (e.Binary? && IsPureExpression(e.left) && IsPureExpression(e.right))
      || (e.Unary? && IsPureExpression(e.operand))
  }

  /** Purity and reusability look through any number of parentheses. */
  lemma {:induction false} PureLooksThroughParens(e: VbExpr, k: nat)
    ensures IsPureExpression(WrapParens(e, k)) == IsPureExpression(e)
    ensures IsSafelyReusable(WrapParens(e, k)) == IsSafelyReusable(e)
  {
    SkipIntoParensOfWrap(e, k);
    if k > 0 {
      PureLooksThroughParens(e, k - 1);
    }
  }

  /** The source's formulation: purity of `e` is decided on `e` with its
      parentheses peeled. */
  lemma PureOfPeeled(e: VbExpr)
    ensures IsPureExpression(e) == IsPureExpression(SkipIntoParens(e))
    ensures IsSafelyReusable(e) == IsSafelyReusable(SkipIntoParens(e))
  {
    SkipIntoParensRoundTrip(e);
    PureLooksThroughParens(SkipIntoParens(e), ParenDepth(e));
  }

  /** Anything safely reusable is pure. */
  lemma {:induction false} ReusableImpliesPure(e: VbExpr)
    requires IsSafelyReusable(e)
    ensures IsPureExpression(e)
  {
    if e.Parenthesized? {
      assert SkipIntoParens(e) == SkipIntoParens(e.inner);
      ReusableImpliesPure(e.inner);
    }
  }

  /** Every literal, however parenthesised, is safely reusable. */
  lemma LiteralsAreReusable(v: LiteralValue, k: nat)
    ensures IsSafelyReusable(WrapParens(Literal(v), k))
  {
    PureLooksThroughParens(Literal(v), k);
  }

  /** A non-literal whose symbol the oracle cannot resolve is not reusable. */
  lemma UnresolvedIsNotReusable(e: VbExpr)
    requires !SkipIntoParens(e).Literal? && SymbolOf(SkipIntoParens(e)).None?
    ensures !IsSafelyReusable(e)
  {
  }

  /** A binary expression is pure exactly when both operands are, a unary one
      exactly when its operand is. */
  lemma PurityOfOperators(op: VbBinOp, u: VbUnOp, l: VbExpr, r: VbExpr)
    ensures IsPureExpression(Binary(op, l, r)) <==> IsPureExpression(l) && IsPureExpression(r)
    ensures IsPureExpression(Unary(u, l)) <==> IsPureExpression(l)
  {
  }

  /** Any other shape that is not reusable, an invocation for one, is impure. */
  lemma ImpureShapes(e: VbExpr)
    requires !e.Parenthesized? && !e.Binary? && !e.Unary? && !IsSafelyReusable(e)
    ensures !IsPureExpression(e)
  {
  }

  /** The frame of a statement or ternary whose condition is always a C# `bool`. */
  predicate IsConditionSlot(f: Frame) {
    f.ConditionFrame? || f.TernaryConditionFrame?
  }

  /** `AlwaysHasBooleanTypeInCSharp` for the node whose ancestor path is `ctx`:
      after climbing out of parentheses the parent is a single-line `If`, an
      `If`, an `ElseIf` or a ternary `If(…)` and the node, peeled, is its
      peeled `Condition`. A parent reached through parentheses has exactly one
      child in that slot, so the comparison of peeled nodes holds whenever the
      slot is the condition, whichever layer the node is. */
  predicate AlwaysHasBooleanTypeInCSharp(ctx: seq<Frame>) {
    var k := SkipOutOfParens(ctx);
    k < |ctx| && IsConditionSlot(ctx[k])
  }

  /** A condition position is the condition slot of some ancestor reached
      through parentheses only. */
  lemma ConditionPositionModuloParens(ctx: seq<Frame>)
    ensures AlwaysHasBooleanTypeInCSharp(ctx)
        <==> exists k :: 0 <= k < |ctx| && (forall j :: 0 <= j < k ==> ctx[j].ParenFrame?) && IsConditionSlot(ctx[k])
  {
    if exists k :: 0 <= k < |ctx| && (forall j :: 0 <= j < k ==> ctx[j].ParenFrame?) && IsConditionSlot(ctx[k]) {
      var k :| 0 <= k < |ctx| && (forall j :: 0 <= j < k ==> ctx[j].ParenFrame?) && IsConditionSlot(ctx[k]);
      SkipOutOfParensParenPrefix(ctx, k);
    }
  }

  /** Wrapping a node in more parentheses keeps it in condition position. */
  lemma ConditionPositionUnderParens(ctx: seq<Frame>)
    requires AlwaysHasBooleanTypeInCSharp(ctx)
    ensures AlwaysHasBooleanTypeInCSharp([ParenFrame] + ctx)
  {
    assert ([ParenFrame] + ctx)[1..] == ctx;
  }

  /** `PrecedenceCouldChange`: the parent is a member access, or the parent is
      an expression other than a lambda or parentheses and the node itself is
      not a binary expression (the source calls that flag
      `parentIsBinaryExpression`, but tests the node). */
  predicate PrecedenceCouldChange(node: VbExpr, ctx: seq<Frame>) {
    var nodeIsBinaryExpression := node.Binary?;
    var parentIsLambda := |ctx| > 0 && ctx[0].LambdaBodyFrame?;
    var parentIsNonArgumentExpression := |ctx| > 0 && IsExpressionFrame(ctx[0]) && !ctx[0].ArgumentFrame?;
    var parentIsParenthesis := |ctx| > 0 && ctx[0].ParenFrame?;
    var parentIsMemberAccessExpression :=
      |ctx| > 0 && (ctx[0].MemberAccessExpressionFrame? || ctx[0].MemberAccessNameFrame?);
    parentIsMemberAccessExpression
    || (parentIsNonArgumentExpression && !nodeIsBinaryExpression && !parentIsLambda && !parentIsParenthesis)
  }

  /** A member-access parent always forces parentheses; a root, a statement,
      an argument, a lambda body or a parenthesis never does. */
  lemma PrecedenceByParent(node: VbExpr, ctx: seq<Frame>)
    ensures |ctx| > 0 && (ctx[0].MemberAccessExpressionFrame? || ctx[0].MemberAccessNameFrame?)
            ==> PrecedenceCouldChange(node, ctx)
    ensures (|ctx| == 0 || !IsExpressionFrame(ctx[0]) || ctx[0].LambdaBodyFrame? || ctx[0].ParenFrame?)
            ==> !PrecedenceCouldChange(node, ctx)
    ensures node.Binary? && |ctx| > 0 && ctx[0].BinaryRightFrame? ==> !PrecedenceCouldChange(node, ctx)
  {
  }

  /** `ParenthesizeIfPrecedenceCouldChange`: exactly one parenthesis layer is
      added when precedence could change, none otherwise; either way the C#
      expression evaluates as before. */
  function ParenthesizeIfPrecedenceCouldChange(node: VbExpr, ctx: seq<Frame>, expression: CsExpr): (r: CsExpr)
    ensures PrecedenceCouldChange(node, ctx) ==> r == ParenExpr(expression)
    ensures !PrecedenceCouldChange(node, ctx) ==> r == expression
    ensures SkipIntoParensCs(Some(r)) == SkipIntoParensCs(Some(expression))
    ensures forall env, st :: Eval(r, env, st) == Eval(expression, env, st)
  {
    if PrecedenceCouldChange(node, ctx) then ParenExpr(expression) else expression
  }
}
